=== FILE: README.md ===
# FocusBrief in Dafny

FocusBrief turns a piece of content into a "capsule": a title, a summary, a list
of actions, a priority, a sentiment and tags, produced by a Gemini model. This
project models the following parts of it:

- **The capsule pipeline of the Express server** (`focusbrief-api/server.js`):
  - the text, URL and file routes;
  - the lookup and delete routes;
  - the YouTube and Twitter fetchers with their fallback chains;
  - the reply clean-up;
  - the basic HTML-to-text conversion.
- **The serverless handlers** under `api/`:
  - text, URL and file processing;
  - login;
  - token verification.
- **The browser side:**
  - the session (`auth.ts`) and the capsule store (`api.ts`);
  - the error mapping (`errors.ts`) and the share texts (`ShareModal.tsx`);
  - the logic of the pages: new capsule, capsule detail, dashboard, archive and settings.

## How things are represented

The network, the model, HMAC, base64, `JSON.parse`/`JSON.stringify`,
Readability, `new URL`, the clock and the random source are parameters:
functions the caller supplies, or values handed in. So every operation is a
pure function of its inputs, and a lemma can state how the parts fit together.

| Source concept | Dafny |
|---|---|
| JavaScript values | `Json.JsonValue` |
| `localStorage` | `Browser.Storage`, a map from keys to texts |
| The server's capsule file | a sequence of capsule objects |
| HTTP replies | `Http.Reply`: a status and an optional body |

Two programs contain the same processing flow, and the model keeps them apart:

- the Express server (`Server`);
- the serverless handlers (`ApiProcess`, `ApiProcessUrl`, `ApiProcessFile`).

Lemmas relate the two programs where they agree, and state where they differ:

- the length cap;
- the empty error message;
- the format check of the URL.

Text lengths are counted in Unicode characters. JavaScript counts UTF-16 code
units, so the two differ on characters outside the Basic Multilingual Plane
(see "Left out").

The property at the centre of the model is the session token:

- `login.js` signs a JSON text with an HMAC and base64-encodes `data:signature`.
- The file handler splits the decoded token at the last colon, so a fresh token
  is accepted there until its expiry (`Session.IssuedTokenVerifiesAtLastColon`,
  `Login.LoginThenUpload`).
- The verify handler splits at the first colon. The JSON text itself holds
  colons, so no issued token is ever accepted there
  (`Session.IssuedTokenFailsAtFirstColon`).
- The browser then sees its fresh session reported as invalid
  (`ClientAuth.LoggedInBrowserIsNotVerified`). This is the first finding below.

A second finding is on the capsule page: a visit saves the empty list of done
actions before it reads the saved ones, so earlier marks are lost
(`CapsuleDetail.MountForgetsMarks`). `CapsuleDetail.MountLoadedFirst` saves
only after loading, and keeps them (`CapsuleDetail.SaveThenMountKeepsMarks`).

## Model

| member | source | states |
|---|---|---|
| Http.PostGate | api/process.js:40-46 | the preflight OPTIONS gets an empty 200 and every method other than POST gets a 405; only a POST passes |
| Http.MessageOr | focusbrief-api/server.js:266-269 | `error.message \|\| fallback`: a non-empty message is kept and an empty one replaced |
| Http.CapsuleReply | focusbrief-api/server.js:261 | the success reply carries exactly the capsule it was built from |
| Http.CapsuleReplyCarries | api/process.js:91 | reading the capsule back from a capsule reply gives the capsule, and the reply carries no error |
| Capsule.Assemble | focusbrief-api/server.js:248-254 | `{ id, ...data, ...provenance }`: the key set is the union; provenance fields override the model's fields, which override the generated id |
| Capsule.ProvenanceWins | api/process.js:83-89 | source, sourceType and createdAt of the capsule are the request's, whatever the model put in those fields |
| Capsule.ModelIdWins | api/process.js:84-85 | an `id` in the model's reply replaces the generated id, because the spread follows it |
| Capsule.ScalarReplyKeepsId | focusbrief-api/server.js:248-254 | a reply that is not an object adds no fields: the capsule is the generated id plus the provenance |
| Capsule.Prepend | focusbrief-api/server.js:257-259 | `unshift`: the new capsule is first and the old store follows unchanged |
| Capsule.FindIndex | focusbrief-api/server.js:462-466 | the index of the first capsule with the id, and none exactly when no capsule has it |
| Capsule.Find | focusbrief-api/server.js:449-454 | the lookup finds nothing exactly when no capsule has the id; otherwise it finds a stored capsule with that id |
| Capsule.DeleteFirst | focusbrief-api/server.js:459-472 | the server's delete removes exactly one capsule, the first one with the id, and gives the 404 case exactly when none has it |
| Capsule.DeleteAll | src/services/api.ts:133-138 | the browser's delete keeps exactly the capsules without the id |
| Capsule.DeleteAllConcat | src/services/api.ts:135 | the browser's delete distributes over concatenation, so the kept capsules stay in order |
| Capsule.DeleteFirstUndoesPrepend | focusbrief-api/server.js:257-259 | deleting the id of the capsule just created restores the store exactly |
| Capsule.FindAfterPrepend | focusbrief-api/server.js:449-454 | a lookup right after a create finds the new capsule, even when an older one has the same id |
| Capsule.DeleteAllKeepsOthers | src/services/api.ts:135 | a delete of an id no capsule has leaves the list unchanged |
| Capsule.DeletesDiffer | focusbrief-api/server.js:469 | with a duplicated id the server's delete leaves the later copy, which a lookup still finds; the browser's delete leaves none |
| ModelReply.StripToken | focusbrief-api/server.js:142 | `replace(/tok\n?/g, '')` never lengthens the text |
| ModelReply.StripTokenPlain | focusbrief-api/server.js:142 | a prefix without the token's first character passes through, and the rest is stripped on its own |
| ModelReply.StripTokenShort | focusbrief-api/server.js:142 | a text shorter than the token is left as it is |
| ModelReply.CleanFences | api/process.js:73 | the reply clean-up never lengthens the reply and leaves no white space at either end |
| ModelReply.CleanJsonBlock | focusbrief-api/server.js:142 | a reply wrapped in a "```json" block cleans to its body |
| ModelReply.CleanPlainBlock | api/process-url.js:120 | a reply wrapped in a bare "```" block cleans to its body |
| ModelReply.CleanWithoutFences | api/process-file.js:180 | a reply without backticks is only trimmed |
| ModelReply.ParseReply | focusbrief-api/server.js:144-152 | a parse failure carries the cleaned text; a success is the parse of that text |
| Prompts.TextPrompt | focusbrief-api/server.js:130-134 | the prompt is the instructions, the line naming type and source, and the content at its end |
| Prompts.TextPromptInjective | api/process.js:62-66 | two different contents always give two different prompts |
| Prompts.UploadPrompt | focusbrief-api/server.js:377-379 | the file prompt starts with the instructions and names the uploaded file |
| Prompts.Fill | api/process-file.js:80-108 | the filled prompt starts with the template's opening text and contains the file name in double quotes |
| Prompts.PromptForMediaType | api/process-file.js:80-108 | the prompt contains the file name in double quotes; any type name other than image, audio and video gets the document template |
| Prompts.FillInjective | api/process-file.js:80-108 | distinct file names give distinct prompts of the same type |
| Media.Lookup | api/process-file.js:71-78 | the category returned has an entry with a matching listed type; none exactly when no entry matches |
| Media.CategoryMatches | api/process-file.js:73 | a category matches exactly when the MIME type starts with one of its leading words |
| Media.ListedMatchesWord | api/process-file.js:73 | a listed type `w/rest` matches exactly the inputs that start with `w` |
| Media.GetMediaTypeByPrefix | api/process-file.js:71-78 | `getMediaType` is decided by the leading word alone: image, audio and video by their word, and document by "application" or "text" |
| Media.GetMediaType | api/process-file.js:71-78 | no type exactly when no category matches; otherwise the first category, in the listed order, that matches |
| ApiProcessFile.ApplicationIsDocument | api/process-file.js:64-78 | every "application/…" type is accepted as a document, not only "application/pdf" |
| YouTube.FromLibrary | focusbrief-api/lib/fetchers/youtube.js:7-17 | the library's transcript is its segments joined by spaces, with the default title when the library gives none |
| YouTube.CaptionUrl | focusbrief-api/lib/fetchers/youtube.js:51-61 | the Spanish track's URL is preferred, then the first track, with the `\u0026` escape turned into `&` |
| YouTube.FragmentHere | focusbrief-api/lib/fetchers/youtube.js:79 | a `<text …>…</text>` element at the front ends within the text, and its captured text holds no `<` |
| YouTube.Fragments | focusbrief-api/lib/fetchers/youtube.js:79-90 | the captured caption texts, in order; none of them holds a `<` |
| YouTube.FromTimedText | focusbrief-api/lib/fetchers/youtube.js:20-101 | each failure is its own error: the network message, "YouTube page fetch failed: <status>", no caption tracks, no caption URL, the caption fetch's network message or "Caption fetch failed: <status>", and no caption text; otherwise the decoded fragments joined by spaces, the page title or the default, marked "timedtext-api" |
| YouTube.DecodeFragment | focusbrief-api/lib/fetchers/youtube.js:82-88 | the decoded fragment holds no line break, and a fragment without `&` only has its line breaks turned into spaces |
| YouTube.DecodeEscaped | focusbrief-api/lib/fetchers/youtube.js:82-88 | decoding inverts XML escaping for single-line texts without `&` |
| YouTube.DecodeUnescapesTwice | focusbrief-api/lib/fetchers/youtube.js:83-84 | because `&amp;` is decoded first, an escaped literal "&lt;" comes out as "<" |
| YouTube.FetchTranscript | focusbrief-api/lib/fetchers/youtube.js:104-134 | the library's transcript when it succeeds; otherwise the timed-text title and text with source "timedtext-api"; a null transcript exactly when both fail, and then no title, the source "none" and the error "youtube-transcript-api: <reason>; timedtext-api: <reason>" |
| YouTube.FetchTranscriptReportsBoth | focusbrief-api/lib/fetchers/youtube.js:124-133 | when both methods fail, the error names each one with its own reason |
| YouTube.GetYoutubeId | focusbrief-api/lib/fetchers/youtube.js:136-140 | the id is 11 characters long and holds no `#`, `&` or `?` |
| YouTube.GetYoutubeIdOfWatchLink | focusbrief-api/lib/fetchers/youtube.js:137-139 | a `…youtube.com/watch?v=<11 chars>` link gives its id |
| YouTube.FormatYouTubeContent | focusbrief-api/lib/fetchers/youtube.js:142-154 | there is text exactly when the transcript is non-empty; the text starts with the header naming the id and ends with the transcript |
| YouTube.NoTextWithoutTranscript | focusbrief-api/lib/fetchers/youtube.js:124-133 | a chain whose methods all fail yields no content for the model |
| Twitter.Body | focusbrief-api/lib/fetchers/twitter.js:11-15 | a network error is passed on; a status that is not ok gives "<endpoint> HTTP <status>"; an ok reply is its parsed body |
| Twitter.FromFx | focusbrief-api/lib/fetchers/twitter.js:4-28 | after the HTTP checks, it fails with "Tweet not found (code: <code>)" exactly when the code is not 200 or the tweet is falsy; otherwise each field is copied from the tweet when truthy and defaults to "Desconocido", "unknown", the raw text or "", and 0; author and handle are always truthy |
| Twitter.FxDefaults | focusbrief-api/lib/fetchers/twitter.js:21-27 | a tweet with only a text gets the default author and handle and zero counts |
| Twitter.FromVx | focusbrief-api/lib/fetchers/twitter.js:31-55 | after the HTTP checks, it fails with "Tweet content not found" exactly when the text is falsy; otherwise each field is copied when truthy and defaults to "Desconocido", "unknown" and 0 |
| Twitter.FromSyndication | focusbrief-api/lib/fetchers/twitter.js:58-84 | after the HTTP checks, it fails with "Tweet content not found in syndication" exactly when the text is falsy; otherwise each field is copied from the nested user when truthy and defaults to "Desconocido", "unknown" and 0 |
| Twitter.VxSyndicationAgree | focusbrief-api/lib/fetchers/twitter.js:48-54 | the vxtwitter and syndication readers give the same tweet for the same fields under each endpoint's names |
| Twitter.FetchTweet | focusbrief-api/lib/fetchers/twitter.js:87-111 | the first of fxtwitter, vxtwitter and syndication that yields a tweet wins; it fails exactly when all three fail, with the fixed Spanish prefix |
| Twitter.FetchTweetReportsAll | focusbrief-api/lib/fetchers/twitter.js:108-110 | when every endpoint fails, the error names each one with its reason |
| Twitter.GetTweetId | focusbrief-api/lib/fetchers/twitter.js:113-116 | the id is a non-empty run of digits |
| Twitter.GetTweetIdLeftmost | focusbrief-api/lib/fetchers/twitter.js:113-116 | no id exactly when no position of the URL starts a match; otherwise the id of the leftmost position that does |
| Twitter.GetTweetIdOfStatusLink | focusbrief-api/lib/fetchers/twitter.js:114 | `https://twitter.com/<user>/status/<digits>…` and `https://x.com/<user>/status/<digits>…` give exactly their digits |
| Twitter.GetTweetIdAtHost | focusbrief-api/lib/fetchers/twitter.js:114 | a match at the front on either host gives the digits after "/status/" |
| Twitter.FormatTweetContent | focusbrief-api/lib/fetchers/twitter.js:118-126 | the text opens with the tweet type line and "AUTOR: <author> (@<handle>)", and closes with "METADATOS: <likes> Likes, <retweets> Retweets" |
| Twitter.FormatTweetContentHasText | focusbrief-api/lib/fetchers/twitter.js:123 | the tweet's text reaches the model verbatim |
| Twitter.FormatTweetContentNamesAll | focusbrief-api/lib/fetchers/twitter.js:120-125 | the author, the handle and both counts reach the model |
| Fallback.Run | focusbrief-api/lib/fetchers/twitter.js:96-106 | the winner succeeded and every method before it failed, with its error recorded; when none succeeds, every method's error is recorded in order |
| Fallback.RunFindsAny | focusbrief-api/lib/fetchers/youtube.js:112-122 | the chain succeeds exactly when one of its methods succeeds |
| Fallback.RunIgnoresRest | focusbrief-api/lib/fetchers/twitter.js:96-101 | methods after the winner are never consulted: replacing them changes nothing |
| Fallback.SummaryMentions | focusbrief-api/lib/fetchers/twitter.js:109 | the summary names every failed method with its reason |
| Fallback.SummaryOfTwo | focusbrief-api/lib/fetchers/youtube.js:124-133 | the summary of two failures is "<name>: <reason>; <name>: <reason>" |
| UrlKind.ClassifyUrl | focusbrief-api/server.js:291-296 | YouTube exactly when a YouTube host name occurs; Twitter when a Twitter host name occurs and no YouTube one; otherwise an article |
| UrlKind.YouTubeWins | api/process-url.js:89-94 | a URL that names YouTube anywhere is a YouTube source, whatever else it names |
| UrlKind.XComAnywhere | api/process-url.js:92 | any URL holding "x.com" and no YouTube marker is classed as a tweet |
| UrlKind.DropboxIsTwitter | focusbrief-api/server.js:294 | a Dropbox link is classed as a tweet, because "dropbox.com" ends in "x.com" |
| UrlKind.NoHostLettersIsArticle | focusbrief-api/server.js:291-296 | an address without the letters 'y', 'w' and 'c' is an article |
| UrlKind.PlainSiteIsArticle | focusbrief-api/server.js:291-296 | an address that names none of the hosts is an article |
| HtmlText.CiIndexOf | focusbrief-api/server.js:207-208 | the index of the first case-insensitive occurrence, with no occurrence before it |
| HtmlText.RemoveBlocks | focusbrief-api/server.js:207-208 | script and style blocks are removed, case-insensitively and lazily; the text never grows |
| HtmlText.RemoveBlocksPlain | api/process-url.js:49-50 | a text with no `<` is left unchanged |
| HtmlText.TagsToSpaces | focusbrief-api/server.js:209 | replacing tags by spaces never lengthens the text |
| HtmlText.TagsToSpacesPlain | api/process-url.js:51 | a text with no `<` is left unchanged |
| HtmlText.Collapse | focusbrief-api/server.js:210 | every run of white space becomes one space, so the result is single-spaced |
| HtmlText.CollapseSingleSpaced | api/process-url.js:52 | collapsing leaves an already single-spaced text unchanged |
| HtmlText.CollapseShrinks | api/process-url.js:52 | collapsing never lengthens a text |
| HtmlText.TrimSingleSpaced | api/process-url.js:53 | trimming keeps a text single-spaced |
| HtmlText.HtmlToText | focusbrief-api/server.js:207-211 | the conversion gives normalised text: single-spaced and with nothing at either end |
| HtmlText.HtmlToTextPlain | api/process-url.js:48-53 | text that is already normalised and has no markup comes back unchanged |
| HtmlText.Truncate | api/process-url.js:56-58 | a text of at most 10000 characters is kept; a longer one becomes its first 10000 characters and "..." |
| HtmlText.TruncateIdempotent | api/process-url.js:56-58 | cutting a text twice is cutting it once |
| HtmlText.TruncateMayKeepLongText | api/process-url.js:56-58 | some text over 10000 characters is left unchanged by the cut, so a cut text cannot always be told from an uncut one |
| Server.ProcessWithGemini | focusbrief-api/server.js:124-160 | without a model, "not initialized"; otherwise the model's error, the fixed format error for a reply that does not parse, or the parsed data |
| Server.FetchUrlContent | focusbrief-api/server.js:162-219 | a YouTube id gives the formatted transcript, or null when there is none; otherwise a tweet id gives the formatted tweet or the chain's error unchanged; otherwise the generic page text, or its error behind "Error de extracción: " |
| Server.ExhaustedVideoIsNull | focusbrief-api/server.js:164-176 | a video whose two transcript methods both fail gives null, so the caller falls back to the video itself |
| Server.GenericContent | focusbrief-api/server.js:187-213 | a network error is passed on; a status that is not ok gives "Error al acceder a la URL: HTTP <status>"; a page Readability cannot read gives its basic text conversion; otherwise the article text |
| Server.ArticleText | focusbrief-api/server.js:214 | fails exactly when the article has no text content; otherwise it opens with "Título: <title>" and ends with the trimmed text content |
| Server.FallbackIsNormalized | focusbrief-api/server.js:205-211 | a page Readability cannot read is reduced to normalised text |
| Server.HttpErrorIsPrefixed | focusbrief-api/server.js:196-198 | a failed page fetch is reported with its status behind the extraction prefix |
| Server.ModelOutcome | focusbrief-api/server.js:257-269 | a failure is a 500 with the message or the default, and the store is unchanged; a success is a 200 with one capsule added in front, carrying the provenance |
| Server.ProcessRoute | focusbrief-api/server.js:233-271 | blank content gives a 400; over 100000 characters a 400; any non-200 leaves the store unchanged; a 200 adds one capsule in front |
| Server.ProcessGateIgnoresModel | focusbrief-api/server.js:238-244 | a rejected request gets the same outcome whatever the model is |
| Server.GeminiFencedReply | focusbrief-api/server.js:137-146 | a model reply in a "```json" block is parsed as its body |
| Server.ProcessSucceeds | focusbrief-api/server.js:246-261 | parseable model data becomes a new capsule at the head of the store, with the request's provenance or its defaults |
| Server.ProcessUnparsableReply | focusbrief-api/server.js:146-152 | a reply that does not parse fails with the fixed message and stores nothing |
| Server.GeminiUnparsable | focusbrief-api/server.js:144-152 | a reply that does not parse is reported with the fixed message |
| Server.InvalidFormatShown | focusbrief-api/server.js:266-269 | the fixed message is not empty, so it is not replaced by the default |
| Server.ProcessUrlRoute | focusbrief-api/server.js:274-342 | a blank URL gives a 400 "required"; a malformed one a 400 "invalid"; any non-200 leaves the store unchanged; a 200 adds one capsule |
| Server.NullContentOffYouTube | focusbrief-api/server.js:302-315 | a video id in a URL naming no YouTube host gives the generic "not enough content" reply |
| Server.ShortContentRejected | focusbrief-api/server.js:310-315 | extracted text under 50 characters is rejected before the model is consulted, whatever the model is |
| Server.ProcessFileRoute | focusbrief-api/server.js:345-436 | no file gives a 400; a file too large a 400; no model a 500; any non-200 leaves the store unchanged |
| Server.UploadSourceType | focusbrief-api/server.js:409 | an upload's source type is the MIME type's part before the '/': "image/png" is stored as "image" |
| Server.GetCapsuleRoute | focusbrief-api/server.js:446-456 | a 404 exactly when no capsule has the id; a 200 carries the first such capsule |
| Server.DeleteCapsuleRoute | focusbrief-api/server.js:459-472 | a 404 exactly when no capsule has the id, and then the store is unchanged; a 200 removes only the first capsule with the id, the others staying in order |
| Server.CreateThenDelete | focusbrief-api/server.js:257-259 | deleting the capsule a route just created brings the store back |
| ApiProcess.Answer | api/process.js:68-95 | a model error is a 500 with its message; a reply that does not parse after the clean-up is a 500 with "Invalid response from AI"; there is a capsule exactly when the reply parses, and it carries the request's provenance |
| ApiProcess.Handle | api/process.js:34-96 | OPTIONS gives a 200; other methods a 405; blank content a 400; no API key a 500; a capsule reply carries the provenance |
| ApiProcess.UnparsableReply | api/process.js:76-81 | a reply that does not parse is answered with "Invalid response from AI" and no capsule |
| ApiProcess.HandleAfterGates | api/process.js:55-91 | a request that passes the gates is answered by the model step |
| ApiProcess.AnswerUnparsable | api/process.js:76-81 | the model step alone answers an unparsable reply with the fixed message |
| ApiProcess.EmptyModelErrorKept | api/process.js:92-95 | an empty model error is sent as "" here, while the Express server substitutes its default |
| ApiProcess.AgreesWithServer | api/process.js:83-91 | where both accept the content and the model gives capsule data, this handler and the Express route reply the same |
| ApiProcess.AnswerOfServerData | api/process.js:68-89 | the data the Express server takes from a reply makes the same capsule here |
| ApiProcess.NoLengthCap | api/process.js:51-57 | content over 100000 characters is still processed here, while the Express server refuses it |
| ApiProcessUrl.FetchUrlContent | api/process-url.js:34-61 | a network error or HTTP error is an error naming it; a success is at most 10003 characters and normalised when not cut |
| ApiProcessUrl.PlainPageKept | api/process-url.js:45-60 | a short plain-text page comes back unchanged |
| ApiProcessUrl.LongPageCut | api/process-url.js:55-58 | a long page is cut to its first 10000 characters and "..." |
| ApiProcessUrl.Handle | api/process-url.js:63-143 | OPTIONS gives a 200; other methods a 405; a blank URL a 400; no API key a 500; a fetched page long enough is answered by the model step; a capsule carries the URL as its source |
| ApiProcessUrl.GatesBeforeFetch | api/process-url.js:80-86 | with a blank URL or no API key the answer does not depend on the network |
| ApiProcessUrl.HttpErrorReported | api/process-url.js:41-43 | a page answered with an HTTP error gives a 500 naming the status |
| ApiProcessUrl.NoFormatCheck | api/process-url.js:77-97 | a text the Express server refuses as a URL is fetched here, and the network's error comes back |
| ApiProcessFile.DefaultedFields | api/process-file.js:190-202 | every defaulted field is `model value \|\| default` |
| ApiProcessFile.FileCapsule | api/process-file.js:190-207 | the capsule keeps the defaults, the title fallbacks, the id, the media type, the time and the model name; the source only when one is given |
| ApiProcessFile.DefaultOnlyWhenFalsy | api/process-file.js:192-201 | a truthy model value is copied and a falsy one replaced by the default |
| ApiProcessFile.PriorityUnchecked | api/process-file.js:195 | any non-empty priority text from the model is kept, unchecked |
| ApiProcessFile.SentimentUnchecked | api/process-file.js:196 | any non-empty sentiment text from the model is kept, unchecked |
| ApiProcessFile.ProvenanceNotFromModel | api/process-file.js:203-206 | the id, source, sourceType, createdAt and processedWith fields never depend on the model's answer |
| ApiProcessFile.EmptyReplyDefaults | api/process-file.js:190-207 | an empty model object gives the file-name title (or the fixed one) and every default |
| ApiProcessFile.FilePrompt | api/process-file.js:161-173 | the prompt names the file, or "archivo" when no name is given, in double quotes |
| ApiProcessFile.RawFailure | api/process-file.js:182-188 | an unparsable reply gives a 500 "Invalid AI response" with no capsule |
| ApiProcessFile.Interpret | api/process-file.js:180-209 | a parse failure gives the raw-text failure; a capsule carries the provenance fields |
| ApiProcessFile.Answer | api/process-file.js:161-213 | a model error gives a 500 with its message; a capsule in the reply carries the new id, the media type and the time |
| ApiProcessFile.Handle | api/process-file.js:118-214 | OPTIONS gives a 200; other methods a 405; a bad token a 401; missing data a 400; no key a 500; an unsupported type a 400 |
| ApiProcessFile.GatesBeforeModel | api/process-file.js:123-146 | a request stopped by a gate gets the same answer whatever the model would say |
| ApiProcessFile.RawResponseKept | api/process-file.js:184-187 | an unparsable reply is answered with the cleaned text as rawResponse |
| Login.Handle | api/login.js:3-57 | OPTIONS gives a 200; other methods a 405; no password a 400; not configured a 500; wrong password a 401; a token exactly for the right password, expiring in seven days |
| Login.LoginThenUpload | api/login.js:35-52 | a fresh token opens the file handler until its expiry and not a millisecond longer |
| Login.LoginThenVerify | api/login.js:40-46 | the same token is never accepted by the verify handler's check |
| Session.SplitLast | api/process-file.js:12-16 | the split at the last colon gives back the frame's parts; none exactly when there is no colon |
| Session.SplitLastFrame | api/process-file.js:12-16 | framing and then splitting at the last colon restores both parts, for a signature without a colon |
| Session.SplitFirst | api/verify.js:11 | destructuring `split(':')` gives the text before the first colon and the text between the first and second |
| Session.SplitFirstIsSplit | api/verify.js:11 | the pieces are the first two elements of the general split |
| Session.Expired | api/verify.js:22-23 | a token is never expired at its own expiry instant or without an expiry |
| Session.CheckParts | api/process-file.js:18-28 | passes only with the right signature and a parsed, unexpired expiry |
| Session.VerifyFirstColon | api/verify.js:3-29 | with no token or no password, false; true only when the first-colon piece has the right signature |
| Session.VerifyLastColon | api/process-file.js:5-32 | with no token or no password, false; true only for a frame whose signature matches |
| Session.BearerToken | api/verify.js:40 | no token exactly when there is no header; a header starting with "Bearer " gives the rest of it |
| Session.BearerTokenOfHeader | api/verify.js:40 | the header "Bearer <token>" gives the token back |
| Session.TokenData | api/login.js:40 | the data opens with `{"token":"` and the random token, and closes with the expiry and `}` |
| Session.IssueSplitsBack | api/login.js:36-46 | a decoded token splits at its last colon into the token data and the signature of that data |
| Session.IssuedTokenVerifiesAtLastColon | api/process-file.js:5-32 | a token issued by login passes the last-colon check until its expiry, and fails after it |
| Session.TokenDataSplitsEarly | api/verify.js:11 | the first piece of an issued token is `{"token"` and the second starts with a double quote |
| Session.IssuedTokenFailsAtFirstColon | api/verify.js:11-19 | a token issued by login never passes the first-colon check, whatever the clock |
| Verify.Handle | api/verify.js:31-44 | always a 200; after the preflight, `{ valid }` with the first-colon verdict on the Bearer token |
| Verify.HandleCorrected | api/verify.js:31-44 | the same handler with the last-colon verdict |
| Verify.IssuedTokenReplies | api/verify.js:40-43 | for an issued token the reply is never valid as written, and valid until its expiry once corrected |
| ClientAuth.Logout | src/services/auth.ts:35-38 | both session keys go and every other key is unchanged |
| ClientAuth.GetToken | src/services/auth.ts:40-55 | a missing token or expiry gives none; the token while not expired; an expired session is logged out |
| ClientAuth.IsAuthenticated | src/services/auth.ts:57-59 | true exactly when getToken gives a token, with the same effect on the storage |
| ClientAuth.GetTokenIdempotent | src/services/auth.ts:40-55 | reading the session twice is reading it once |
| ClientAuth.LogoutEndsSession | src/services/auth.ts:35-59 | after logout there is no session |
| ClientAuth.ClientLogin | src/services/auth.ts:6-33 | true only after both keys are written; a failed request changes nothing; other keys are unchanged |
| ClientAuth.LoginThenGetToken | src/services/auth.ts:20-25 | a successful login reply opens a session that lasts exactly as long as the server said |
| ClientAuth.ClientLoginOfGrant | src/services/auth.ts:22-25 | a reply that grants a token and an expiry writes both |
| ClientAuth.SessionLastsUntil | src/services/auth.ts:49 | a session written with an expiry reads back until that moment and not after |
| ClientAuth.TokenWithoutExpiry | src/services/auth.ts:22-24 | a reply with a token and no expiry writes the token, answers false and leaves no usable session |
| ClientAuth.UnreadableExpiryNeverExpires | src/services/auth.ts:49 | a stored expiry that is not a number never expires |
| ClientAuth.VerifyToken | src/services/auth.ts:61-78 | true only with an open session; the storage effect is the one of getToken |
| ClientAuth.VerifyTokenReads | src/services/auth.ts:66-74 | with the stored token sent, the browser believes the answer exactly when the session is open |
| ClientAuth.LoggedInBrowserIsNotVerified | src/services/auth.ts:61-78 | a browser that has just logged in is told its token is invalid, whatever the clock |
| ClientAuth.LoggedInBrowserIsVerifiedWhenCorrected | src/services/auth.ts:61-78 | with the corrected verify handler, the same browser is told its token is valid until expiry |
| ClientStore.Stored | src/services/api.ts:31-38 | nothing stored, an empty text or an unparsable text reads as the empty list |
| ClientStore.Save | src/services/api.ts:40-42 | the list is written under its key and every other key is unchanged |
| ClientStore.StoredAfterSave | src/services/api.ts:31-42 | what is saved is what is read next, when the codec reads it back |
| ClientStore.Add | src/services/api.ts:44-48 | the new capsule is first, followed by the old list |
| ClientStore.Get | src/services/api.ts:126-130 | none exactly when no stored capsule has the id; otherwise a stored capsule with that id |
| ClientStore.Delete | src/services/api.ts:133-138 | always success; the stored list becomes the list without the id |
| ClientStore.AddThenGet | src/services/api.ts:44-48 | a capsule added and looked up is found, even over an older one with the same id |
| ClientStore.AddThenDelete | src/services/api.ts:133-138 | deleting the id just added leaves no capsule with it, and the others in order |
| ClientStore.DeleteAbsent | src/services/api.ts:133-138 | deleting an unknown id rewrites the same list |
| ClientStore.ContentRequest | src/services/api.ts:51-62 | the body holds the content, and the source type and source with their defaults "text" and "Manual" |
| ClientStore.Outcome | src/services/api.ts:65-84 | the storage changes only by adding the reply's capsule, after a truthy success; a failed request gives a `success: false` body and no change |
| ClientStore.ProcessContent | src/services/api.ts:51-85 | the storage changes only by adding the capsule the reply carries |
| ClientStore.ProcessUrl | src/services/api.ts:88-118 | the storage changes only by adding the capsule the reply carries |
| ClientStore.StoresHandlerCapsule | src/services/api.ts:103-110 | a handler's capsule reply puts the capsule at the front of the list and is returned as it came |
| ClientStore.ReportsHandlerError | src/services/api.ts:98-101 | a handler's error reply becomes the same error, with the default for an empty one, and the storage is untouched |
| ClientStore.NoCapsuleNotStored | src/services/api.ts:106-108 | a 200 reply without a capsule is returned but not stored |
| CapsuleView.Text | src/services/api.ts:5-17 | a string field is read as it is; any other or missing value as the empty text |
| CapsuleView.Texts | src/services/api.ts:9 | a list field is read entry by entry; anything else as no entries |
| CapsuleView.Read | src/services/api.ts:5-17 | the id, actions, source, sourceType and createdAt shown are the stored fields |
| CapsuleView.ReadShowsProvenance | src/app/CapsuleDetail.tsx:241-245 | an assembled capsule shows its request's provenance, whatever the model answered |
| CapsuleView.ReadShowsId | src/app/CapsuleDetail.tsx:129-131 | a capsule found by its id shows that id |
| CapsuleView.Progress | src/app/CapsuleDetail.tsx:242-244 | 0 without actions; otherwise the nearest integer percentage, with halves rounded up |
| CapsuleView.ProgressFull | src/app/CapsuleDetail.tsx:242-244 | all actions done is 100 percent |
| CapsuleView.ProgressBounded | src/app/Dashboard.tsx:116-118 | never above 100 within the actions, and more done never shows less |
| CapsuleView.ProgressShort | src/app/Dashboard.tsx:116-118 | with fewer than 200 actions, one short of all is below 100 percent |
| CapsuleView.ProgressRoundsUp | src/app/CapsuleDetail.tsx:242-244 | with 200 actions and one still open, the page already shows 100 percent |
| CapsuleDetail.ActionsKey | src/app/CapsuleDetail.tsx:133 | the key is the fixed prefix followed by the id |
| CapsuleDetail.ActionsKeysApart | src/app/CapsuleDetail.tsx:163 | different ids give different keys, and none is the key of the capsule list |
| CapsuleDetail.Load | src/app/CapsuleDetail.tsx:123-148 | without an id it keeps loading; an unknown id is "not found"; a shown capsule is the stored one with that id; no saved marks give none |
| CapsuleDetail.SaveActions | src/app/CapsuleDetail.tsx:160-165 | the marks are written under the capsule's key and every other key is unchanged |
| CapsuleDetail.SaveThenLoad | src/app/CapsuleDetail.tsx:123-165 | once marks are saved, the loading effect on its own reads them back, and the capsule list is left alone |
| CapsuleDetail.Mount | src/app/CapsuleDetail.tsx:123-165 | a visit: with no id the page keeps loading; the capsule list is untouched; the marks shown are those parsed from the saved empty list, whatever was saved before, and they are what is saved afterwards |
| CapsuleDetail.MountForgetsMarks | src/app/CapsuleDetail.tsx:129-165 | a visit shows no marks and leaves the empty list saved, even when marks were saved before it |
| CapsuleDetail.MountLoadedFirst | src/app/CapsuleDetail.tsx:123-165 | the corrected visit: the page is loaded from storage as the visit found it, and only the loaded marks are saved back |
| CapsuleDetail.SaveThenMountKeepsMarks | src/app/CapsuleDetail.tsx:123-165 | with the corrected visit, the marks saved before are shown and storage is left as it was |
| CapsuleDetail.ToggleAction | src/app/CapsuleDetail.tsx:207-213 | the index is in the result exactly when it was not before, and no other index changes membership |
| Lists.ToggleTwiceSameValues | src/app/CapsuleDetail.tsx:207-213 | in a list without repeats, toggling a present index twice gives back the same values, each as often as before |
| Lists.ToggleTwiceReorders | src/app/CapsuleDetail.tsx:209-211 | toggling twice does not always give back the same list: [0, 1] becomes [1, 0] |
| CapsuleDetail.MarkComplete | src/app/CapsuleDetail.tsx:201-205 | every action index once, in order; nothing changes without a capsule |
| CapsuleDetail.MarksFit | src/app/CapsuleDetail.tsx:115 | distinct indices below n are at most n |
| CapsuleDetail.MarkCompleteShowsFull | src/app/CapsuleDetail.tsx:201-205 | after "mark all" the marks are valid and the page shows 100 percent |
| CapsuleDetail.ToggleMovesProgress | src/app/CapsuleDetail.tsx:207-244 | a toggle keeps the marks valid, moves the count by one and the percentage the same way, never past 100 |
| CapsuleDetail.Archive | src/app/CapsuleDetail.tsx:196-199 | the archive flag flips |
| CapsuleDetail.HandleDelete | src/app/CapsuleDetail.tsx:167-177 | no id or no confirmation changes nothing; otherwise the capsule and its marks go |
| CapsuleDetail.DeletedPageNotFound | src/app/CapsuleDetail.tsx:167-177 | after a confirmed delete the page finds nothing, and other capsules' marks remain |
| Dashboard.Visible | src/app/Dashboard.tsx:240-243 | exactly the capsules of the chosen priority, or all of them |
| Dashboard.AllShowsEverything | src/app/Dashboard.tsx:240-243 | "all" shows every capsule, in order |
| Dashboard.OnlyPriorityCounts | src/app/Dashboard.tsx:240-243 | each capsule of the priority is shown as often as it is stored, and the others not at all |
| Dashboard.VisibleKeepsOrder | src/app/Dashboard.tsx:240-243 | the filter distributes over concatenation, so the order is kept |
| Dashboard.DoneCount | src/app/Dashboard.tsx:113-115 | no saved marks count as 0; otherwise the length of the parsed list |
| Dashboard.CardCountsSavedMarks | src/app/Dashboard.tsx:113-115 | the marks the capsule page saves are the marks the card counts |
| Dashboard.VisitResetsCard | src/app/Dashboard.tsx:113-115 | after a visit to the capsule page the card counts no action done |
| Dashboard.ActionPreview | src/app/Dashboard.tsx:170-180 | at most the first two actions, and the "+k más" line exactly when there are more, with k the rest |
| Dashboard.CardProgress | src/app/Dashboard.tsx:116-140 | the percentage is shown exactly when above 0 |
| Dashboard.StageOf | src/app/Dashboard.tsx:258-262 | complete exactly when all of at least one action are done; not started exactly when none are |
| Dashboard.CompleteIsFull | src/app/Dashboard.tsx:116-118 | a complete capsule shows 100 percent; below 200 actions, 100 percent means complete |
| Dashboard.StagesCoverAll | src/app/Dashboard.tsx:255-264 | every capsule is at exactly one stage |
| Dashboard.CompletionStats | src/app/Dashboard.tsx:255-264 | the counts of complete and in-progress capsules, which with the not-started ones add up to all |
| Dashboard.ThisWeek | src/app/Dashboard.tsx:247-252 | at most all capsules, and all when every one is recent |
| Archive.Search | src/app/Archive.tsx:177-181 | exactly the capsules whose title, summary or a tag contains the query, case ignored |
| Archive.EmptyQueryShowsAll | src/app/Archive.tsx:177-181 | an empty search shows every archived capsule, in order |
| Archive.SearchKeepsOrder | src/app/Archive.tsx:177 | the results keep the archive's order |
| Archive.QueryCaseIgnored | src/app/Archive.tsx:178-180 | the case of the query does not matter |
| Archive.TypingNarrows | src/app/Archive.tsx:177-181 | whatever a longer query shows, the query it extends shows too |
| Settings.ToggleNotification | src/app/Settings.tsx:67-72 | every switch with the id flips and nothing else changes; the toast is fixed |
| Settings.ToggleNotificationTwice | src/app/Settings.tsx:67-70 | flipping twice gives back the switches |
| Settings.ToggleUnknownNotification | src/app/Settings.tsx:67-70 | an unknown id changes nothing |
| Settings.ToggleIntegration | src/app/Settings.tsx:74-80 | the id is connected exactly when the toast says so; the other integrations are unchanged |
| Settings.ConnectThenDisconnect | src/app/Settings.tsx:74-80 | connecting and then disconnecting gives back the list, and the two toasts differ |
| Settings.DisconnectDefault | src/app/Settings.tsx:52 | disconnecting WhatsApp from the defaults leaves email |
| NewCapsule.SelectFile | src/app/NewCapsule.tsx:74-93 | no file changes nothing; a file over 50 MB only sets the error; any other file is taken, with a preview exactly for images and videos |
| NewCapsule.OversizeKeepsEarlierPick | src/app/NewCapsule.tsx:76-80 | a file that is too large leaves the earlier pick selected |
| NewCapsule.IconOf | src/app/NewCapsule.tsx:103-109 | the image icon exactly for images; the PDF icon only for "application/pdf"; the text icon only for other types |
| NewCapsule.IconAgreesWithMedia | src/app/NewCapsule.tsx:103-109 | every icon but the text one names the media type the file handler assigns |
| NewCapsule.Submit | src/app/NewCapsule.tsx:111-141 | the file tab needs a file and the others a non-blank text, each with its own message; what is sent is the input, untrimmed |
| NewCapsule.SwitchTab | src/app/NewCapsule.tsx:186-191 | changing tab clears the text, the file, the preview and the error |
| NewCapsule.SwitchedFormRefused | src/app/NewCapsule.tsx:111-128 | right after a tab change nothing can be sent |
| NewCapsule.ShowResponse | src/app/NewCapsule.tsx:143-147 | the result card exactly when success and capsule are truthy; otherwise the error or the default message |
| NewCapsule.Process | src/app/NewCapsule.tsx:111-153 | a refused form shows its error and stores nothing; the storage changes at most by adding one capsule |
| NewCapsule.ShownCapsuleIsStored | src/app/NewCapsule.tsx:143-144 | the capsule on the result card is the one put at the front of the store |
| NewCapsule.CopyText | src/app/NewCapsule.tsx:159-164 | empty without a result; otherwise it starts with title and summary and ends with the numbered actions |
| Share.ActionLine | src/components/ShareModal.tsx:52 | the line is the number from one, ". ", and the action |
| Share.Numbered | src/components/ShareModal.tsx:52 | empty exactly when there are no actions, and every numbered action line occurs in it |
| Share.NumberedSplitsBack | src/components/ShareModal.tsx:59 | the numbered list of actions without line breaks splits back into its numbered lines, in order |
| Share.SourcePart | src/components/ShareModal.tsx:52 | empty exactly when there is no source URL |
| Share.Compact | src/components/ShareModal.tsx:51-53 | title, summary and numbered actions, ending with the URL when there is one |
| Share.TagsPart | src/components/ShareModal.tsx:61-63 | empty exactly when there are no tags |
| Share.Plain | src/components/ShareModal.tsx:55-71 | it starts with the heading and actions and ends with the footer, containing the tags line and the source line when present |
| Share.OptionalPartsOccur | src/components/ShareModal.tsx:61-67 | both optional parts occur in the assembled text |
| Share.PlainWithoutExtras | src/components/ShareModal.tsx:55-71 | without tags or source, the text is the heading, the actions and the footer |
| Share.ShareText | src/components/ShareModal.tsx:50-72 | "compact" gives the compact format, and anything else the plain one |
| Share.Sms | src/components/ShareModal.tsx:133 | the compact text of the title, the first 100 characters of the summary with "...", and the first two actions |
| Share.SmsShortensSummary | src/components/ShareModal.tsx:133 | the SMS text opens with the title and at most 100 characters of the summary, marked "..."; a summary of at most 100 characters appears whole |
| Share.SmsListsTwoActions | src/components/ShareModal.tsx:133 | the SMS text lists at most two actions |
| Errors.FirstMatch | src/lib/errors.ts:69-133 | the code of the first rule that holds; none exactly when no rule holds |
| Errors.FirstHoldingRuleWins | src/lib/errors.ts:76-125 | the first rule that holds decides, whatever later rules say |
| Errors.MessageOf | src/lib/errors.ts:70-72 | a string is taken as it is; otherwise the message, then the error, then the empty text |
| Errors.MapApiError | src/lib/errors.ts:69-133 | the first matching rule's message when one matches; otherwise the text itself when it starts with a capital, and the generic message when it does not |
| Errors.RecoverySuggestions | src/lib/errors.ts:136-160 | no suggestions when no word matches; otherwise the suggestions of the first matching word |
| Errors.FetchIsNetwork | src/lib/errors.ts:77-79 | any message mentioning "fetch", in any case, is a network error |
| Errors.NetworkMessageMentionsConnection | src/lib/errors.ts:5 | the network message mentions "conexión" |
| Errors.NetworkMessageSuggestions | src/lib/errors.ts:139-141 | the network message is shown with the network suggestions |
| Errors.FileUploadFailedIsAi | src/lib/errors.ts:107-120 | "File upload failed" is shown as the AI service being down, because "ai" is a bare substring tested first |
| Strings.Trim | focusbrief-api/server.js:238 | the trimmed text has no white space at either end and is a contiguous part of the input |
| Strings.TrimEmptyIff | api/process.js:51 | the trim is empty exactly when every character is white space |
| Strings.LastIndexOfChar | api/process-file.js:12-13 | the last index of the character, or none when it does not occur |
| Strings.ParseIntOfIntToString | src/services/auth.ts:24 | an expiry written with `toString` is read back by `parseInt` |

## Left out

- Network, model, clock and randomness. Requests to the model, to web pages, to
  the tweet and transcript services, and to the file manager are parameters.
  So are `Date.now()`, `generateId()`, the ISO time and `crypto.randomBytes`.
- Model configuration: model names other than the stored `processedWith`,
  temperature and token limits do not affect the modelled results.
- HMAC-SHA256, base64 and `JSON.parse`/`JSON.stringify` are parameters.
  - A signer is assumed to produce lower-case hex (`Session.HexSigner`).
  - Decoding is assumed to undo encoding where a lemma needs it (`Session.Faithful`).
- Mozilla Readability and `JSDOM` are a parameter of the Express server's URL path.
- `new URL(url)` validity is a parameter.
  - `isValidUrl` and the copy-link button on the capsule page are not modelled.
- JSON key order and the text form of numbers are not modelled: objects are maps.
- Lengths count Unicode characters, whereas JavaScript counts UTF-16 code units.
  This affects `content.length` limits and `substring` for text outside the
  Basic Multilingual Plane.
- JSON numbers are integers only (`JNum(n: int)`). A fractional value, such as a
  `readTime` of 2.5, is not representable.
- Strings.ToLower: only ASCII and Latin-1 letters are lower-cased; other scripts
  are kept as they are, unlike JavaScript's `toLowerCase`. The case-insensitive
  search of the archive, the HTML block removal and the error mapping inherit this.
- YouTube.FromTimedText: the watch-page regular expressions for the title, the
  caption tracks and the Spanish or first `baseUrl` are a parameter
  (`PageScanner`), so the track chosen is whatever the scanner reports.
- Floating point: `Math.round(completed / total * 100)` is modelled as rounding
  half up on the exact quotient. The two could differ on a binary rounding tie.
- Session.Expired: a `tokenData` expiry that is a string, array or object is
  treated as never expired. JavaScript would coerce it to a number or NaN first.
- ClientStore.Outcome: a `capsule` in the reply that is truthy but not an object
  is not stored. JavaScript would store whatever value it is.
- CapsuleView.Read: a field of the wrong type reads as the empty text or list.
  The pages would render the value as it is.
- Server.ProcessRoute: the request's `content`, `sourceType` and `source` are
  each absent or a text. A JSON `null` is read as absent, so it gets the
  default "text" or "Manual", where the destructuring defaults apply only to an
  absent field and the prompt would say "null". A non-text `content`, whose
  `trim` throws, is not modelled. The browser always sends texts
  (`src/services/api.ts` lines 51-62).
- ApiProcess.Handle: the same reading of the request fields as
  Server.ProcessRoute, for the same reason.
- CapsuleDetail.Mount: React's scheduling is reduced to one fixed order. Both
  effects run in one flush in the order they are declared, and the loading
  effect resumes after `await getCapsule(id)` only once that flush is over.
  The second run of effects under React's development `StrictMode` is not
  modelled.
- CapsuleDetail.Load: `JSON.parse` of the saved marks is a parameter returning a
  list of integers. A saved value that parses to something else is not modelled.
- `processFile` and `getAllSupportedExtensions`, which `NewCapsule.tsx` imports,
  are not defined in `src/services/api.ts`. The file request is a parameter of
  `NewCapsule.Process`.
- Toasts other than the settings texts, the clipboard, timers, animations,
  navigation and rendering are not modelled.
- Dashboard.ThisWeek: the "within the last seven days" date comparison is a
  parameter.
- The archive's sample capsules are not modelled; the search is modelled over
  any list.
- The health routes, the `GET /api/capsules` listing, the rate limiters,
  logging, Sentry and the temporary upload files are left out. The list route
  returns the stored list unchanged.
- The upload of the file itself to the model's file manager, and its
  `displayName`, are a parameter of the file route.
- The Express file route's middleware limits (multer's size check) are modelled
  only as the size gate in the route.

## Findings

| source | as written | input that shows it | evidently intended | confidence | as-written member | corrected member |
|---|---|---|---|---|---|---|
| api/verify.js:11 | the decoded token is split at its FIRST colon, and the first piece is checked against the signature | any token api/login.js issues: its data is `{"token":"<hex>","expiry":<n>}`, so the first colon is inside it and the first piece is `{"token"` | split at the LAST colon, as api/process-file.js:12-16 does, so a fresh token verifies until its expiry | not executed | Session.IssuedTokenFailsAtFirstColon | Session.IssuedTokenVerifiesAtLastColon |
| src/app/CapsuleDetail.tsx:161-165 | on a visit the save effect runs in the same flush as the loading effect, which is suspended at `await getCapsule(id)` (line 129); its guard `completedActions.length >= 0` always holds, so it writes the initial empty list before line 133 reads the saved marks | a capsule with marks `[0]` saved: a visit shows no action done, "[]" is saved over the marks, and the dashboard card counts 0 | the marks are saved only after they have been loaded, so a visit shows and keeps the marks saved before | not executed | CapsuleDetail.MountForgetsMarks | CapsuleDetail.SaveThenMountKeepsMarks |

=== FILE: api_process.dfy ===
/** The serverless text handler: the method gate, the content gate, the
    prompt, the reply clean-up and the capsule built by object spread. It
    keeps no store; the browser stores what it answers. */
module ApiProcess {
  import opened Wrappers
  import opened Strings
  import opened Json
  import opened Http
  import opened ModelReply
  import opened Prompts
  import opened Capsule
  import Server

  const ContentRequired: string := "Content is required"
  const NoApiKey: string := "API key not configured"
  const InvalidResponse: string := "Invalid response from AI"

  /** The model call and what follows it, once the gates have passed. */
  function Answer(model: Model, instructions: string, parse: Parser, content: string,
                  kind: string, from: string, newId: string, now: string): (r: Reply)
    ensures CapsuleOf(r).Some? ==> Carries(CapsuleOf(r).value, Provenance(from, kind, now))
    ensures var reply := model([TextPart(TextPrompt(instructions, kind, from, content))]);
      reply.Failure? ==> r == Fail(500, reply.error)
    ensures var reply := model([TextPart(TextPrompt(instructions, kind, from, content))]);
      reply.Success? && ParseReply(reply.value, parse).Failure? ==> r == Fail(500, InvalidResponse)
    ensures var reply := model([TextPart(TextPrompt(instructions, kind, from, content))]);
      CapsuleOf(r).Some? <==> reply.Success? && ParseReply(reply.value, parse).Success?
  {
    match model([TextPart(TextPrompt(instructions, kind, from, content))])
    case Failure(e) => Fail(500, e)
    case Success(text) =>
      match ParseReply(text, parse)
      case Failure(_) => Fail(500, InvalidResponse)
      case Success(data) => CapsuleReply(Assemble(newId, data, Provenance(from, kind, now)))
  }

  /** The handler. `g.instructions` is `Prompts.ServerlessSystemPrompt` when
      deployed; `newId` and `now` stand for `generateId()` and the ISO time. */
  function Handle(m: Method, content: Option<string>, sourceType: Option<string>, source: Option<string>,
                  g: Gemini, parse: Parser, newId: string, now: string): (r: Reply)
    ensures m == Options ==> r == Reply(200, None)
    ensures m != Options && m != Post ==> r == Fail(405, MethodNotAllowed)
    ensures m == Post && Blank(content) ==> r == Fail(400, ContentRequired)
    ensures m == Post && !Blank(content) && g.model.None? ==> r == Fail(500, NoApiKey)
    ensures CapsuleOf(r).Some? ==>
      m == Post && !Blank(content) && g.model.Some?
      && Carries(CapsuleOf(r).value, Provenance(source.GetOr("Manual"), sourceType.GetOr("text"), now))
  {
    match PostGate(m)
    case Some(early) => early
    case None =>
      if Blank(content) then Fail(400, ContentRequired)
      else if g.model.None? then Fail(500, NoApiKey)
      else Answer(g.model.value, g.instructions, parse, content.value,
                  sourceType.GetOr("text"), source.GetOr("Manual"), newId, now)
  }

  /** A reply that does not parse after the clean-up is answered with the
      fixed message and carries no capsule. */
  lemma UnparsableReply(content: string, sourceType: Option<string>, source: Option<string>,
                        g: Gemini, parse: Parser, newId: string, now: string)
    requires !Blank(Some(content))
    requires AnswersUnparsable(g, parse, TextPrompt(g.instructions, sourceType.GetOr("text"),
                                                    source.GetOr("Manual"), content))
    ensures Handle(Post, Some(content), sourceType, source, g, parse, newId, now) == Fail(500, InvalidResponse)
    ensures CapsuleOf(Handle(Post, Some(content), sourceType, source, g, parse, newId, now)).None?
  {
    var kind := sourceType.GetOr("text");
    var from := source.GetOr("Manual");
    HandleAfterGates(Some(content), sourceType, source, g, parse, newId, now);
    AnswerUnparsable(g, parse, content, kind, from, newId, now);
  }

  /** A request that passes the gates is answered by the model step. */
  lemma HandleAfterGates(content: Option<string>, sourceType: Option<string>, source: Option<string>,
                         g: Gemini, parse: Parser, newId: string, now: string)
    requires !Blank(content) && g.model.Some?
    ensures Handle(Post, content, sourceType, source, g, parse, newId, now)
         == Answer(g.model.value, g.instructions, parse, content.value,
                   sourceType.GetOr("text"), source.GetOr("Manual"), newId, now)
  {
  }

  /** The model step alone, for a reply that does not parse. */
  lemma AnswerUnparsable(g: Gemini, parse: Parser, content: string, kind: string, from: string,
                         newId: string, now: string)
    requires AnswersUnparsable(g, parse, TextPrompt(g.instructions, kind, from, content))
    ensures Answer(g.model.value, g.instructions, parse, content, kind, from, newId, now)
         == Fail(500, InvalidResponse)
  {
    var reply := g.model.value([TextPart(TextPrompt(g.instructions, kind, from, content))]);
    assert ParseReply(reply.value, parse).Failure?;
  }

  /** The model's error message is answered as it is, even when empty; the
      Express server puts its default text in its place. */
  lemma EmptyModelErrorKept(content: string, sourceType: Option<string>, source: Option<string>,
                            g: Gemini, parse: Parser, store: seq<Capsule>, newId: string, now: string)
    requires !Blank(Some(content)) && |content| <= Server.MaxContentChars && g.model.Some?
    requires g.model.value([TextPart(TextPrompt(g.instructions, sourceType.GetOr("text"),
                                                source.GetOr("Manual"), content))]) == Failure("")
    ensures Handle(Post, Some(content), sourceType, source, g, parse, newId, now) == Fail(500, "")
    ensures Server.ProcessRoute(Some(content), sourceType, source, g, parse, store, newId, now).reply
         == Fail(500, Server.ProcessDefault)
  {
  }

  /** Where both accept the content and the model answers with capsule data,
      this handler and the Express server's text route send the same reply. */
  lemma AgreesWithServer(content: string, sourceType: Option<string>, source: Option<string>,
                         g: Gemini, parse: Parser, store: seq<Capsule>, newId: string, now: string,
                         data: JsonValue)
    requires !Blank(Some(content)) && |content| <= Server.MaxContentChars
    requires Server.ProcessWithGemini(g, parse, content, sourceType.GetOr("text"), source.GetOr("Manual"))
      == Success(data)
    ensures Handle(Post, Some(content), sourceType, source, g, parse, newId, now)
         == Server.ProcessRoute(Some(content), sourceType, source, g, parse, store, newId, now).reply
  {
    var kind := sourceType.GetOr("text");
    var from := source.GetOr("Manual");
    var c := Assemble(newId, data, Provenance(from, kind, now));
    Server.ProcessSucceeds(content, sourceType, source, g, parse, store, newId, now, data);
    assert Server.ProcessRoute(Some(content), sourceType, source, g, parse, store, newId, now).reply
        == CapsuleReply(c);
    AnswerOfServerData(g, parse, content, kind, from, newId, now, data);
  }

  /** The model step alone: the data the Express server would take from the
      model's reply makes the same capsule here. */
  lemma AnswerOfServerData(g: Gemini, parse: Parser, content: string, kind: string, from: string,
                           newId: string, now: string, data: JsonValue)
    requires Server.ProcessWithGemini(g, parse, content, kind, from) == Success(data)
    ensures g.model.Some?
    ensures Answer(g.model.value, g.instructions, parse, content, kind, from, newId, now)
         == CapsuleReply(Assemble(newId, data, Provenance(from, kind, now)))
  {
  }

  /** Content over the server's 100000-character cap is still sent to the
      model here, and becomes a capsule when the reply parses. */
  lemma NoLengthCap(content: string, sourceType: Option<string>, source: Option<string>,
                    g: Gemini, parse: Parser, store: seq<Capsule>, newId: string, now: string, text: string)
    requires !Blank(Some(content)) && |content| > Server.MaxContentChars && g.model.Some?
    requires g.model.value([TextPart(TextPrompt(g.instructions, sourceType.GetOr("text"),
                                                source.GetOr("Manual"), content))]) == Success(text)
    requires parse(CleanFences(text)).Success?
    ensures CapsuleOf(Handle(Post, Some(content), sourceType, source, g, parse, newId, now)).Some?
    ensures Server.ProcessRoute(Some(content), sourceType, source, g, parse, store, newId, now)
         == Server.Outcome(Fail(400, Server.ContentTooLong), store)
  {
  }
}

=== FILE: api_process_file.dfy ===
/** The serverless file handler: the token check, the request gates, the
    media classification, the per-type prompt, the reply clean-up and the
    capsule whose fields are filled with defaults through `||`. */
module ApiProcessFile {
  import opened Wrappers
  import opened Strings
  import opened Json
  import opened Http
  import opened ModelReply
  import opened Media
  import opened Prompts
  import opened Session
  import opened Capsule
  import ApiProcess

  const Unauthorized: string := "Unauthorized"
  const FileRequired: string := "File data and mimeType are required"
  const InvalidAiResponse: string := "Invalid AI response"
  const ModelName: string := "gemini-3-flash-preview"
  const AnswerRequest: string := "\n\nResponde con la Cápsula de Acción en JSON:"

  /** The 400 message for a MIME type outside the table. */
  function Unsupported(mimeType: string): string {
    "Unsupported file type: " + mimeType + ". Supported: images, audio, video, PDF"
  }

  /** The request: the Authorization header and the JSON body's fields. */
  datatype Request = Request(authorization: Option<string>, fileData: Option<string>,
                             mimeType: Option<string>, fileName: Option<string>, source: Option<string>)

  /** What the handler takes from its environment: `AUTH_PASSWORD`, the
      clock in milliseconds, base64 decoding, HMAC, `JSON.parse`, the model
      (`None` without an API key), `generateId()` and the ISO time. */
  datatype Env = Env(password: Option<string>, clock: int, decode: Codec, sign: Signer, parse: Parser,
                     model: Option<Model>, newId: string, createdAt: string)

  // ---------------------------------------------------------------------
  // The capsule
  // ---------------------------------------------------------------------

  /** The model fields that fall back to a fixed default when the model's
      value is falsy, with that default. */
  const Defaults: map<string, JsonValue> := map[
    "summary" := JStr(""), "actions" := JArr([]), "priority" := JStr("medium"),
    "sentiment" := JStr("neutral"), "tags" := JArr([]), "readTime" := JNum(30),
    "keyInsights" := JArr([]), "deadline" := JNull, "extractedText" := JNull,
    "mediaAnalysis" := JNull
  ]

  /** The fields of the capsule that never come from the model's fields
      with a fixed default. */
  const OwnKeys: set<string> := {"id", "title", "source", "sourceType", "createdAt", "processedWith"}

  /** The two groups of fields do not overlap. */
  lemma DefaultsAreNotOwn()
    ensures forall k :: k in Defaults ==> k !in OwnKeys
  {
  }

  /** `model.k || default` for every field with a fixed default. */
  function DefaultedFields(data: JsonValue): (f: FieldMap)
    ensures f.Keys == Defaults.Keys
    ensures forall k :: k in f ==> f[k] == OrElse(Prop(data, k), Defaults[k])
  {
    map k | k in Defaults :: OrElse(Prop(data, k), Defaults[k])
  }

  /** An optional text field as a JSON value; absent stays absent. */
  function TextValue(s: Option<string>): Option<JsonValue> {
    match s
    case None => None
    case Some(t) => Some(JStr(t))
  }

  /** `source || fileName`, where `source` already holds its default. */
  function SourceValue(source: string, fileName: Option<string>): Option<JsonValue> {
    if source != [] then Some(JStr(source)) else TextValue(fileName)
  }

  /** The fields the handler decides itself. A property whose value is
      `undefined` is not part of the JSON text, so `source` is left out when
      both the source and the file name are missing. */
  function OwnFields(id: string, data: JsonValue, fileName: Option<string>, source: string,
                     mediaType: MediaType, now: string): (f: FieldMap)
    ensures f.Keys <= OwnKeys
  {
    var fields := map[
      "id" := JStr(id),
      "title" := OrElse(Prop(data, "title"), OrElse(TextValue(fileName), JStr("Archivo procesado"))),
      "sourceType" := JStr(mediaType.Name()),
      "createdAt" := JStr(now),
      "processedWith" := JStr(ModelName)
    ];
    match SourceValue(source, fileName)
    case None => fields
    case Some(v) => fields["source" := v]
  }

  /** The capsule object of the handler. */
  function FileCapsule(id: string, data: JsonValue, fileName: Option<string>, source: string,
                       mediaType: MediaType, now: string): (c: Capsule)
    ensures forall k :: k in Defaults ==> k in c && c[k] == OrElse(Prop(data, k), Defaults[k])
    ensures "title" in c && c["title"] == OrElse(Prop(data, "title"), OrElse(TextValue(fileName), JStr("Archivo procesado")))
    ensures "id" in c && c["id"] == JStr(id)
    ensures "sourceType" in c && c["sourceType"] == JStr(mediaType.Name())
    ensures "createdAt" in c && c["createdAt"] == JStr(now)
    ensures "processedWith" in c && c["processedWith"] == JStr(ModelName)
    ensures "source" in c <==> SourceValue(source, fileName).Some?
    ensures "source" in c ==> c["source"] == SourceValue(source, fileName).value
  {
    DefaultsAreNotOwn();
    DefaultedFields(data) + OwnFields(id, data, fileName, source, mediaType, now)
  }

  /** A model value that is truthy is copied as it is; a falsy one (absent,
      null, false, 0 or "") is replaced by the default. */
  lemma DefaultOnlyWhenFalsy(id: string, data: JsonValue, fileName: Option<string>, source: string,
                             mediaType: MediaType, now: string, k: string)
    requires k in Defaults
    ensures var c := FileCapsule(id, data, fileName, source, mediaType, now);
      (Truthy(Prop(data, k)) ==> c[k] == data.fields[k])
      && (!Truthy(Prop(data, k)) ==> c[k] == Defaults[k])
  {
  }

  /** The priority is not checked against high, medium and low: any
      non-empty text the model gives is kept. */
  lemma PriorityUnchecked(id: string, p: string, fileName: Option<string>, source: string,
                          mediaType: MediaType, now: string)
    requires p != []
    ensures FileCapsule(id, JObj(map["priority" := JStr(p)]), fileName, source, mediaType, now)["priority"]
         == JStr(p)
  {
  }

  /** Nor is the sentiment checked against its four values. */
  lemma SentimentUnchecked(id: string, s: string, fileName: Option<string>, source: string,
                           mediaType: MediaType, now: string)
    requires s != []
    ensures FileCapsule(id, JObj(map["sentiment" := JStr(s)]), fileName, source, mediaType, now)["sentiment"]
         == JStr(s)
  {
  }

  /** The provenance fields never depend on what the model answered. */
  lemma ProvenanceNotFromModel(id: string, d1: JsonValue, d2: JsonValue, fileName: Option<string>,
                               source: string, mediaType: MediaType, now: string)
    ensures var c1 := FileCapsule(id, d1, fileName, source, mediaType, now);
      var c2 := FileCapsule(id, d2, fileName, source, mediaType, now);
      c1["id"] == c2["id"] && c1["sourceType"] == c2["sourceType"] && c1["createdAt"] == c2["createdAt"]
      && c1["processedWith"] == c2["processedWith"]
      && ("source" in c1 <==> "source" in c2) && ("source" in c1 ==> c1["source"] == c2["source"])
  {
  }

  /** An empty object from the model gives the title of the file name (or
      the fixed one) and every other default. */
  lemma EmptyReplyDefaults(id: string, fileName: Option<string>, source: string,
                           mediaType: MediaType, now: string)
    ensures var c := FileCapsule(id, JObj(map[]), fileName, source, mediaType, now);
      c["title"] == (if Falsy(fileName) then JStr("Archivo procesado") else JStr(fileName.value))
      && forall k :: k in Defaults ==> c[k] == Defaults[k]
  {
  }

  // ---------------------------------------------------------------------
  // The handler
  // ---------------------------------------------------------------------

  /** `getPromptForMediaType(mediaType, fileName || 'archivo')` and the
      closing request. */
  function FilePrompt(mediaType: MediaType, fileName: Option<string>): (r: string)
    ensures Contains(r, "\"" + (if Falsy(fileName) then "archivo" else fileName.value) + "\"")
  {
    var name := if Falsy(fileName) then "archivo" else fileName.value;
    var p := PromptForMediaType(mediaType.Name(), name);
    ContainsWithin([], p, AnswerRequest, "\"" + name + "\"");
    assert [] + p + AnswerRequest == p + AnswerRequest;
    p + AnswerRequest
  }

  /** The 500 answer to a reply that does not parse, which carries the
      cleaned reply text. */
  function RawFailure(cleaned: string): (r: Reply)
    ensures r.status == 500 && CapsuleOf(r).None? && ErrorOf(r) == Some(InvalidAiResponse)
  {
    Reply(500, Some(JObj(map["success" := JBool(false), "error" := JStr(InvalidAiResponse),
                             "rawResponse" := JStr(cleaned)])))
  }

  /** What the handler does with the cleaned reply text. */
  function Interpret(cleaned: string, parse: Parser, fileName: Option<string>, source: Option<string>,
                     mediaType: MediaType, newId: string, now: string): (r: Reply)
    ensures parse(cleaned).Failure? ==> r == RawFailure(cleaned)
    ensures CapsuleOf(r).Some? ==>
      parse(cleaned).Success? && parse(cleaned).value != JNull
      && CapsuleOf(r).value == FileCapsule(newId, parse(cleaned).value, fileName, source.GetOr("Upload"),
                                           mediaType, now)
  {
    match parse(cleaned)
    case Failure(_) => RawFailure(cleaned)
    case Success(data) =>
      if data == JNull then Fail(500, NullReadMessage("title"))
      else CapsuleReply(FileCapsule(newId, data, fileName, source.GetOr("Upload"), mediaType, now))
  }

  /** The model call and what follows it, once the gates have passed. */
  function Answer(model: Model, parse: Parser, mimeType: string, fileData: string, fileName: Option<string>,
                  source: Option<string>, mediaType: MediaType, newId: string, now: string): (r: Reply)
    ensures CapsuleOf(r).Some? ==>
      "sourceType" in CapsuleOf(r).value && CapsuleOf(r).value["sourceType"] == JStr(mediaType.Name())
    ensures CapsuleOf(r).Some? ==> "createdAt" in CapsuleOf(r).value && CapsuleOf(r).value["createdAt"] == JStr(now)
    ensures CapsuleOf(r).Some? ==> "id" in CapsuleOf(r).value && CapsuleOf(r).value["id"] == JStr(newId)
    ensures var answer := model([InlineData(mimeType, fileData), TextPart(FilePrompt(mediaType, fileName))]);
      answer.Failure? ==> r == Fail(500, answer.error)
  {
    match model([InlineData(mimeType, fileData), TextPart(FilePrompt(mediaType, fileName))])
    case Failure(e) => Fail(500, e)
    case Success(text) => Interpret(CleanFences(text), parse, fileName, source, mediaType, newId, now)
  }

  /** The token of the request passes the last-colon check. */
  predicate Authorized(req: Request, env: Env) {
    VerifyLastColon(BearerToken(req.authorization), env.password, env.clock, env.decode, env.sign, env.parse)
  }

  function Handle(m: Method, req: Request, env: Env): (r: Reply)
    ensures m == Options ==> r == Reply(200, None)
    ensures m != Options && m != Post ==> r == Fail(405, MethodNotAllowed)
    ensures m == Post && !Authorized(req, env) ==> r == Fail(401, Unauthorized)
    ensures m == Post && Authorized(req, env) && (Falsy(req.fileData) || Falsy(req.mimeType)) ==>
      r == Fail(400, FileRequired)
    ensures (m == Post && Authorized(req, env) && !Falsy(req.fileData) && !Falsy(req.mimeType)
             && env.model.Some? && GetMediaType(req.mimeType.value).None?) ==>
      r == Fail(400, Unsupported(req.mimeType.value))
    ensures (m == Post && Authorized(req, env) && !Falsy(req.fileData) && !Falsy(req.mimeType)
             && env.model.None?) ==> r == Fail(500, ApiProcess.NoApiKey)
    ensures CapsuleOf(r).Some? ==>
      m == Post && Authorized(req, env) && !Falsy(req.fileData) && env.model.Some?
      && !Falsy(req.mimeType) && GetMediaType(req.mimeType.value).Some?
      && "sourceType" in CapsuleOf(r).value
      && CapsuleOf(r).value["sourceType"] == JStr(GetMediaType(req.mimeType.value).value.Name())
  {
    match PostGate(m)
    case Some(early) => early
    case None =>
      if !Authorized(req, env) then Fail(401, Unauthorized)
      else if Falsy(req.fileData) || Falsy(req.mimeType) then Fail(400, FileRequired)
      else if env.model.None? then Fail(500, ApiProcess.NoApiKey)
      else
        match GetMediaType(req.mimeType.value)
        case None => Fail(400, Unsupported(req.mimeType.value))
        case Some(mediaType) =>
          Answer(env.model.value, env.parse, req.mimeType.value, req.fileData.value, req.fileName,
                 req.source, mediaType, env.newId, env.createdAt)
  }

  /** Every gate runs before the model is called: a request stopped by one
      gets the same answer whatever the model would say. */
  lemma GatesBeforeModel(m: Method, req: Request, env: Env, other: Option<Model>)
    requires m != Post || !Authorized(req, env) || Falsy(req.fileData) || Falsy(req.mimeType)
      || GetMediaType(req.mimeType.value).None?
    requires env.model.Some? <==> other.Some?
    ensures Handle(m, req, env) == Handle(m, req, env.(model := other))
  {
    assert Authorized(req, env) == Authorized(req, env.(model := other));
  }

  /** A reply that does not parse is answered with the cleaned text, so the
      client sees what the model said. */
  lemma RawResponseKept(cleaned: string, parse: Parser, fileName: Option<string>, source: Option<string>,
                        mediaType: MediaType, newId: string, now: string)
    requires parse(cleaned).Failure?
    ensures var r := Interpret(cleaned, parse, fileName, source, mediaType, newId, now);
      r.status == 500 && CapsuleOf(r).None? && ErrorOf(r) == Some(InvalidAiResponse)
      && r.body.value.fields["rawResponse"] == JStr(cleaned)
  {
  }

  /** The classification reads only the first word: every type under
      "application/" is accepted as a document, whatever follows. */
  lemma ApplicationIsDocument(subtype: string)
    ensures GetMediaType("application/" + subtype) == Some(Document)
  {
    var m := "application/" + subtype;
    GetMediaTypeByPrefix(m);
    assert m[..11] == "application";
    assert !("image" <= m) && !("video" <= m) by { assert m[0] == 'a'; }
    assert !("audio" <= m) by { assert m[1] == 'p'; }
  }
}

=== FILE: api_process_url.dfy ===
/** The serverless URL handler: a plain fetch of the page, the tag strip
    and the 10000-character cut, the URL classification, the extraction
    gate and the same model step as the serverless text handler. It keeps
    no store. */
module ApiProcessUrl {
  import opened Wrappers
  import opened Strings
  import opened Json
  import opened Http
  import opened ModelReply
  import opened HtmlText
  import opened UrlKind
  import opened Capsule
  import ApiProcess
  import Server

  const UrlRequired: string := "URL is required"
  const FetchFailed: string := "Failed to fetch URL: "
  const NotEnoughContent: string := "Could not extract enough content from URL"
  const MinContentChars: nat := 50

  /** `fetchUrlContent`: the text of the page, or the message of what it
      throws. */
  function FetchUrlContent(url: string, fetch: Fetcher): (r: Result<string, string>)
    ensures fetch(url).NetworkError? ==> r == Failure(fetch(url).message)
    ensures fetch(url).Response? && !Ok(fetch(url).status) ==>
      r == Failure(FetchFailed + IntToString(fetch(url).status))
    ensures r.Success? <==> fetch(url).Response? && Ok(fetch(url).status)
    ensures r.Success? ==> |r.value| <= MaxArticleChars + 3
    ensures r.Success? && |HtmlToText(fetch(url).body)| <= MaxArticleChars ==> Normalized(r.value)
  {
    match fetch(url)
    case NetworkError(m) => Failure(m)
    case Response(status, html) =>
      if !Ok(status) then Failure(FetchFailed + IntToString(status))
      else Success(Truncate(HtmlToText(html)))
  }

  /** A page that is already short plain text comes back unchanged. */
  lemma PlainPageKept(url: string, fetch: Fetcher)
    requires fetch(url).Response? && Ok(fetch(url).status)
    requires var t := fetch(url).body; '<' !in t && Normalized(t) && |t| <= MaxArticleChars
    ensures FetchUrlContent(url, fetch) == Success(fetch(url).body)
  {
    HtmlToTextPlain(fetch(url).body);
  }

  /** A long page is cut to its first 10000 characters and "...". */
  lemma LongPageCut(url: string, fetch: Fetcher)
    requires fetch(url).Response? && Ok(fetch(url).status)
    requires |HtmlToText(fetch(url).body)| > MaxArticleChars
    ensures var r := FetchUrlContent(url, fetch);
      r.Success? && |r.value| == MaxArticleChars + 3
      && r.value == HtmlToText(fetch(url).body)[..MaxArticleChars] + "..."
  {
  }

  /** The handler. `g.instructions` is `Prompts.ServerlessSystemPrompt` when
      deployed. */
  function Handle(m: Method, url: Option<string>, fetch: Fetcher, g: Gemini, parse: Parser,
                  newId: string, now: string): (r: Reply)
    ensures m == Options ==> r == Reply(200, None)
    ensures m != Options && m != Post ==> r == Fail(405, MethodNotAllowed)
    ensures m == Post && Blank(url) ==> r == Fail(400, UrlRequired)
    ensures m == Post && !Blank(url) && g.model.None? ==> r == Fail(500, ApiProcess.NoApiKey)
    ensures CapsuleOf(r).Some? ==>
      m == Post && !Blank(url) && g.model.Some?
      && var c := FetchUrlContent(url.value, fetch);
      c.Success? && |c.value| >= MinContentChars
      && Carries(CapsuleOf(r).value, Provenance(url.value, ClassifyUrl(url.value).Name(), now))
    ensures (m == Post && !Blank(url) && g.model.Some?
             && FetchUrlContent(url.value, fetch).Success?
             && |FetchUrlContent(url.value, fetch).value| >= MinContentChars) ==>
      r == ApiProcess.Answer(g.model.value, g.instructions, parse, FetchUrlContent(url.value, fetch).value,
                             ClassifyUrl(url.value).Name(), url.value, newId, now)
  {
    match PostGate(m)
    case Some(early) => early
    case None =>
      if Blank(url) then Fail(400, UrlRequired)
      else if g.model.None? then Fail(500, ApiProcess.NoApiKey)
      else
        var u := url.value;
        var kind := ClassifyUrl(u);
        match FetchUrlContent(u, fetch)
        case Failure(e) => Fail(500, e)
        case Success(content) =>
          if |content| < MinContentChars then Fail(400, NotEnoughContent)
          else ApiProcess.Answer(g.model.value, g.instructions, parse, content, kind.Name(), u, newId, now)
  }

  /** The gates run before the page is fetched: with a blank URL or no API
      key the answer is the same whatever the network would do. */
  lemma GatesBeforeFetch(url: Option<string>, f1: Fetcher, f2: Fetcher, g: Gemini, parse: Parser,
                         newId: string, now: string)
    requires Blank(url) || g.model.None?
    ensures Handle(Post, url, f1, g, parse, newId, now) == Handle(Post, url, f2, g, parse, newId, now)
    ensures CapsuleOf(Handle(Post, url, f1, g, parse, newId, now)).None?
  {
  }

  /** A page answered with an HTTP error becomes a 500 naming the status. */
  lemma HttpErrorReported(u: string, fetch: Fetcher, g: Gemini, parse: Parser, newId: string, now: string)
    requires !Blank(Some(u)) && g.model.Some?
    requires fetch(u).Response? && !Ok(fetch(u).status)
    ensures Handle(Post, Some(u), fetch, g, parse, newId, now)
         == Fail(500, FetchFailed + IntToString(fetch(u).status))
  {
  }

  /** There is no format check: a text the Express server refuses as a URL
      is fetched here, and the network's error comes back as the answer. */
  lemma NoFormatCheck(u: string, validUrl: string -> bool, s: Server.Services, g: Gemini,
                      store: seq<Capsule>, newId: string, now: string)
    requires !Blank(Some(u)) && !validUrl(u) && g.model.Some?
    requires s.fetch(u).NetworkError?
    ensures Handle(Post, Some(u), s.fetch, g, s.parse, newId, now) == Fail(500, s.fetch(u).message)
    ensures Server.ProcessUrlRoute(Some(u), validUrl, s, g, store, newId, now).reply
         == Fail(400, Server.UrlInvalid)
  {
  }
}

=== FILE: archive.dfy ===
/** The archive page (`Archive`): the archived capsules filtered by a search
    text that is looked for, without regard to case, in the title, the
    summary and each tag. */
module Archive {
  import opened Strings
  import Lists
  import CapsuleView

  type CapsuleData = CapsuleView.CapsuleData

  /** The search test: the lower-cased query occurs in the lower-cased
      title, summary or one of the tags. */
  predicate Matches(c: CapsuleData, query: string) {
    var q := ToLower(query);
    Contains(ToLower(c.title), q) || Contains(ToLower(c.summary), q)
    || exists i :: 0 <= i < |c.tags| && Contains(ToLower(c.tags[i]), q)
  }

  /** `filteredCapsules`. */
  function Search(cs: seq<CapsuleData>, query: string): (r: seq<CapsuleData>)
    ensures forall c :: c in r <==> c in cs && Matches(c, query)
    ensures |r| <= |cs|
  {
    Lists.Filter(cs, c => Matches(c, query))
  }

  /** With an empty search box every archived capsule is listed, in order. */
  lemma EmptyQueryShowsAll(cs: seq<CapsuleData>)
    ensures Search(cs, []) == cs
  {
    forall i | 0 <= i < |cs| ensures Matches(cs[i], []) {
      ContainsEmpty(ToLower(cs[i].title));
    }
    Lists.FilterAll(cs, c => Matches(c, []));
  }

  /** The results keep the order of the archive. */
  lemma SearchKeepsOrder(a: seq<CapsuleData>, b: seq<CapsuleData>, query: string)
    ensures Search(a + b, query) == Search(a, query) + Search(b, query)
  {
    Lists.FilterConcat(a, b, c => Matches(c, query));
  }

  /** Lower-casing twice is lower-casing once. */
  lemma ToLowerTwice(s: string)
    ensures ToLower(ToLower(s)) == ToLower(s)
  {
    forall i | 0 <= i < |s| ensures LowerChar(LowerChar(s[i])) == LowerChar(s[i]) {
    }
  }

  /** The case of the query does not matter. */
  lemma QueryCaseIgnored(cs: seq<CapsuleData>, query: string)
    ensures Search(cs, ToLower(query)) == Search(cs, query)
  {
    ToLowerTwice(query);
    Lists.FilterSame(cs, c => Matches(c, ToLower(query)), c => Matches(c, query));
  }

  /** Lower-casing works letter by letter, so it keeps concatenation. */
  lemma ToLowerConcat(a: string, b: string)
    ensures ToLower(a + b) == ToLower(a) + ToLower(b)
  {
  }

  /** A text that contains `p + x` contains `p`. */
  lemma ContainsShorter(s: string, p: string, x: string)
    requires Contains(s, p + x)
    ensures Contains(s, p)
  {
    var i: nat :| i <= |s| && OccursAt(s, p + x, i);
    assert s[i..i + |p|] == s[i..i + |p| + |x|][..|p|];
    assert OccursAt(s, p, i);
  }

  /** Typing more only narrows the list: whatever a longer query shows, the
      query it extends shows too. */
  lemma TypingNarrows(cs: seq<CapsuleData>, query: string, more: string)
    ensures forall c :: c in Search(cs, query + more) ==> c in Search(cs, query)
  {
    ToLowerConcat(query, more);
    forall c | Matches(c, query + more) ensures Matches(c, query) {
      var q := ToLower(query);
      var m := ToLower(more);
      if Contains(ToLower(c.title), q + m) {
        ContainsShorter(ToLower(c.title), q, m);
      } else if Contains(ToLower(c.summary), q + m) {
        ContainsShorter(ToLower(c.summary), q, m);
      } else {
        var i :| 0 <= i < |c.tags| && Contains(ToLower(c.tags[i]), q + m);
        ContainsShorter(ToLower(c.tags[i]), q, m);
      }
    }
  }
}

=== FILE: browser.dfy ===
/** The browser's `localStorage`, which the client code uses as its only
    persistent state: a map from keys to text values. */
module Browser {
  import opened Wrappers

  type Storage = map<string, string>

  /** `localStorage.getItem(key)`, with `None` for `null`. */
  function GetItem(ls: Storage, key: string): (r: Option<string>)
    ensures r.Some? <==> key in ls
    ensures r.Some? ==> r.value == ls[key]
  {
    if key in ls then Some(ls[key]) else None
  }
}

=== FILE: capsule.dfy ===
/** Capsules as the handlers build and store them: a field map assembled
    from a generated id, the model's JSON reply and the provenance of the
    request, and the two stores that keep them newest first (the server's
    JSON file and the browser's local storage). */
module Capsule {
  import opened Wrappers
  import opened Json

  /** A stored capsule: its own properties. The order of the properties in
      the serialised object is not modelled. */
  type Capsule = FieldMap

  // ---------------------------------------------------------------------
  // Assembly by object spread
  // ---------------------------------------------------------------------

  /** The provenance fields every spread-built capsule ends with. */
  function Provenance(source: string, sourceType: string, createdAt: string): FieldMap {
    map["source" := JStr(source), "sourceType" := JStr(sourceType), "createdAt" := JStr(createdAt)]
  }

  /** `{ id, ...data, ...provenance }`: later properties override earlier ones. */
  function Assemble(id: string, data: JsonValue, provenance: FieldMap): (c: Capsule)
    ensures c.Keys == {"id"} + Spread(data).Keys + provenance.Keys
    ensures forall k :: k in provenance ==> c[k] == provenance[k]
    ensures forall k :: k in Spread(data) && k !in provenance ==> c[k] == Spread(data)[k]
    ensures "id" !in Spread(data) && "id" !in provenance ==> c["id"] == JStr(id)
  {
    map["id" := JStr(id)] + Spread(data) + provenance
  }

  /** The request's provenance overrides whatever the model put in the same
      fields. */
  lemma ProvenanceWins(id: string, fields: FieldMap, source: string, sourceType: string, createdAt: string)
    ensures var c := Assemble(id, JObj(fields), Provenance(source, sourceType, createdAt));
      c["source"] == JStr(source) && c["sourceType"] == JStr(sourceType) && c["createdAt"] == JStr(createdAt)
  {
  }

  /** An `id` in the model's reply replaces the generated one, because the
      spread comes after it. */
  lemma ModelIdWins(id: string, fields: FieldMap, provenance: FieldMap)
    requires "id" in fields && "id" !in provenance
    ensures Assemble(id, JObj(fields), provenance)["id"] == fields["id"]
  {
  }

  /** A reply that is not an object contributes no `id`, so the generated one
      stays. */
  lemma ScalarReplyKeepsId(id: string, data: JsonValue, provenance: FieldMap)
    requires data.JNull? || data.JBool? || data.JNum?
    requires "id" !in provenance
    ensures Assemble(id, data, provenance)["id"] == JStr(id)
    ensures Assemble(id, data, provenance).Keys == {"id"} + provenance.Keys
  {
  }

  /** Every field of `fields` is in `c` with the same value. */
  predicate Carries(c: Capsule, fields: FieldMap) {
    forall k :: k in fields ==> k in c && c[k] == fields[k]
  }

  // ---------------------------------------------------------------------
  // Store operations
  // ---------------------------------------------------------------------

  /** `c.id === id`. */
  predicate HasId(c: Capsule, id: string) {
    "id" in c && c["id"] == JStr(id)
  }

  /** `capsules.unshift(c)` / `[c, ...capsules]`. */
  function Prepend(store: seq<Capsule>, c: Capsule): (r: seq<Capsule>)
    ensures |r| == |store| + 1 && r[0] == c && r[1..] == store
  {
    [c] + store
  }

  /** `findIndex(c => c.id === id)`, with `None` for -1. */
  function FindIndex(store: seq<Capsule>, id: string): (r: Option<nat>)
    ensures r.Some? ==> r.value < |store| && HasId(store[r.value], id)
    ensures r.Some? ==> forall j :: 0 <= j < r.value ==> !HasId(store[j], id)
    ensures r.None? <==> forall j :: 0 <= j < |store| ==> !HasId(store[j], id)
    decreases |store|
  {
    if store == [] then None
    else if HasId(store[0], id) then Some(0)
    else
      match FindIndex(store[1..], id)
      case None => None
      case Some(k) => Some(k + 1)
  }

  /** `find(c => c.id === id)`. */
  function Find(store: seq<Capsule>, id: string): (r: Option<Capsule>)
    ensures r.None? <==> forall j :: 0 <= j < |store| ==> !HasId(store[j], id)
    ensures r.Some? ==> r.value in store && HasId(r.value, id)
  {
    match FindIndex(store, id)
    case None => None
    case Some(k) => Some(store[k])
  }

  /** The server's delete: `findIndex` then `splice(index, 1)`; `None` is
      the 404 answer. */
  function DeleteFirst(store: seq<Capsule>, id: string): (r: Option<seq<Capsule>>)
    ensures r.None? <==> forall j :: 0 <= j < |store| ==> !HasId(store[j], id)
    ensures r.Some? ==> exists k :: (0 <= k < |store| && HasId(store[k], id)
      && (forall j :: 0 <= j < k ==> !HasId(store[j], id))
      && r.value == store[..k] + store[k + 1..])
  {
    match FindIndex(store, id)
    case None => None
    case Some(k) => Some(store[..k] + store[k + 1..])
  }

  /** The browser's delete: `filter(c => c.id !== id)`, which removes every
      match. */
  function DeleteAll(store: seq<Capsule>, id: string): (r: seq<Capsule>)
    ensures forall j :: 0 <= j < |r| ==> !HasId(r[j], id)
    ensures forall c :: c in store && !HasId(c, id) ==> c in r
    ensures forall c :: c in r ==> c in store
    decreases |store|
  {
    if store == [] then []
    else if HasId(store[0], id) then DeleteAll(store[1..], id)
    else [store[0]] + DeleteAll(store[1..], id)
  }

  /** The browser's delete works piece by piece, so the capsules it keeps
      stay in their order. */
  lemma {:induction false} DeleteAllConcat(a: seq<Capsule>, b: seq<Capsule>, id: string)
    ensures DeleteAll(a + b, id) == DeleteAll(a, id) + DeleteAll(b, id)
    decreases |a|
  {
    if a == [] {
      assert a + b == b;
    } else {
      assert (a + b)[1..] == a[1..] + b;
      DeleteAllConcat(a[1..], b, id);
    }
  }

  /** Deleting what was just created restores the store, on the server. */
  lemma DeleteFirstUndoesPrepend(store: seq<Capsule>, c: Capsule, id: string)
    requires HasId(c, id)
    ensures DeleteFirst(Prepend(store, c), id) == Some(store)
  {
    var s := Prepend(store, c);
    assert FindIndex(s, id) == Some(0);
    assert s[..0] + s[1..] == store;
  }

  /** A lookup right after a create finds the new capsule, even when an older
      one has the same id. */
  lemma FindAfterPrepend(store: seq<Capsule>, c: Capsule, id: string)
    requires HasId(c, id)
    ensures Find(Prepend(store, c), id) == Some(c)
  {
    assert FindIndex(Prepend(store, c), id) == Some(0);
  }

  /** Capsules without the id keep their relative order through the
      browser's delete. */
  lemma {:induction false} DeleteAllKeepsOthers(store: seq<Capsule>, id: string)
    requires forall j :: 0 <= j < |store| ==> !HasId(store[j], id)
    ensures DeleteAll(store, id) == store
    decreases |store|
  {
    if store != [] {
      DeleteAllKeepsOthers(store[1..], id);
    }
  }

  /** With a duplicated id the server's delete leaves the later copy in place,
      so a lookup still finds it; the browser's delete leaves none. */
  lemma DeletesDiffer(a: Capsule, b: Capsule, id: string)
    requires HasId(a, id) && HasId(b, id)
    ensures DeleteFirst([a, b], id) == Some([b])
    ensures Find(DeleteFirst([a, b], id).value, id) == Some(b)
    ensures DeleteAll([a, b], id) == []
  {
    assert FindIndex([a, b], id) == Some(0);
    assert [a, b][..0] + [a, b][1..] == [b];
    assert FindIndex([b], id) == Some(0);
    assert DeleteAll([a, b], id) == DeleteAll([b], id);
    assert [b][1..] == [];
  }
}

=== FILE: capsule_detail.dfy ===
/** The capsule page (`CapsuleDetail`): the capsule is looked up in the
    browser's store, the indices of the actions marked done are kept in
    local storage under a key of their own, and the page shows the share
    of actions done. Deleting the capsule removes both entries. */
module CapsuleDetail {
  import opened Wrappers
  import opened Strings
  import opened Browser
  import opened Capsule
  import ClientStore
  import Lists
  import CapsuleView

  const ActionsPrefix: string := "capsule_actions_"
  const NotFound: string := "Cápsula no encontrada"
  const LoadFailed: string := "Error al cargar la cápsula"

  /** The local-storage key of a capsule's done actions. */
  function ActionsKey(id: string): (r: string)
    ensures |r| == |ActionsPrefix| + |id| && r[..|ActionsPrefix|] == ActionsPrefix
    ensures r[|ActionsPrefix|..] == id
  {
    ActionsPrefix + id
  }

  /** Different capsules keep their done actions under different keys, and
      none of those keys is the key of the capsule list. */
  lemma ActionsKeysApart(a: string, b: string)
    ensures ActionsKey(a) == ActionsKey(b) <==> a == b
    ensures ActionsKey(a) != ClientStore.StorageKey
  {
    if ActionsKey(a) == ActionsKey(b) {
      assert a == ActionsKey(a)[|ActionsPrefix|..];
    }
    assert ActionsKey(a)[0] == 'c';
    assert ClientStore.StorageKey[0] == 'f';
  }

  // ---------------------------------------------------------------------
  // The page's state
  // ---------------------------------------------------------------------

  /** What the page shows once the effect that loads it has run. Without an
      id in the route the effect returns at once, so the page keeps showing
      that it is loading. */
  datatype Page =
    | Loading
    | Shown(capsule: CapsuleView.CapsuleData, completed: seq<int>)
    | Failed(message: string)

  /** The loading effect. `decodeActions` is `JSON.parse` of the saved
      indices, `None` when it throws. */
  function Load(id: Option<string>, ls: Storage, codec: ClientStore.Codec,
                decodeActions: string -> Option<seq<int>>): (r: Page)
    ensures Falsy(id) ==> r == Loading
    ensures r.Shown? ==> (!Falsy(id)
      && exists c :: ClientStore.Get(ls, id.value, codec) == Some(c) && r.capsule == CapsuleView.Read(c))
    ensures r.Shown? ==> r.capsule.id == id.value
    ensures !Falsy(id) && ClientStore.Get(ls, id.value, codec).None? ==> r == Failed(NotFound)
    ensures r.Shown? && Falsy(GetItem(ls, ActionsKey(id.value))) ==> r.completed == []
  {
    if Falsy(id) then Loading
    else
      match ClientStore.Get(ls, id.value, codec)
      case None => Failed(NotFound)
      case Some(c) =>
        CapsuleView.ReadShowsId(c, id.value);
        var saved := GetItem(ls, ActionsKey(id.value));
        if Falsy(saved) then Shown(CapsuleView.Read(c), [])
        else
          match decodeActions(saved.value)
          case None => Failed(LoadFailed)
          case Some(completed) => Shown(CapsuleView.Read(c), completed)
  }

  /** The effect that writes the done actions back whenever they change;
      `encodeActions` is `JSON.stringify` of the indices. */
  function SaveActions(id: Option<string>, completed: seq<int>, ls: Storage,
                       encodeActions: seq<int> -> string): (r: Storage)
    ensures Falsy(id) ==> r == ls
    ensures !Falsy(id) ==> GetItem(r, ActionsKey(id.value)) == Some(encodeActions(completed))
    ensures forall k :: (Falsy(id) || k != ActionsKey(id.value)) ==> GetItem(r, k) == GetItem(ls, k)
  {
    if Falsy(id) then ls else ls[ActionsKey(id.value) := encodeActions(completed)]
  }

  /** The indices written are the indices read back, and the capsule list
      itself is left alone. */
  lemma SaveThenLoad(id: string, completed: seq<int>, ls: Storage, codec: ClientStore.Codec,
                     encodeActions: seq<int> -> string, decodeActions: string -> Option<seq<int>>)
    requires id != [] && ClientStore.Get(ls, id, codec).Some?
    requires encodeActions(completed) != [] && decodeActions(encodeActions(completed)) == Some(completed)
    ensures var r := SaveActions(Some(id), completed, ls, encodeActions);
      ClientStore.Stored(r, codec) == ClientStore.Stored(ls, codec)
      && Load(Some(id), r, codec, decodeActions) == Shown(CapsuleView.Read(ClientStore.Get(ls, id, codec).value), completed)
  {
    var r := SaveActions(Some(id), completed, ls, encodeActions);
    ActionsKeysApart(id, id);
    assert GetItem(r, ClientStore.StorageKey) == GetItem(ls, ClientStore.StorageKey);
  }

  // ---------------------------------------------------------------------
  // Mounting the page
  // ---------------------------------------------------------------------

  /** What a visit to the page leaves behind: the page shown and local
      storage. */
  datatype Mounted = Mounted(page: Page, storage: Storage)

  /** A visit to the page as written. Both effects run in one flush, in the
      order they are declared. The loading effect stops at
      `await getCapsule(id)`; the save effect then writes the initial empty
      marks, because `completedActions.length >= 0` always holds; only when
      the loading effect resumes does it read the saved marks, which by then
      are the empty ones. Marks it does read are set again, and the save
      effect writes them back. */
  function Mount(id: Option<string>, ls: Storage, codec: ClientStore.Codec,
                 encodeActions: seq<int> -> string, decodeActions: string -> Option<seq<int>>): (r: Mounted)
    ensures Falsy(id) ==> r == Mounted(Loading, ls)
    ensures ClientStore.Stored(r.storage, codec) == ClientStore.Stored(ls, codec)
    ensures !Falsy(id) && ClientStore.Get(ls, id.value, codec).None? ==> r.page == Failed(NotFound)
    ensures r.page.Shown? ==> r.page.completed == [] || decodeActions(encodeActions([])) == Some(r.page.completed)
    ensures r.page.Shown? ==> GetItem(r.storage, ActionsKey(id.value)) == Some(encodeActions(r.page.completed))
  {
    var written := SaveActions(id, [], ls, encodeActions);
    if Falsy(id) then Mounted(Loading, ls)
    else
      ActionsKeysApart(id.value, id.value);
      assert GetItem(written, ClientStore.StorageKey) == GetItem(ls, ClientStore.StorageKey);
      var page := Load(id, written, codec, decodeActions);
      Mounted(page, if page.Shown? then SaveActions(id, page.completed, written, encodeActions) else written)
  }

  /** Whatever marks were saved before, a visit shows none and leaves the
      empty list saved in their place. */
  lemma MountForgetsMarks(id: string, completed: seq<int>, ls: Storage, codec: ClientStore.Codec,
                          encodeActions: seq<int> -> string, decodeActions: string -> Option<seq<int>>)
    requires id != [] && ClientStore.Get(ls, id, codec).Some?
    requires encodeActions([]) != [] && decodeActions(encodeActions([])) == Some([])
    ensures var m := Mount(Some(id), SaveActions(Some(id), completed, ls, encodeActions), codec,
                           encodeActions, decodeActions);
      m.page == Shown(CapsuleView.Read(ClientStore.Get(ls, id, codec).value), [])
      && GetItem(m.storage, ActionsKey(id)) == Some(encodeActions([]))
  {
    var before := SaveActions(Some(id), completed, ls, encodeActions);
    ActionsKeysApart(id, id);
    assert GetItem(before, ClientStore.StorageKey) == GetItem(ls, ClientStore.StorageKey);
    assert ClientStore.Get(before, id, codec) == ClientStore.Get(ls, id, codec);
    SaveThenLoad(id, [], before, codec, encodeActions, decodeActions);
  }

  /** A visit as evidently intended: the marks are saved only after they
      have been loaded, so the save writes back what was read. */
  function MountLoadedFirst(id: Option<string>, ls: Storage, codec: ClientStore.Codec,
                            encodeActions: seq<int> -> string, decodeActions: string -> Option<seq<int>>): (r: Mounted)
    ensures r.page == Load(id, ls, codec, decodeActions)
    ensures ClientStore.Stored(r.storage, codec) == ClientStore.Stored(ls, codec)
    ensures r.page.Shown? ==> GetItem(r.storage, ActionsKey(id.value)) == Some(encodeActions(r.page.completed))
    ensures !r.page.Shown? ==> r.storage == ls
  {
    var page := Load(id, ls, codec, decodeActions);
    if page.Shown? then
      ActionsKeysApart(id.value, id.value);
      var written := SaveActions(id, page.completed, ls, encodeActions);
      assert GetItem(written, ClientStore.StorageKey) == GetItem(ls, ClientStore.StorageKey);
      Mounted(page, written)
    else Mounted(page, ls)
  }

  /** With the corrected order, a visit shows the marks saved before it and
      leaves storage as it found it. */
  lemma SaveThenMountKeepsMarks(id: string, completed: seq<int>, ls: Storage, codec: ClientStore.Codec,
                                encodeActions: seq<int> -> string, decodeActions: string -> Option<seq<int>>)
    requires id != [] && ClientStore.Get(ls, id, codec).Some?
    requires encodeActions(completed) != [] && decodeActions(encodeActions(completed)) == Some(completed)
    ensures var before := SaveActions(Some(id), completed, ls, encodeActions);
      MountLoadedFirst(Some(id), before, codec, encodeActions, decodeActions)
      == Mounted(Shown(CapsuleView.Read(ClientStore.Get(ls, id, codec).value), completed), before)
  {
    var before := SaveActions(Some(id), completed, ls, encodeActions);
    SaveThenLoad(id, completed, ls, codec, encodeActions, decodeActions);
    assert SaveActions(Some(id), completed, before, encodeActions) == before;
  }

  // ---------------------------------------------------------------------
  // Marking actions done
  // ---------------------------------------------------------------------

  /** `toggleAction`: an index marked done is unmarked, any other index is
      appended. */
  function ToggleAction(completed: seq<int>, index: int): (r: seq<int>)
    ensures index in r <==> index !in completed
    ensures forall i :: i != index ==> (i in r <==> i in completed)
  {
    Lists.Toggle(completed, index)
  }

  /** `handleMarkComplete`: every action index, in order; without a capsule
      nothing changes. */
  function MarkComplete(capsule: Option<CapsuleView.CapsuleData>, completed: seq<int>): (r: seq<int>)
    ensures capsule.None? ==> r == completed
    ensures capsule.Some? ==> |r| == |capsule.value.actions|
    ensures capsule.Some? ==> forall i :: i in r <==> 0 <= i < |capsule.value.actions|
    ensures capsule.Some? ==> forall i :: 0 <= i < |r| ==> r[i] == i
  {
    match capsule
    case None => completed
    case Some(c) =>
      var r := seq(|c.actions|, i requires 0 <= i < |c.actions| => i);
      forall i | 0 <= i < |c.actions| ensures i in r {
        assert r[i] == i;
      }
      r
  }

  /** The page's percentage. */
  function Progress(capsule: CapsuleView.CapsuleData, completed: seq<int>): nat {
    CapsuleView.Progress(|completed|, |capsule.actions|)
  }

  /** Indices of the actions, each at most once. */
  predicate ValidMarks(completed: seq<int>, total: nat) {
    Lists.NoDuplicates(completed) && forall i :: 0 <= i < |completed| ==> 0 <= completed[i] < total
  }

  /** Distinct indices below `total` are at most `total` many. */
  lemma {:induction false} MarksFit(completed: seq<int>, total: nat)
    requires ValidMarks(completed, total)
    ensures |completed| <= total
    decreases total
  {
    assert |completed| > 0 ==> 0 <= completed[0] < total;
    if total > 0 {
      var last := total - 1;
      var rest := Lists.Remove(completed, last);
      Lists.RemoveDistinct(completed, last);
      forall i | 0 <= i < |rest| ensures 0 <= rest[i] < last {
        assert rest[i] in rest;
        var j :| 0 <= j < |completed| && completed[j] == rest[i];
      }
      MarksFit(rest, last);
      Lists.RemoveCount(completed, last);
      Lists.OccursOnce(completed, last);
      assert |rest| == |completed| - multiset(completed)[last];
      assert multiset(completed)[last] <= 1;
    }
  }

  /** After "mark all done" the page shows 100 percent, and the marks are
      valid ones. */
  lemma MarkCompleteShowsFull(c: CapsuleView.CapsuleData, completed: seq<int>)
    requires |c.actions| > 0
    ensures ValidMarks(MarkComplete(Some(c), completed), |c.actions|)
    ensures Progress(c, MarkComplete(Some(c), completed)) == 100
  {
    var r := MarkComplete(Some(c), completed);
    assert forall i :: 0 <= i < |r| ==> r[i] == i;
    CapsuleView.ProgressFull(|c.actions|);
  }

  /** With valid marks, toggling an action's index keeps the marks valid,
      moves the count by exactly one, and moves the percentage the same way
      without passing 100. */
  lemma ToggleMovesProgress(c: CapsuleView.CapsuleData, completed: seq<int>, index: int)
    requires ValidMarks(completed, |c.actions|) && 0 <= index < |c.actions|
    ensures var r := ToggleAction(completed, index);
      ValidMarks(r, |c.actions|)
      && |r| == (if index in completed then |completed| - 1 else |completed| + 1)
      && Progress(c, r) <= 100 && Progress(c, completed) <= 100
      && (index in completed ==> Progress(c, r) <= Progress(c, completed))
      && (index !in completed ==> Progress(c, completed) <= Progress(c, r))
  {
    var n := |c.actions|;
    var r := ToggleAction(completed, index);
    Lists.ToggleCount(completed, index);
    forall i | 0 <= i < |r| ensures 0 <= r[i] < n {
      assert r[i] in r;
      if r[i] != index {
        var j :| 0 <= j < |completed| && completed[j] == r[i];
      }
    }
    MarksFit(completed, n);
    MarksFit(r, n);
    if index in completed {
      CapsuleView.ProgressBounded(|r|, |completed|, n);
    } else {
      CapsuleView.ProgressBounded(|completed|, |r|, n);
    }
  }

  /** `handleArchive`: the flag flips; nothing is saved. */
  function Archive(archived: bool): (r: bool)
    ensures r != archived
  {
    !archived
  }

  /** `handleDelete`: without an id, or when the user does not confirm,
      nothing happens; otherwise the capsule is deleted from the store and
      its done actions are removed. */
  function HandleDelete(id: Option<string>, confirmed: bool, ls: Storage, codec: ClientStore.Codec): (r: Storage)
    ensures Falsy(id) || !confirmed ==> r == ls
    ensures !Falsy(id) && confirmed ==> ActionsKey(id.value) !in r
    ensures (!Falsy(id) && confirmed
      && ClientStore.ReadsBack(codec, DeleteAll(ClientStore.Stored(ls, codec), id.value))) ==>
      ClientStore.Stored(r, codec) == DeleteAll(ClientStore.Stored(ls, codec), id.value)
  {
    if Falsy(id) || !confirmed then ls
    else
      var after := ClientStore.Delete(ls, id.value, codec).storage;
      ActionsKeysApart(id.value, id.value);
      assert GetItem(after - {ActionsKey(id.value)}, ClientStore.StorageKey)
          == GetItem(after, ClientStore.StorageKey);
      after - {ActionsKey(id.value)}
  }

  /** After a confirmed delete the page of that id finds nothing, and the
      done actions of other capsules are still there. */
  lemma DeletedPageNotFound(id: string, other: string, ls: Storage, codec: ClientStore.Codec,
                            decodeActions: string -> Option<seq<int>>)
    requires id != [] && other != id
    requires ClientStore.ReadsBack(codec, DeleteAll(ClientStore.Stored(ls, codec), id))
    ensures var r := HandleDelete(Some(id), true, ls, codec);
      Load(Some(id), r, codec, decodeActions) == Failed(NotFound)
      && GetItem(r, ActionsKey(other)) == GetItem(ls, ActionsKey(other))
  {
    var r := HandleDelete(Some(id), true, ls, codec);
    ActionsKeysApart(other, id);
    var after := ClientStore.Delete(ls, id, codec).storage;
    assert GetItem(after, ActionsKey(other)) == GetItem(ls, ActionsKey(other));
  }
}

=== FILE: capsule_view.dfy ===
/** The capsule as the client pages read it (the `CapsuleData` interface),
    and the progress percentage the detail page and the dashboard cards
    show for it. */
module CapsuleView {
  import opened Wrappers
  import opened Json
  import opened Capsule

  /** The typed fields the pages use. Priority and sentiment are kept as
      the text the model sent, since nothing checks them. */
  datatype CapsuleData = CapsuleData(
    id: string,
    title: string,
    summary: string,
    actions: seq<string>,
    priority: string,
    sentiment: string,
    tags: seq<string>,
    source: string,
    sourceType: string,
    createdAt: string)

  /** A text field as the pages see it; a field that is missing or not a
      string is read as the empty text. */
  function Text(v: Option<JsonValue>): (r: string)
    ensures forall s :: v == Some(JStr(s)) ==> r == s
    ensures !(v.Some? && v.value.JStr?) ==> r == []
  {
    match v
    case Some(JStr(s)) => s
    case _ => []
  }

  /** The strings of a list field, in order; a field that is not a list is
      read as no entries, and an entry that is not a string as the empty
      text. */
  function Texts(v: Option<JsonValue>): (r: seq<string>)
    ensures v.Some? && v.value.JArr? ==> |r| == |v.value.items|
    ensures v.Some? && v.value.JArr? ==>
      forall i :: 0 <= i < |r| ==> r[i] == Text(Some(v.value.items[i]))
    ensures !(v.Some? && v.value.JArr?) ==> r == []
  {
    match v
    case Some(JArr(items)) => seq(|items|, i requires 0 <= i < |items| => Text(Some(items[i])))
    case _ => []
  }

  /** The stored capsule read through the `CapsuleData` interface. */
  function Read(c: Capsule): (r: CapsuleData)
    ensures r.id == Text(Prop(JObj(c), "id")) && r.actions == Texts(Prop(JObj(c), "actions"))
    ensures r.source == Text(Prop(JObj(c), "source")) && r.sourceType == Text(Prop(JObj(c), "sourceType"))
    ensures r.createdAt == Text(Prop(JObj(c), "createdAt"))
  {
    var o := JObj(c);
    CapsuleData(Text(Prop(o, "id")), Text(Prop(o, "title")), Text(Prop(o, "summary")),
                Texts(Prop(o, "actions")), Text(Prop(o, "priority")), Text(Prop(o, "sentiment")),
                Texts(Prop(o, "tags")), Text(Prop(o, "source")), Text(Prop(o, "sourceType")),
                Text(Prop(o, "createdAt")))
  }

  /** A capsule the handlers assembled shows the provenance of its request,
      whatever the model answered, and a stored capsule found by its id
      shows that id. */
  lemma ReadShowsProvenance(id: string, data: JsonValue, source: string, sourceType: string, createdAt: string)
    ensures var v := Read(Assemble(id, data, Provenance(source, sourceType, createdAt)));
      v.source == source && v.sourceType == sourceType && v.createdAt == createdAt
  {
    var p := Provenance(source, sourceType, createdAt);
    var c := Assemble(id, data, p);
    assert "source" in p && "sourceType" in p && "createdAt" in p;
    assert c["source"] == JStr(source);
    assert c["sourceType"] == JStr(sourceType);
    assert c["createdAt"] == JStr(createdAt);
  }

  /** `c.id === id` is what the pages compare. */
  lemma ReadShowsId(c: Capsule, id: string)
    requires HasId(c, id)
    ensures Read(c).id == id
  {
  }

  /** `total > 0 ? Math.round((completed / total) * 100) : 0`, with
      `Math.round` read as rounding half up on the exact quotient. */
  function Progress(completed: nat, total: nat): (r: nat)
    ensures total == 0 ==> r == 0
    ensures total > 0 ==> 2 * total * r <= 200 * completed + total < 2 * total * (r + 1)
  {
    if total == 0 then 0 else (200 * completed + total) / (2 * total)
  }

  // ---------------------------------------------------------------------
  // Integer division facts the percentage needs
  // ---------------------------------------------------------------------

  /** A product with a positive count is at least the other factor. */
  lemma {:induction false} MulAtLeast(t: nat, k: nat)
    ensures t * k >= 0
    ensures k >= 1 ==> t * k >= t
    decreases k
  {
    if k > 0 {
      MulAtLeast(t, k - 1);
      assert t * k == t * (k - 1) + t;
    }
  }

  /** The quotient is the one `q` with `q * d <= x < (q + 1) * d`. */
  lemma DivUnique(x: int, d: int, q: int, rem: int)
    requires d > 0 && 0 <= rem < d && x == q * d + rem
    ensures x / d == q
  {
    var q' := x / d;
    if q' > q {
      MulAtLeast(d, q' - q);
    } else if q' < q {
      MulAtLeast(d, q - q');
    }
  }

  /** Division by a positive number keeps the order. */
  lemma DivMonotone(x: int, y: int, d: int)
    requires d > 0 && x <= y
    ensures x / d <= y / d
  {
    if x / d > y / d {
      MulAtLeast(d, x / d - y / d);
    }
  }

  /** Below `q * d` the quotient is below `q`. */
  lemma DivBelow(x: int, d: int, q: int)
    requires d > 0 && x < q * d
    ensures x / d < q
  {
    if x / d >= q {
      MulAtLeast(d, x / d - q);
    }
  }

  // ---------------------------------------------------------------------
  // The percentage
  // ---------------------------------------------------------------------

  /** All actions done is 100 percent. */
  lemma ProgressFull(total: nat)
    requires total > 0
    ensures Progress(total, total) == 100
  {
    DivUnique(200 * total + total, 2 * total, 100, total);
  }

  /** Never more than 100 percent while the count stays within the actions,
      and more done never shows less. */
  lemma ProgressBounded(completed: nat, more: nat, total: nat)
    requires completed <= more <= total
    ensures Progress(completed, total) <= Progress(more, total) <= 100
  {
    if total > 0 {
      ProgressFull(total);
      DivMonotone(200 * completed + total, 200 * more + total, 2 * total);
      DivMonotone(200 * more + total, 200 * total + total, 2 * total);
    }
  }

  /** One action short of all is shown below 100 percent while there are
      fewer than 200 actions. */
  lemma ProgressShort(total: nat)
    requires 0 < total < 200
    ensures Progress(total - 1, total) < 100
  {
    DivBelow(200 * (total - 1) + total, 2 * total, 100);
  }

  /** From 200 actions on, the rounding shows 100 percent with one action
      still open. */
  lemma ProgressRoundsUp()
    ensures Progress(199, 200) == 100
  {
    DivUnique(200 * 199 + 200, 400, 100, 0);
  }
}

=== FILE: client_auth.dfy ===
/** The browser's session: the token and its expiry kept in local storage
    by `login`, read back by `getToken` with the clock, and sent to the
    verify handler by `verifyToken`. The clock is the parameter `now`, in
    milliseconds. */
module ClientAuth {
  import opened Wrappers
  import opened Strings
  import opened Json
  import opened Http
  import opened Browser
  import Session
  import Login
  import Verify

  const TokenKey: string := "focusbrief_token"
  const ExpiryKey: string := "focusbrief_token_expiry"

  /** `logout`: both session keys go, nothing else changes. */
  function Logout(ls: Storage): (r: Storage)
    ensures TokenKey !in r && ExpiryKey !in r
    ensures forall k :: k != TokenKey && k != ExpiryKey ==> (k in r <==> k in ls)
    ensures forall k :: k in r ==> r[k] == ls[k]
  {
    ls - {TokenKey, ExpiryKey}
  }

  /** What a call returns, with the storage it leaves behind. */
  datatype After<T> = After(value: T, storage: Storage)

  /** `Date.now() > parseInt(expiry, 10)`; a stored expiry that does not
      read as a number compares false, so it never expires. */
  predicate ExpiredAt(expiry: string, now: int) {
    var e := ParseInt(expiry);
    e.Some? && now > e.value
  }

  /** `getToken`: the stored token while it has not expired. An expired
      session is logged out on the way. */
  function GetToken(ls: Storage, now: int): (r: After<Option<string>>)
    ensures Falsy(GetItem(ls, TokenKey)) || Falsy(GetItem(ls, ExpiryKey)) ==> r == After(None, ls)
    ensures r.value.Some? <==>
      !Falsy(GetItem(ls, TokenKey)) && !Falsy(GetItem(ls, ExpiryKey)) && !ExpiredAt(ls[ExpiryKey], now)
    ensures r.value.Some? ==> r.value.value == ls[TokenKey] && r.storage == ls
    ensures r.storage == ls || r.storage == Logout(ls)
  {
    var token := GetItem(ls, TokenKey);
    var expiry := GetItem(ls, ExpiryKey);
    if Falsy(token) || Falsy(expiry) then After(None, ls)
    else if ExpiredAt(expiry.value, now) then After(None, Logout(ls))
    else After(Some(token.value), ls)
  }

  /** `isAuthenticated`: `getToken() !== null`, with the same effect on the
      storage. */
  function IsAuthenticated(ls: Storage, now: int): (r: After<bool>)
    ensures r.value <==> GetToken(ls, now).value.Some?
    ensures r.storage == GetToken(ls, now).storage
  {
    var t := GetToken(ls, now);
    After(t.value.Some?, t.storage)
  }

  /** Reading the session twice is reading it once: the first read already
      removed an expired session. */
  lemma GetTokenIdempotent(ls: Storage, now: int)
    ensures GetToken(GetToken(ls, now).storage, now) == GetToken(ls, now)
  {
  }

  /** After `logout` there is no session. */
  lemma LogoutEndsSession(ls: Storage, now: int)
    ensures GetToken(Logout(ls), now) == After(None, Logout(ls))
    ensures !IsAuthenticated(Logout(ls), now).value
  {
  }

  /** `login`: the reply of the login handler is read, and only a
      successful one with a token is written to the storage. The token is
      written before the expiry is read, so a reply without `expiresAt`
      throws between the two writes: the token stays and the answer is
      `false`. */
  function ClientLogin(response: Fetched, parse: Parser, ls: Storage): (r: After<bool>)
    ensures r.value ==> TokenKey in r.storage && ExpiryKey in r.storage
    ensures !(response.Response? && Ok(response.status)) ==> r == After(false, ls)
    ensures forall k :: k != TokenKey && k != ExpiryKey ==>
      (k in r.storage <==> k in ls) && (k in ls ==> r.storage[k] == ls[k])
  {
    match response
    case NetworkError(_) => After(false, ls)
    case Response(status, text) =>
      if !Ok(status) then After(false, ls)
      else
        match parse(text)
        case Failure(_) => After(false, ls)
        case Success(data) =>
          var token := Prop(data, "token");
          if !(Truthy(Prop(data, "success")) && Truthy(token)) then After(false, ls)
          else
            var written := ls[TokenKey := DisplayValue(token.value)];
            match Prop(data, "expiresAt")
            case None => After(false, written)
            case Some(JNull) => After(false, written)
            case Some(e) => After(true, written[ExpiryKey := DisplayValue(e)])
  }

  /** A successful reply of the login handler, read by the browser, opens a
      session that lasts exactly as long as the server said. */
  lemma LoginThenGetToken(password: string, now: int, random: string, encode: Session.Codec,
                          sign: Session.Signer, text: string, parse: Parser, ls: Storage, later: int)
    requires var reply := Login.Handle(Post, Some(password), Some(password), now, random, encode, sign);
      password != [] && Login.TokenOf(reply).value != [] && parse(text) == Success(reply.body.value)
    ensures var token := Login.TokenOf(Login.Handle(Post, Some(password), Some(password), now, random,
                                                    encode, sign)).value;
      var r := ClientLogin(Response(200, text), parse, ls);
      r.value && r.storage[TokenKey] == token
      && (GetToken(r.storage, later).value == Some(token) <==> later <= now + Login.SessionMillis)
  {
    var reply := Login.Handle(Post, Some(password), Some(password), now, random, encode, sign);
    var token := Login.TokenOf(reply).value;
    var expiry := now + Login.SessionMillis;
    ClientLoginOfGrant(text, parse, ls, reply.body.value.fields, token, expiry);
    SessionLastsUntil(ls, token, expiry, later);
  }

  /** A reply granting a token and an expiry writes both. */
  lemma ClientLoginOfGrant(text: string, parse: Parser, ls: Storage, fields: FieldMap, token: string,
                           expiry: int)
    requires parse(text) == Success(JObj(fields)) && token != []
    requires "success" in fields && fields["success"] == JBool(true)
    requires "token" in fields && fields["token"] == JStr(token)
    requires "expiresAt" in fields && fields["expiresAt"] == JNum(expiry)
    ensures ClientLogin(Response(200, text), parse, ls)
         == After(true, ls[TokenKey := token][ExpiryKey := IntToString(expiry)])
  {
  }

  /** A session written with an expiry reads back until that moment. */
  lemma SessionLastsUntil(ls: Storage, token: string, expiry: int, later: int)
    requires token != []
    ensures var written := ls[TokenKey := token][ExpiryKey := IntToString(expiry)];
      GetToken(written, later).value == Some(token) <==> later <= expiry
  {
    ParseIntOfIntToString(expiry);
    assert TokenKey != ExpiryKey by {
      assert |TokenKey| != |ExpiryKey|;
    }
  }

  /** A reply with a token but no expiry leaves the token in the storage and
      answers `false`; the half-written session is not usable. */
  lemma TokenWithoutExpiry(token: string, text: string, parse: Parser, ls: Storage, now: int)
    requires token != [] && ExpiryKey !in ls
    requires parse(text) == Success(JObj(map["success" := JBool(true), "token" := JStr(token)]))
    ensures var r := ClientLogin(Response(200, text), parse, ls);
      !r.value && r.storage == ls[TokenKey := token]
      && GetToken(r.storage, now).value.None?
  {
  }

  /** A stored expiry that is not a number never expires. */
  lemma UnreadableExpiryNeverExpires(ls: Storage, now: int)
    requires !Falsy(GetItem(ls, TokenKey)) && !Falsy(GetItem(ls, ExpiryKey))
    requires ParseInt(ls[ExpiryKey]).None?
    ensures GetToken(ls, now) == After(Some(ls[TokenKey]), ls)
  {
  }

  /** `verifyToken`: with a session, the verify handler is asked with the
      header "Bearer <token>" and the answer is `valid === true`; any throw
      reads as `false`. `verify` stands for the request, as a function of
      the header it sends. The status of the reply is not looked at. */
  function VerifyToken(ls: Storage, now: int, verify: string -> Fetched, parse: Parser): (r: After<bool>)
    ensures r.storage == GetToken(ls, now).storage
    ensures r.value ==> GetToken(ls, now).value.Some?
  {
    var t := GetToken(ls, now);
    match t.value
    case None => After(false, t.storage)
    case Some(token) =>
      match verify("Bearer " + token)
      case NetworkError(_) => After(false, t.storage)
      case Response(_, text) =>
        match parse(text)
        case Failure(_) => After(false, t.storage)
        case Success(data) => After(Prop(data, "valid") == Some(JBool(true)), t.storage)
  }

  /** End to end: a browser that has just logged in asks the verify handler
      about its token and is told it is not valid, whatever the clock. The
      verify handler's reply is what the browser reads. */
  lemma LoggedInBrowserIsNotVerified(password: string, now: int, later: int, random: string,
                                     encode: Session.Codec, decode: Session.Codec, sign: Session.Signer,
                                     tokenParse: Parser, text: string, parse: Parser, ls: Storage,
                                     verify: string -> Fetched)
    requires Session.HexSigner(sign)
    requires var reply := Login.Handle(Post, Some(password), Some(password), now, random, encode, sign);
      password != [] && Login.TokenOf(reply).value != [] && parse(text) == Success(reply.body.value)
    requires var data := Session.TokenData(random, now + Login.SessionMillis);
      decode(encode(Session.Frame(data, sign(password, data)))) == Session.Frame(data, sign(password, data))
    requires var token := Login.TokenOf(Login.Handle(Post, Some(password), Some(password), now, random,
                                                     encode, sign)).value;
      var header := "Bearer " + token;
      verify(header).Response?
      && parse(verify(header).body)
        == Success(Verify.Handle(Post, Some(header), Some(password), later, decode, sign, tokenParse).body.value)
    ensures !VerifyToken(ClientLogin(Response(200, text), parse, ls).storage, later, verify, parse).value
  {
    var expiry := now + Login.SessionMillis;
    var token := Session.Issue(password, random, expiry, encode, sign);
    LoginThenGetToken(password, now, random, encode, sign, text, parse, ls, later);
    Session.BearerTokenOfHeader(token);
    Session.IssuedTokenFailsAtFirstColon(password, random, expiry, later, encode, decode, sign, tokenParse);
    VerifyTokenReads(ClientLogin(Response(200, text), parse, ls).storage, later, verify, parse, token, false);
  }

  /** With the corrected verify handler the same browser is told its token
      is valid for as long as its session lasts. */
  lemma LoggedInBrowserIsVerifiedWhenCorrected(password: string, now: int, later: int, random: string,
                                               encode: Session.Codec, decode: Session.Codec,
                                               sign: Session.Signer, tokenParse: Parser, text: string,
                                               parse: Parser, ls: Storage, verify: string -> Fetched)
    requires Session.HexSigner(sign)
    requires var reply := Login.Handle(Post, Some(password), Some(password), now, random, encode, sign);
      password != [] && Login.TokenOf(reply).value != [] && parse(text) == Success(reply.body.value)
    requires var data := Session.TokenData(random, now + Login.SessionMillis);
      Session.Faithful(data, Session.Frame(data, sign(password, data)), random, now + Login.SessionMillis,
                       encode, decode, tokenParse)
    requires var token := Login.TokenOf(Login.Handle(Post, Some(password), Some(password), now, random,
                                                     encode, sign)).value;
      var header := "Bearer " + token;
      verify(header).Response?
      && parse(verify(header).body)
        == Success(Verify.HandleCorrected(Post, Some(header), Some(password), later, decode, sign,
                                          tokenParse).body.value)
    ensures VerifyToken(ClientLogin(Response(200, text), parse, ls).storage, later, verify, parse).value
        <==> later <= now + Login.SessionMillis
  {
    var expiry := now + Login.SessionMillis;
    var token := Session.Issue(password, random, expiry, encode, sign);
    LoginThenGetToken(password, now, random, encode, sign, text, parse, ls, later);
    Verify.IssuedTokenReplies(password, random, expiry, later, encode, decode, sign, tokenParse);
    VerifyTokenReads(ClientLogin(Response(200, text), parse, ls).storage, later, verify, parse, token,
                     later <= expiry);
  }

  /** With the stored token sent and a `{ valid }` answer read back, the
      browser believes the answer exactly when the session is still open. */
  lemma VerifyTokenReads(ls: Storage, now: int, verify: string -> Fetched, parse: Parser,
                         token: string, answer: bool)
    requires TokenKey in ls && ls[TokenKey] == token
    requires verify("Bearer " + token).Response?
    requires parse(verify("Bearer " + token).body) == Success(JObj(map["valid" := JBool(answer)]))
    ensures VerifyToken(ls, now, verify, parse).value <==> answer && GetToken(ls, now).value.Some?
  {
    assert Prop(JObj(map["valid" := JBool(answer)]), "valid") == Some(JBool(answer));
  }
}

=== FILE: client_store.dfy ===
/** The browser's capsule store (`src/services/api.ts`): the capsules the
    serverless handlers answer with are kept in local storage, newest
    first, under one key. `JSON.stringify` and `JSON.parse` of the list are
    the parameters `Codec.encode` and `Codec.decode`. */
module ClientStore {
  import opened Wrappers
  import opened Strings
  import opened Json
  import opened Http
  import opened Browser
  import opened Capsule

  const StorageKey: string := "focusbrief_capsules"
  const ContentFallback: string := "Failed to process content"
  const UrlFallback: string := "Failed to process URL"

  /** `JSON.stringify` of a capsule list, and `JSON.parse` back to one
      (`None` when it throws). */
  datatype Codec = Codec(encode: seq<Capsule> -> string, decode: string -> Option<seq<Capsule>>)

  /** The codec writes a non-empty text for this list and reads it back. */
  predicate ReadsBack(codec: Codec, cs: seq<Capsule>) {
    codec.encode(cs) != [] && codec.decode(codec.encode(cs)) == Some(cs)
  }

  /** `getStoredCapsules`: nothing stored, an empty text, or a text that
      does not parse all read as the empty list. */
  function Stored(ls: Storage, codec: Codec): (r: seq<Capsule>)
    ensures Falsy(GetItem(ls, StorageKey)) ==> r == []
    ensures !Falsy(GetItem(ls, StorageKey)) && codec.decode(ls[StorageKey]).None? ==> r == []
  {
    match GetItem(ls, StorageKey)
    case None => []
    case Some(text) =>
      if text == [] then []
      else codec.decode(text).GetOr([])
  }

  /** `saveCapsulesToStorage`. */
  function Save(ls: Storage, cs: seq<Capsule>, codec: Codec): (r: Storage)
    ensures StorageKey in r && r[StorageKey] == codec.encode(cs)
    ensures forall k :: k != StorageKey ==> (k in r <==> k in ls) && (k in ls ==> r[k] == ls[k])
  {
    ls[StorageKey := codec.encode(cs)]
  }

  /** What is saved is what is read next, when the codec reads it back. */
  lemma StoredAfterSave(ls: Storage, cs: seq<Capsule>, codec: Codec)
    ensures ReadsBack(codec, cs) ==> Stored(Save(ls, cs, codec), codec) == cs
  {
  }

  /** `addCapsuleToStorage`: the new capsule goes first. */
  function Add(ls: Storage, c: Capsule, codec: Codec): (r: Storage)
    ensures ReadsBack(codec, Prepend(Stored(ls, codec), c)) ==>
      Stored(r, codec) == [c] + Stored(ls, codec)
  {
    var cs := Prepend(Stored(ls, codec), c);
    StoredAfterSave(ls, cs, codec);
    Save(ls, cs, codec)
  }

  /** `getCapsule`: the first stored capsule with the id. */
  function Get(ls: Storage, id: string, codec: Codec): (r: Option<Capsule>)
    ensures r.None? <==> forall j :: 0 <= j < |Stored(ls, codec)| ==> !HasId(Stored(ls, codec)[j], id)
    ensures r.Some? ==> HasId(r.value, id) && r.value in Stored(ls, codec)
  {
    Find(Stored(ls, codec), id)
  }

  /** `deleteCapsule`: every capsule with the id goes, and the answer is
      `{ success: true }` whether there was one or not. */
  function Delete(ls: Storage, id: string, codec: Codec): (r: After)
    ensures r.success
    ensures ReadsBack(codec, DeleteAll(Stored(ls, codec), id)) ==>
      Stored(r.storage, codec) == DeleteAll(Stored(ls, codec), id)
  {
    var cs := DeleteAll(Stored(ls, codec), id);
    StoredAfterSave(ls, cs, codec);
    After(true, Save(ls, cs, codec))
  }

  /** The `success` a call answers with, and the storage it leaves. */
  datatype After = After(success: bool, storage: Storage)

  /** A capsule added and then looked up is found, even if an older one has
      the same id. */
  lemma AddThenGet(ls: Storage, c: Capsule, id: string, codec: Codec)
    requires HasId(c, id) && ReadsBack(codec, Prepend(Stored(ls, codec), c))
    ensures Get(Add(ls, c, codec), id, codec) == Some(c)
  {
    FindAfterPrepend(Stored(ls, codec), c, id);
  }

  /** Deleting the id of a capsule just added leaves no capsule with that
      id; the others keep their order. */
  lemma {:induction false} AddThenDelete(ls: Storage, c: Capsule, id: string, codec: Codec)
    requires HasId(c, id)
    requires ReadsBack(codec, Prepend(Stored(ls, codec), c))
    requires ReadsBack(codec, DeleteAll(Stored(ls, codec), id))
    ensures Stored(Delete(Add(ls, c, codec), id, codec).storage, codec) == DeleteAll(Stored(ls, codec), id)
    ensures Get(Delete(Add(ls, c, codec), id, codec).storage, id, codec).None?
  {
    var before := Stored(ls, codec);
    assert [c] + before == Prepend(before, c);
    DeleteAllConcat([c], before, id);
    assert DeleteAll([c], id) == DeleteAll([c][1..], id);
    assert [c][1..] == [];
    assert [] + DeleteAll(before, id) == DeleteAll(before, id);
    StoredAfterSave(Add(ls, c, codec), DeleteAll(before, id), codec);
  }

  /** Deleting an id nobody has rewrites the same list. */
  lemma DeleteAbsent(ls: Storage, id: string, codec: Codec)
    requires forall j :: 0 <= j < |Stored(ls, codec)| ==> !HasId(Stored(ls, codec)[j], id)
    requires ReadsBack(codec, Stored(ls, codec))
    ensures Delete(ls, id, codec).success
    ensures Stored(Delete(ls, id, codec).storage, codec) == Stored(ls, codec)
  {
    DeleteAllKeepsOthers(Stored(ls, codec), id);
  }

  // ---------------------------------------------------------------------
  // processContent / processURL
  // ---------------------------------------------------------------------

  /** `{ content, sourceType, source }` with the defaults "text" and
      "Manual" filled in, as `processContent` sends it. */
  function ContentRequest(content: string, sourceType: Option<string>, source: Option<string>): (r: JsonValue)
    ensures Prop(r, "sourceType") == Some(JStr(sourceType.GetOr("text")))
    ensures Prop(r, "source") == Some(JStr(source.GetOr("Manual")))
    ensures Prop(r, "content") == Some(JStr(content))
  {
    JObj(map["content" := JStr(content), "sourceType" := JStr(sourceType.GetOr("text")),
             "source" := JStr(source.GetOr("Manual"))])
  }

  /** The reply to a process request, read by the browser: `{ success:
      false, error }` for a throw, otherwise the parsed body as it is. A
      capsule is stored when `success` and `capsule` are truthy; the model
      stores it only when it is an object. */
  function Outcome(response: Fetched, parse: Parser, fallback: string, ls: Storage, codec: Codec)
    : (r: (JsonValue, Storage))
    ensures r.1 == ls || (exists c :: r.1 == Add(ls, c, codec) && Prop(r.0, "capsule") == Some(JObj(c)))
    ensures r.1 != ls ==> Truthy(Prop(r.0, "success"))
    ensures !(response.Response? && Ok(response.status)) ==>
      (r.1 == ls && r.0.JObj? && Prop(r.0, "success") == Some(JBool(false)))
  {
    match response
    case NetworkError(m) => (ErrorBody(m), ls)
    case Response(status, text) =>
      if !Ok(status) then
        // `new Error(error.error || fallback)`
        match parse(text)
        case Failure(e) => (ErrorBody(e), ls)
        case Success(JNull) => (ErrorBody(NullReadMessage("error")), ls)
        case Success(v) => (ErrorBody(DisplayValue(OrElse(Prop(v, "error"), JStr(fallback)))), ls)
      else
        match parse(text)
        case Failure(e) => (ErrorBody(e), ls)
        case Success(JNull) => (ErrorBody(NullReadMessage("success")), ls)
        case Success(result) =>
          match Prop(result, "capsule")
          case Some(JObj(c)) =>
            if Truthy(Prop(result, "success")) then (result, Add(ls, c, codec)) else (result, ls)
          case _ => (result, ls)
  }

  /** `processContent`: `post` stands for the request, as a function of the
      body it sends. */
  function ProcessContent(content: string, sourceType: Option<string>, source: Option<string>,
                          post: JsonValue -> Fetched, parse: Parser, ls: Storage, codec: Codec)
    : (r: (JsonValue, Storage))
    ensures r.1 == ls || (exists c :: r.1 == Add(ls, c, codec) && Prop(r.0, "capsule") == Some(JObj(c)))
    ensures r.1 != ls ==> Truthy(Prop(r.0, "success"))
  {
    Outcome(post(ContentRequest(content, sourceType, source)), parse, ContentFallback, ls, codec)
  }

  /** `processURL`. */
  function ProcessUrl(url: string, post: JsonValue -> Fetched, parse: Parser, ls: Storage, codec: Codec)
    : (r: (JsonValue, Storage))
    ensures r.1 == ls || (exists c :: r.1 == Add(ls, c, codec) && Prop(r.0, "capsule") == Some(JObj(c)))
    ensures r.1 != ls ==> Truthy(Prop(r.0, "success"))
  {
    Outcome(post(JObj(map["url" := JStr(url)])), parse, UrlFallback, ls, codec)
  }

  /** A handler's capsule reply, read by the browser, puts the capsule at
      the front of the stored list and is returned as it came. */
  lemma StoresHandlerCapsule(c: Capsule, text: string, parse: Parser, fallback: string, ls: Storage,
                             codec: Codec)
    requires parse(text) == Success(CapsuleReply(c).body.value)
    requires ReadsBack(codec, Prepend(Stored(ls, codec), c))
    ensures var r := Outcome(Response(200, text), parse, fallback, ls, codec);
      r.0 == CapsuleReply(c).body.value && Stored(r.1, codec) == [c] + Stored(ls, codec)
  {
  }

  /** A handler's error reply, read by the browser, becomes the same error
      and leaves the storage alone; an empty message is replaced by the
      fallback text. */
  lemma ReportsHandlerError(status: int, message: string, text: string, parse: Parser, fallback: string,
                            ls: Storage, codec: Codec)
    requires !Ok(status)
    requires parse(text) == Success(Fail(status, message).body.value)
    ensures Outcome(Response(status, text), parse, fallback, ls, codec)
         == (ErrorBody(MessageOr(message, fallback)), ls)
  {
  }

  /** A 200 reply without a capsule is returned but not stored. */
  lemma NoCapsuleNotStored(text: string, parse: Parser, fallback: string, ls: Storage, codec: Codec)
    requires parse(text).Success? && !Truthy(Prop(parse(text).value, "capsule"))
    ensures Outcome(Response(200, text), parse, fallback, ls, codec).1 == ls
  {
  }
}

=== FILE: dashboard.dfy ===
/** The dashboard (`Dashboard` and its `CapsuleCard`): the stored capsules
    filtered by priority, the completion statistics over all of them, and
    on each card the percentage of actions done and a preview of the first
    two actions. */
module Dashboard {
  import opened Wrappers
  import opened Strings
  import opened Browser
  import Lists
  import CapsuleView
  import CapsuleDetail
  import ClientStore

  type CapsuleData = CapsuleView.CapsuleData

  // ---------------------------------------------------------------------
  // Priority filter
  // ---------------------------------------------------------------------

  /** The filter buttons: all capsules, or the ones of one priority. */
  datatype PriorityFilter = AllPriorities | OnlyPriority(priority: string) {
    predicate Keeps(c: CapsuleData) {
      AllPriorities? || c.priority == priority
    }
  }

  /** `filteredCapsules`. */
  function Visible(cs: seq<CapsuleData>, f: PriorityFilter): (r: seq<CapsuleData>)
    ensures forall c :: c in r <==> c in cs && (f.AllPriorities? || c.priority == f.priority)
    ensures |r| <= |cs|
  {
    Lists.Filter(cs, c => f.Keeps(c))
  }

  /** "All" shows every capsule in the stored order. */
  lemma AllShowsEverything(cs: seq<CapsuleData>)
    ensures Visible(cs, AllPriorities) == cs
  {
    Lists.FilterAll(cs, c => AllPriorities.Keeps(c));
  }

  /** A priority shows each capsule of that priority as often as it is
      stored, and the capsules of the other priorities not at all. */
  lemma OnlyPriorityCounts(cs: seq<CapsuleData>, p: string, c: CapsuleData)
    ensures multiset(Visible(cs, OnlyPriority(p)))[c] == if c.priority == p then multiset(cs)[c] else 0
  {
    Lists.FilterCounts(cs, c => OnlyPriority(p).Keeps(c), c);
  }

  /** Capsules stored before others are shown before them. */
  lemma VisibleKeepsOrder(a: seq<CapsuleData>, b: seq<CapsuleData>, f: PriorityFilter)
    ensures Visible(a + b, f) == Visible(a, f) + Visible(b, f)
  {
    Lists.FilterConcat(a, b, c => f.Keeps(c));
  }

  // ---------------------------------------------------------------------
  // One card
  // ---------------------------------------------------------------------

  /** `saved ? JSON.parse(saved).length : 0` for the capsule's done actions;
      `marks` is the length of the parsed list. */
  function DoneCount(ls: Storage, id: string, marks: string -> nat): (r: nat)
    ensures Falsy(GetItem(ls, CapsuleDetail.ActionsKey(id))) ==> r == 0
    ensures !Falsy(GetItem(ls, CapsuleDetail.ActionsKey(id))) ==> r == marks(ls[CapsuleDetail.ActionsKey(id)])
  {
    var saved := GetItem(ls, CapsuleDetail.ActionsKey(id));
    if Falsy(saved) then 0 else marks(saved.value)
  }

  /** The marks the capsule page saves are the marks the card counts. */
  lemma CardCountsSavedMarks(id: string, completed: seq<int>, ls: Storage,
                             encodeActions: seq<int> -> string, marks: string -> nat)
    requires id != [] && encodeActions(completed) != [] && marks(encodeActions(completed)) == |completed|
    ensures DoneCount(CapsuleDetail.SaveActions(Some(id), completed, ls, encodeActions), id, marks) == |completed|
  {
  }

  /** A visit to the capsule page as written leaves the card counting no
      action done, whatever was marked before the visit. */
  lemma VisitResetsCard(id: string, completed: seq<int>, ls: Storage, codec: ClientStore.Codec,
                        encodeActions: seq<int> -> string, decodeActions: string -> Option<seq<int>>,
                        marks: string -> nat)
    requires id != [] && ClientStore.Get(ls, id, codec).Some?
    requires encodeActions([]) != [] && decodeActions(encodeActions([])) == Some([])
    requires marks(encodeActions([])) == 0
    ensures var visited := CapsuleDetail.Mount(Some(id), CapsuleDetail.SaveActions(Some(id), completed, ls, encodeActions),
                                               codec, encodeActions, decodeActions);
      DoneCount(visited.storage, id, marks) == 0
  {
    CapsuleDetail.MountForgetsMarks(id, completed, ls, codec, encodeActions, decodeActions);
  }

  /** The first two actions, and the `+k más` line when there are more. */
  datatype Preview = Preview(shown: seq<string>, more: Option<string>)

  /** `+k más`. */
  function MoreLabel(k: nat): string {
    "+" + NatToString(k) + " más"
  }

  /** The actions preview of a card. */
  function ActionPreview(actions: seq<string>): (r: Preview)
    ensures |r.shown| <= 2 && r.shown <= actions
    ensures r.more.Some? <==> |actions| > 2
    ensures r.more.None? ==> r.shown == actions
    ensures r.more.Some? ==> r.more.value == MoreLabel(|actions| - |r.shown|)
  {
    if |actions| > 2 then Preview(actions[..2], Some(MoreLabel(|actions| - 2)))
    else Preview(actions, None)
  }

  /** The percentage on a card, shown (with its bar) only when above 0. */
  function CardProgress(c: CapsuleData, done: nat): (r: Option<nat>)
    ensures r.Some? <==> CapsuleView.Progress(done, |c.actions|) > 0
    ensures r.Some? ==> r.value == CapsuleView.Progress(done, |c.actions|)
  {
    var p := CapsuleView.Progress(done, |c.actions|);
    if p > 0 then Some(p) else None
  }

  // ---------------------------------------------------------------------
  // Completion statistics
  // ---------------------------------------------------------------------

  /** Which of the two counters a capsule adds to, if any. */
  datatype Stage = Complete | InProgress | NotStarted

  /** The test inside the `reduce`. */
  function StageOf(c: CapsuleData, done: nat): (r: Stage)
    ensures r == Complete <==> done == |c.actions| && |c.actions| > 0
    ensures r == NotStarted <==> done == 0
  {
    if done == |c.actions| && |c.actions| > 0 then Complete
    else if done > 0 then InProgress
    else NotStarted
  }

  /** A capsule counted complete shows 100 percent on its card; with fewer
      than 200 actions and no stale marks, 100 percent is shown only for a
      capsule counted complete. */
  lemma CompleteIsFull(c: CapsuleData, done: nat)
    ensures StageOf(c, done) == Complete ==> CardProgress(c, done) == Some(100)
    ensures done <= |c.actions| < 200 && CardProgress(c, done) == Some(100) ==> StageOf(c, done) == Complete
  {
    var n := |c.actions|;
    if n > 0 {
      CapsuleView.ProgressFull(n);
      if done < n {
        CapsuleView.ProgressBounded(done, n - 1, n);
        if n < 200 {
          CapsuleView.ProgressShort(n);
        }
      }
    }
  }

  /** The number of capsules at a stage, counted over the list. */
  function CountStage(cs: seq<CapsuleData>, done: string -> nat, s: Stage): (r: nat)
    ensures r <= |cs|
  {
    if cs == [] then 0
    else CountStage(cs[..|cs| - 1], done, s) + (if StageOf(cs[|cs| - 1], done(cs[|cs| - 1].id)) == s then 1 else 0)
  }

  /** Every capsule is at exactly one stage. */
  lemma {:induction false} StagesCoverAll(cs: seq<CapsuleData>, done: string -> nat)
    ensures CountStage(cs, done, Complete) + CountStage(cs, done, InProgress)
          + CountStage(cs, done, NotStarted) == |cs|
  {
    if cs != [] {
      StagesCoverAll(cs[..|cs| - 1], done);
    }
  }

  /** `completionStats`: the `reduce` over the stored capsules, with
      `done(id)` the number of saved marks of capsule `id`. */
  method CompletionStats(cs: seq<CapsuleData>, done: string -> nat) returns (completed: nat, inProgress: nat)
    ensures completed == CountStage(cs, done, Complete)
    ensures inProgress == CountStage(cs, done, InProgress)
    ensures completed + inProgress + CountStage(cs, done, NotStarted) == |cs|
  {
    completed, inProgress := 0, 0;
    var i := 0;
    while i < |cs|
      invariant 0 <= i <= |cs|
      invariant completed == CountStage(cs[..i], done, Complete)
      invariant inProgress == CountStage(cs[..i], done, InProgress)
    {
      var c := cs[i];
      var n := done(c.id);
      assert cs[..i + 1][..i] == cs[..i];
      if n == |c.actions| && |c.actions| > 0 {
        completed := completed + 1;
      } else if n > 0 {
        inProgress := inProgress + 1;
      }
      i := i + 1;
    }
    assert cs[..i] == cs;
    StagesCoverAll(cs, done);
  }

  /** `thisWeek`: the capsules created at or after the moment a week ago;
      `recent` stands for that date comparison. */
  function ThisWeek(cs: seq<CapsuleData>, recent: string -> bool): (r: nat)
    ensures r <= |cs|
    ensures (forall i :: 0 <= i < |cs| ==> recent(cs[i].createdAt)) ==> r == |cs|
  {
    var p := (c: CapsuleData) => recent(c.createdAt);
    if forall i :: 0 <= i < |cs| ==> p(cs[i]) then
      Lists.FilterAll(cs, p);
      |Lists.Filter(cs, p)|
    else
      |Lists.Filter(cs, p)|
  }
}

=== FILE: errors.dfy ===
/** The client's error wording (`src/lib/errors.ts`): a raw error message is
    mapped to one of the fixed Spanish messages by the first rule whose
    words occur in its lower-case form, and a shown message gets recovery
    suggestions by a second, shorter table. */
module Errors {
  import opened Wrappers
  import opened Strings

  // `ERROR_MESSAGES`
  const NetworkErrorMessage: string := "No se pudo conectar con el servidor. Verifica tu conexión a internet."
  const TimeoutMessage: string := "La solicitud tardó demasiado. Por favor, inténtalo de nuevo."
  const SessionExpiredMessage: string := "Tu sesión ha expirado. Por favor, inicia sesión de nuevo."
  const UnauthorizedMessage: string := "No tienes permiso para realizar esta acción."
  const InvalidCredentialsMessage: string := "Contraseña incorrecta. Por favor, verifica e intenta de nuevo."
  const ProcessingFailedMessage: string := "Error al procesar el contenido. Por favor, inténtalo de nuevo."
  const InvalidUrlMessage: string := "La URL proporcionada no es válida. Verifica el formato."
  const ContentTooShortMessage: string := "El contenido es demasiado corto para procesar."
  const ContentTooLongMessage: string := "El contenido es demasiado largo. Máximo 100,000 caracteres."
  const ExtractionFailedMessage: string := "No se pudo extraer el contenido de la URL."
  const FileTooLargeMessage: string := "El archivo es demasiado grande. Máximo 50MB."
  const UnsupportedFileTypeMessage: string := "Tipo de archivo no soportado."
  const FileUploadFailedMessage: string := "Error al subir el archivo. Por favor, inténtalo de nuevo."
  const RateLimitedMessage: string := "Has hecho demasiadas solicitudes. Espera un momento antes de continuar."
  const CapsuleNotFoundMessage: string := "La cápsula no fue encontrada."
  const CapsuleDeleteFailedMessage: string := "Error al eliminar la cápsula."
  const AiUnavailableMessage: string := "El servicio de IA no está disponible. Inténtalo más tarde."
  const AiResponseInvalidMessage: string := "La IA devolvió una respuesta inválida. Por favor, intenta de nuevo."
  const UnknownErrorMessage: string := "Ocurrió un error inesperado. Por favor, inténtalo de nuevo."
  const ServerErrorMessage: string := "Error del servidor. Por favor, inténtalo más tarde."

  datatype ErrorCode =
    | NetworkError | Timeout | SessionExpired | Unauthorized | InvalidCredentials
    | ProcessingFailed | InvalidUrl | ContentTooShort | ContentTooLong | ExtractionFailed
    | FileTooLarge | UnsupportedFileType | FileUploadFailed | RateLimited
    | CapsuleNotFound | CapsuleDeleteFailed | AiUnavailable | AiResponseInvalid
    | UnknownError | ServerError
  {
    /** `ERROR_MESSAGES[code]`. */
    function Message(): string {
      match this
      case NetworkError => NetworkErrorMessage
      case Timeout => TimeoutMessage
      case SessionExpired => SessionExpiredMessage
      case Unauthorized => UnauthorizedMessage
      case InvalidCredentials => InvalidCredentialsMessage
      case ProcessingFailed => ProcessingFailedMessage
      case InvalidUrl => InvalidUrlMessage
      case ContentTooShort => ContentTooShortMessage
      case ContentTooLong => ContentTooLongMessage
      case ExtractionFailed => ExtractionFailedMessage
      case FileTooLarge => FileTooLargeMessage
      case UnsupportedFileType => UnsupportedFileTypeMessage
      case FileUploadFailed => FileUploadFailedMessage
      case RateLimited => RateLimitedMessage
      case CapsuleNotFound => CapsuleNotFoundMessage
      case CapsuleDeleteFailed => CapsuleDeleteFailedMessage
      case AiUnavailable => AiUnavailableMessage
      case AiResponseInvalid => AiResponseInvalidMessage
      case UnknownError => UnknownErrorMessage
      case ServerError => ServerErrorMessage
    }

    /** `ERROR_RECOVERY[code] || []`. */
    function Recovery(): seq<string> {
      match this
      case NetworkError =>
        ["Verifica tu conexión a internet", "Intenta recargar la página",
         "Si el problema persiste, espera unos minutos"]
      case SessionExpired => ["Haz clic en \"Iniciar sesión\" para acceder de nuevo"]
      case RateLimited =>
        ["Espera 60 segundos antes de intentar de nuevo", "Considera procesar menos contenido a la vez"]
      case ExtractionFailed =>
        ["Verifica que la URL sea accesible públicamente", "Algunas páginas requieren inicio de sesión",
         "Intenta copiar el texto manualmente"]
      case AiUnavailable => ["El servicio se restablecerá en breve", "Intenta de nuevo en unos minutos"]
      case _ => []
    }
  }

  // ---------------------------------------------------------------------
  // First-match rule tables
  // ---------------------------------------------------------------------

  /** Some word of `words` occurs in `lower`. */
  predicate Mentions(lower: string, words: seq<string>) {
    exists i :: 0 <= i < |words| && Contains(lower, words[i])
  }

  /** A rule: every clause must be mentioned (`a || b` inside a clause,
      `&&` between clauses). */
  datatype Rule = Rule(clauses: seq<seq<string>>, code: ErrorCode)

  predicate Holds(lower: string, rule: Rule) {
    forall j :: 0 <= j < |rule.clauses| ==> Mentions(lower, rule.clauses[j])
  }

  /** The code of the first rule that holds. */
  function FirstMatch(rules: seq<Rule>, lower: string): (r: Option<ErrorCode>)
    ensures r.None? <==> forall i :: 0 <= i < |rules| ==> !Holds(lower, rules[i])
    ensures r.Some? ==> exists i :: (0 <= i < |rules| && Holds(lower, rules[i]) && rules[i].code == r.value
      && forall j :: 0 <= j < i ==> !Holds(lower, rules[j]))
    decreases |rules|
  {
    if rules == [] then None
    else if Holds(lower, rules[0]) then Some(rules[0].code)
    else
      var r := FirstMatch(rules[1..], lower);
      if r.Some? then
        var i :| 0 <= i < |rules[1..]| && Holds(lower, rules[1..][i]) && rules[1..][i].code == r.value
          && forall j :: 0 <= j < i ==> !Holds(lower, rules[1..][j]);
        assert rules[i + 1] == rules[1..][i];
        r
      else r
  }

  /** The first rule that holds decides, whatever the later ones say. */
  lemma FirstHoldingRuleWins(rules: seq<Rule>, lower: string, i: nat)
    requires i < |rules| && Holds(lower, rules[i])
    requires forall j :: 0 <= j < i ==> !Holds(lower, rules[j])
    ensures FirstMatch(rules, lower) == Some(rules[i].code)
  {
  }

  const FileWords: seq<string> := ["file", "archivo"]

  /** The tests of `mapApiError` in their order. The file branch, which
      tests size words, then type words, then nothing, is written as three
      rules in a row that share the file clause. */
  const Rules: seq<Rule> := [
    Rule([["network", "fetch", "econnrefused"]], NetworkError),
    Rule([["timeout", "aborted"]], Timeout),
    Rule([["401", "unauthorized", "sesión"]], SessionExpired),
    Rule([["429", "rate", "demasiadas"]], RateLimited),
    Rule([["url"], ["invalid"]], InvalidUrl),
    Rule([["extract", "extracción"]], ExtractionFailed),
    Rule([["gemini", "ai", "model"]], AiUnavailable),
    Rule([FileWords, ["large", "grande"]], FileTooLarge),
    Rule([FileWords, ["type", "tipo"]], UnsupportedFileType),
    Rule([FileWords], FileUploadFailed),
    Rule([["500", "server"]], ServerError)
  ]

  /** The tests of `getRecoverySuggestions` in their order. */
  const SuggestionRules: seq<Rule> := [
    Rule([["conexión", "network"]], NetworkError),
    Rule([["sesión", "expirado"]], SessionExpired),
    Rule([["demasiadas", "rate"]], RateLimited),
    Rule([["extraer", "url"]], ExtractionFailed),
    Rule([["ia", "servicio"]], AiUnavailable)
  ]

  // ---------------------------------------------------------------------
  // mapApiError / getRecoverySuggestions
  // ---------------------------------------------------------------------

  /** What `mapApiError` is given: a message, or an object with optional
      `message` and `error` texts. */
  datatype ErrorInput = Text(text: string) | ErrorObject(message: Option<string>, error: Option<string>)

  /** `typeof error === 'string' ? error : error.message || error.error || ''`. */
  function MessageOf(e: ErrorInput): (r: string)
    ensures e.Text? ==> r == e.text
    ensures e.ErrorObject? && !Falsy(e.message) ==> r == e.message.value
    ensures e.ErrorObject? && Falsy(e.message) && Falsy(e.error) ==> r == []
  {
    match e
    case Text(s) => s
    case ErrorObject(m, err) =>
      if !Falsy(m) then m.value else if !Falsy(err) then err.value else ""
  }

  /** `/^[A-ZÁÉÍÓÚ]/.test(s)`. */
  predicate StartsCapital(s: string) {
    s != [] && ('A' <= s[0] <= 'Z' || s[0] in "ÁÉÍÓÚ")
  }

  /** `mapApiError`: the message of the first matching rule; otherwise the
      text itself when it already reads like a sentence, or the generic
      message. */
  function MapApiError(e: ErrorInput): (r: string)
    ensures (exists c: ErrorCode :: r == c.Message()) || (r == MessageOf(e) && StartsCapital(r))
    ensures FirstMatch(Rules, ToLower(MessageOf(e))).Some? ==>
      r == FirstMatch(Rules, ToLower(MessageOf(e))).value.Message()
    ensures FirstMatch(Rules, ToLower(MessageOf(e))).None? && StartsCapital(MessageOf(e)) ==> r == MessageOf(e)
    ensures FirstMatch(Rules, ToLower(MessageOf(e))).None? && !StartsCapital(MessageOf(e)) ==>
      r == UnknownError.Message()
  {
    var text := MessageOf(e);
    match FirstMatch(Rules, ToLower(text))
    case Some(code) => code.Message()
    case None => if StartsCapital(text) then text else UnknownError.Message()
  }

  /** `getRecoverySuggestions`: the suggestions of the first matching word,
      or none. */
  function RecoverySuggestions(shown: string): (r: seq<string>)
    ensures FirstMatch(SuggestionRules, ToLower(shown)).None? ==> r == []
    ensures r != [] ==> exists c: ErrorCode :: r == c.Recovery()
    ensures FirstMatch(SuggestionRules, ToLower(shown)).Some? ==>
      r == FirstMatch(SuggestionRules, ToLower(shown)).value.Recovery()
  {
    match FirstMatch(SuggestionRules, ToLower(shown))
    case Some(code) => code.Recovery()
    case None => []
  }

  /** Any message that mentions "fetch", whatever its case, is a network
      error. */
  lemma FetchIsNetwork(text: string)
    requires Contains(ToLower(text), "fetch")
    ensures MapApiError(Text(text)) == NetworkError.Message()
  {
    assert Mentions(ToLower(text), Rules[0].clauses[0]) by {
      assert Rules[0].clauses[0][1] == "fetch";
    }
    FirstHoldingRuleWins(Rules, ToLower(text), 0);
  }

  /** A lower-case piece of a text is found unchanged in its lower-case
      form. */
  lemma LowerPiece(s: string, p: string, i: nat)
    requires OccursAt(s, p, i) && ToLower(p) == p
    ensures OccursAt(ToLower(s), p, i)
  {
    forall k | 0 <= k < |p| ensures ToLower(s)[i + k] == p[k] {
      assert s[i + k] == p[k];
      assert ToLower(p)[k] == LowerChar(p[k]);
    }
  }

  /** The network message mentions "conexión". */
  lemma NetworkMessageMentionsConnection()
    ensures Contains(ToLower(NetworkErrorMessage), "conexión")
  {
    var shown := NetworkErrorMessage;
    assert shown[49..57] == "conexión";
    LowerPiece(shown, "conexión", 49);
  }

  /** The network message is shown with the network suggestions. */
  lemma NetworkMessageSuggestions()
    ensures RecoverySuggestions(NetworkError.Message()) == NetworkError.Recovery()
  {
    NetworkMessageMentionsConnection();
    assert SuggestionRules[0].clauses[0][0] == "conexión";
    FirstHoldingRuleWins(SuggestionRules, ToLower(NetworkError.Message()), 0);
  }

  /** No word of `words` occurs in `s` when each of them holds a
      character `s` lacks; `witnesses[k]` is that character for `words[k]`. */
  lemma NotMentioned(s: string, words: seq<string>, witnesses: string)
    requires |witnesses| == |words|
    requires forall k :: 0 <= k < |words| ==> witnesses[k] in words[k] && witnesses[k] !in s
    ensures !Mentions(s, words)
  {
    forall k | 0 <= k < |words| ensures !Contains(s, words[k]) {
      MissingCharNotContained(s, words[k], witnesses[k]);
    }
  }

  /** None of the words of the first three rules occurs in "file upload
      failed". */
  lemma NoEarlyWord(i: nat)
    requires i < 3
    ensures !Holds("file upload failed", Rules[i])
  {
    var s := "file upload failed";
    var w := Rules[i].clauses[0];
    if i == 0 { NotMentioned(s, w, "ntc"); }
    else if i == 1 { NotMentioned(s, w, "tb"); }
    else { NotMentioned(s, w, "4ns"); }
  }

  /** ... nor of the next three. */
  lemma NoLaterWord(i: nat)
    requires 3 <= i < 6
    ensures !Holds("file upload failed", Rules[i])
  {
    var s := "file upload failed";
    var w := Rules[i].clauses[0];
    if i == 3 { NotMentioned(s, w, "4rm"); }
    else if i == 4 { NotMentioned(s, w, "r"); }
    else { NotMentioned(s, w, "xx"); }
  }

  /** "ai" is tested as a bare substring before the file words, so the
      message "File upload failed" is shown as the AI service being down,
      not as a failed upload. */
  lemma FileUploadFailedIsAi()
    ensures MapApiError(Text("File upload failed")) == AiUnavailable.Message()
  {
    var lower := ToLower("File upload failed");
    assert lower == "file upload failed";
    forall j | 0 <= j < 6 ensures !Holds(lower, Rules[j]) {
      if j < 3 { NoEarlyWord(j); } else { NoLaterWord(j); }
    }
    assert OccursAt(lower, "ai", 13);
    assert Mentions(lower, Rules[6].clauses[0]) by {
      assert Rules[6].clauses[0][1] == "ai";
    }
    FirstHoldingRuleWins(Rules, lower, 6);
  }
}

=== FILE: fallback.dfy ===
/** The fallback chains of the tweet and transcript fetchers: try each
    method in order, stop at the first that succeeds, and otherwise report
    every failure as "name: reason", joined with "; ". */
module Fallback {
  import opened Wrappers
  import opened Strings

  /** One method of a chain, with the outcome it would have if called. */
  datatype Attempt<T> = Attempt(name: string, outcome: Result<T, string>)

  /** One entry of the `errors` list. */
  datatype Failed = Failed(methodName: string, error: string)

  datatype Chain<T> =
    | Found(value: T, winner: nat, errors: seq<Failed>)
    | Exhausted(errors: seq<Failed>)

  /** The failure entry an attempt contributes. */
  function FailureOf<T>(a: Attempt<T>): Failed
    requires a.outcome.Failure?
  {
    Failed(a.name, a.outcome.error)
  }

  /** Every attempt before `n` failed, and `errors` lists them in order. */
  predicate FailedBefore<T>(attempts: seq<Attempt<T>>, n: nat, errors: seq<Failed>)
    requires n <= |attempts|
  {
    |errors| == n
    && (forall j :: 0 <= j < n ==> attempts[j].outcome.Failure?)
    && (forall j :: 0 <= j < n ==> errors[j] == FailureOf(attempts[j]))
  }

  /** The `for ... of` loop with `try`/`catch` around each method. */
  function Run<T>(attempts: seq<Attempt<T>>): (r: Chain<T>)
    ensures r.Found? ==>
      r.winner < |attempts| && attempts[r.winner].outcome == Success(r.value)
      && FailedBefore(attempts, r.winner, r.errors)
    ensures r.Exhausted? ==> FailedBefore(attempts, |attempts|, r.errors)
    decreases |attempts|
  {
    if attempts == [] then Exhausted([])
    else if attempts[0].outcome.Success? then Found(attempts[0].outcome.value, 0, [])
    else
      var head := FailureOf(attempts[0]);
      match Run(attempts[1..])
      case Found(v, w, errs) => Found(v, w + 1, [head] + errs)
      case Exhausted(errs) => Exhausted([head] + errs)
  }

  /** The chain succeeds exactly when one of its methods does. */
  lemma RunFindsAny<T>(attempts: seq<Attempt<T>>)
    ensures Run(attempts).Found? <==> exists j :: 0 <= j < |attempts| && attempts[j].outcome.Success?
  {
    var r := Run(attempts);
    if r.Found? {
      assert attempts[r.winner].outcome.Success?;
    }
  }

  /** Methods after the winner are never called: replacing them changes nothing. */
  lemma {:induction false} RunIgnoresRest<T>(attempts: seq<Attempt<T>>, other: seq<Attempt<T>>)
    requires Run(attempts).Found?
    ensures Run(attempts[..Run(attempts).winner + 1] + other) == Run(attempts)
    decreases |attempts|
  {
    var w := Run(attempts).winner;
    var xs := attempts[..w + 1] + other;
    assert xs[0] == attempts[0];
    if w > 0 {
      assert attempts[0].outcome.Failure?;
      var r1 := Run(attempts[1..]);
      assert r1.Found? && r1.winner == w - 1;
      RunIgnoresRest(attempts[1..], other);
      assert xs[1..] == attempts[1..][..w] + other;
    }
  }

  /** The "name: reason" entries joined with "; ". */
  function Summary(errors: seq<Failed>): string {
    Join(seq(|errors|, j requires 0 <= j < |errors| => errors[j].methodName + ": " + errors[j].error), "; ")
  }

  /** The summary names every failed method with its reason. */
  lemma SummaryMentions(errors: seq<Failed>, k: nat)
    requires k < |errors|
    ensures Contains(Summary(errors), errors[k].methodName + ": " + errors[k].error)
  {
    var parts := seq(|errors|, j requires 0 <= j < |errors| => errors[j].methodName + ": " + errors[j].error);
    JoinContainsPart(parts, "; ", k);
  }

  /** The summary of two failures is the two entries with "; " between. */
  lemma SummaryOfTwo(a: Failed, b: Failed)
    ensures Summary([a, b]) == a.methodName + ": " + a.error + "; " + (b.methodName + ": " + b.error)
  {
    var parts := seq(2, j requires 0 <= j < 2 => [a, b][j].methodName + ": " + [a, b][j].error);
    assert parts == [a.methodName + ": " + a.error, b.methodName + ": " + b.error];
    assert Join(parts[1..], "; ") == parts[1];
  }
}

=== FILE: html_text.dfy ===
/** The basic HTML-to-text conversion both URL fetchers use: drop
    `<script>` and `<style>` blocks (tag names matched without regard to
    case), turn every remaining tag into one space, collapse every run of
    white space into one space and trim. The serverless fetcher then cuts
    the text at 10000 characters. */
module HtmlText {
  import opened Wrappers
  import opened Strings

  // ---------------------------------------------------------------------
  // Case-insensitive search
  // ---------------------------------------------------------------------

  /** `p` (written in lower case) occurs at `i` of `s` when case is ignored. */
  predicate CiOccursAt(s: string, p: string, i: nat) {
    i + |p| <= |s| && ToLower(s[i..i + |p|]) == p
  }

  /** Index of the first case-insensitive occurrence of `p`. */
  function CiIndexOf(s: string, p: string): (r: Option<nat>)
    ensures r.Some? ==> CiOccursAt(s, p, r.value)
    ensures r.Some? ==> forall j: nat :: j < r.value ==> !CiOccursAt(s, p, j)
    ensures r.None? ==> forall j: nat :: j <= |s| ==> !CiOccursAt(s, p, j)
    decreases |s|
  {
    if |s| < |p| then None
    else if CiOccursAt(s, p, 0) then Some(0)
    else
      match CiIndexOf(s[1..], p)
      case None =>
        forall j: nat | 1 <= j <= |s| ensures !CiOccursAt(s, p, j) {
          CiOccursShift(s, p, j);
        }
        None
      case Some(k) =>
        CiOccursShift(s, p, k + 1);
        forall j: nat | 1 <= j < k + 1 ensures !CiOccursAt(s, p, j) {
          CiOccursShift(s, p, j);
        }
        Some(k + 1)
  }

  /** An occurrence past the first character is one in the rest. */
  lemma CiOccursShift(s: string, p: string, j: nat)
    requires 1 <= j && s != []
    ensures CiOccursAt(s, p, j) <==> CiOccursAt(s[1..], p, j - 1)
  {
    if j + |p| <= |s| {
      var a, b := s[j..j + |p|], s[1..][j - 1..j - 1 + |p|];
      forall t | 0 <= t < |p| ensures a[t] == b[t] {
        assert a[t] == s[j + t] && b[t] == s[1..][j - 1 + t];
      }
      assert a == b;
    }
  }

  /** A lower-cased character is `<` only if it was `<`. */
  lemma LowerCharAngle(c: char)
    ensures LowerChar(c) == '<' <==> c == '<'
  {
  }

  // ---------------------------------------------------------------------
  // Script and style blocks
  // ---------------------------------------------------------------------

  /** Where a block that starts at index 0 ends: `open` (case ignored), the
      first `>` after it, then the first `close` (case ignored) after that. */
  function BlockEnd(s: string, open: string, close: string): (e: Option<nat>)
    requires open != []
    ensures e.Some? ==> |open| < e.value <= |s|
  {
    if !CiOccursAt(s, open, 0) then None
    else
      match IndexOfChar(s[|open|..], '>')
      case None => None
      case Some(g) =>
        var body := |open| + g + 1;
        match CiIndexOf(s[body..], close)
        case None => None
        case Some(m) => Some(body + m + |close|)
  }

  /** `s.replace(/<open[^>]*>[\s\S]*?close/gi, '')`. */
  function RemoveBlocks(s: string, open: string, close: string): (r: string)
    requires open != []
    ensures |r| <= |s|
    decreases |s|
  {
    if s == [] then []
    else
      match BlockEnd(s, open, close)
      case Some(e) => RemoveBlocks(s[e..], open, close)
      case None => [s[0]] + RemoveBlocks(s[1..], open, close)
  }

  /** A text with no `<` has no block to remove. */
  lemma {:induction false} RemoveBlocksPlain(s: string, open: string, close: string)
    requires open != [] && open[0] == '<' && '<' !in s
    ensures RemoveBlocks(s, open, close) == s
    decreases |s|
  {
    if s != [] {
      assert s[0] in s;
      LowerCharAngle(s[0]);
      assert !CiOccursAt(s, open, 0) by {
        if |open| <= |s| {
          assert ToLower(s[0..|open|])[0] == LowerChar(s[0]);
        }
      }
      assert forall c :: c in s[1..] ==> c in s;
      RemoveBlocksPlain(s[1..], open, close);
    }
  }

  // ---------------------------------------------------------------------
  // Tags
  // ---------------------------------------------------------------------

  /** Where a tag that starts at index 0 ends: `<`, at least one character
      other than `>`, then the first `>`. */
  function TagEnd(s: string): (e: Option<nat>)
    ensures e.Some? ==> 2 < e.value <= |s|
  {
    if s == [] || s[0] != '<' then None
    else
      match IndexOfChar(s[1..], '>')
      case Some(g) => if g > 0 then Some(g + 2) else None
      case None => None
  }

  /** `s.replace(/<[^>]+>/g, ' ')`. */
  function TagsToSpaces(s: string): (r: string)
    ensures |r| <= |s|
    decreases |s|
  {
    if s == [] then []
    else
      match TagEnd(s)
      case Some(e) => " " + TagsToSpaces(s[e..])
      case None => [s[0]] + TagsToSpaces(s[1..])
  }

  /** A text with no `<` has no tag to replace. */
  lemma {:induction false} TagsToSpacesPlain(s: string)
    requires '<' !in s
    ensures TagsToSpaces(s) == s
    decreases |s|
  {
    if s != [] {
      assert s[0] in s;
      assert forall c :: c in s[1..] ==> c in s;
      TagsToSpacesPlain(s[1..]);
    }
  }

  // ---------------------------------------------------------------------
  // White space
  // ---------------------------------------------------------------------

  /** Every white-space character is a plain space and no two spaces touch. */
  predicate SingleSpaced(s: string) {
    (forall i :: 0 <= i < |s| ==> IsSpace(s[i]) ==> s[i] == ' ')
    && (forall i :: 0 <= i < |s| - 1 ==> !(s[i] == ' ' && s[i + 1] == ' '))
  }

  /** What the conversion produces: single-spaced, nothing at either end. */
  predicate Normalized(s: string) {
    SingleSpaced(s) && (s == [] || (!IsSpace(s[0]) && !IsSpace(s[|s| - 1])))
  }

  /** `s.replace(/\s+/g, ' ')`. */
  function Collapse(s: string): (r: string)
    ensures SingleSpaced(r)
    ensures (r == []) == (s == [])
    ensures s != [] ==> (IsSpace(s[0]) <==> r[0] == ' ')
    decreases |s|
  {
    if s == [] then []
    else if IsSpace(s[0]) then
      var t := TrimStart(s);
      assert t == TrimStart(s[1..]);
      var r := " " + Collapse(t);
      assert r[1..] == Collapse(t);
      r
    else
      var r := [s[0]] + Collapse(s[1..]);
      assert r[1..] == Collapse(s[1..]);
      r
  }

  /** Collapsing leaves an already single-spaced text as it is. */
  lemma {:induction false} CollapseSingleSpaced(s: string)
    requires SingleSpaced(s)
    ensures Collapse(s) == s
    decreases |s|
  {
    if s != [] {
      assert SingleSpaced(s[1..]);
      if IsSpace(s[0]) {
        assert TrimStart(s) == TrimStart(s[1..]);
        assert s[1..] == [] || !IsSpace(s[1]);
        assert TrimStart(s[1..]) == s[1..];
      }
      CollapseSingleSpaced(s[1..]);
    }
  }

  /** Trimming keeps a text single-spaced. */
  lemma TrimSingleSpaced(s: string)
    requires SingleSpaced(s)
    ensures Normalized(Trim(s))
  {
    var r := Trim(s);
    var k: nat :| k <= |s| && IsSliceAt(r, s, k);
    SliceSingleSpaced(r, s, k);
  }

  /** A contiguous part of a single-spaced text is single-spaced. */
  lemma SliceSingleSpaced(r: string, s: string, k: nat)
    requires SingleSpaced(s) && IsSliceAt(r, s, k)
    ensures SingleSpaced(r)
  {
    forall i | 0 <= i < |r| ensures IsSpace(r[i]) ==> r[i] == ' ' {
      assert r[i] == s[k + i];
    }
    forall i | 0 <= i < |r| - 1 ensures !(r[i] == ' ' && r[i + 1] == ' ') {
      assert r[i] == s[k + i] && r[i + 1] == s[k + i + 1];
    }
  }

  // ---------------------------------------------------------------------
  // The whole conversion
  // ---------------------------------------------------------------------

  /** The basic HTML-to-text conversion. */
  function HtmlToText(html: string): (r: string)
    ensures Normalized(r)
    ensures |r| <= |html|
  {
    var noScript := RemoveBlocks(html, "<script", "</script>");
    var noStyle := RemoveBlocks(noScript, "<style", "</style>");
    var spaced := TagsToSpaces(noStyle);
    var collapsed := Collapse(spaced);
    TrimSingleSpaced(collapsed);
    var r := Trim(collapsed);
    assert |collapsed| <= |spaced| by { CollapseShrinks(spaced); }
    r
  }

  /** Collapsing never lengthens a text. */
  lemma {:induction false} CollapseShrinks(s: string)
    ensures |Collapse(s)| <= |s|
    decreases |s|
  {
    if s != [] {
      if IsSpace(s[0]) {
        var t := TrimStart(s);
        assert t == TrimStart(s[1..]);
        CollapseShrinks(t);
      } else {
        CollapseShrinks(s[1..]);
      }
    }
  }

  /** Text that is already clean and holds no markup comes back unchanged. */
  lemma HtmlToTextPlain(t: string)
    requires '<' !in t && Normalized(t)
    ensures HtmlToText(t) == t
  {
    RemoveBlocksPlain(t, "<script", "</script>");
    RemoveBlocksPlain(t, "<style", "</style>");
    TagsToSpacesPlain(t);
    CollapseSingleSpaced(t);
    TrimIdentity(t);
  }

  // ---------------------------------------------------------------------
  // The length limit of the serverless fetcher
  // ---------------------------------------------------------------------

  const MaxArticleChars: nat := 10000

  /** Texts over 10000 characters keep their first 10000 and gain "...". */
  function Truncate(t: string): (r: string)
    ensures |t| <= MaxArticleChars ==> r == t
    ensures |t| > MaxArticleChars ==>
      |r| == MaxArticleChars + 3 && r[..MaxArticleChars] == t[..MaxArticleChars]
      && r[MaxArticleChars..] == "..."
    ensures |r| <= MaxArticleChars + 3
  {
    if |t| > MaxArticleChars then t[..MaxArticleChars] + "..." else t
  }

  /** Cutting a cut text changes nothing: the mark has already been added. */
  lemma TruncateIdempotent(t: string)
    ensures Truncate(Truncate(t)) == Truncate(t)
  {
    var r := Truncate(t);
    if |t| > MaxArticleChars {
      assert r == r[..MaxArticleChars] + r[MaxArticleChars..];
    }
  }

  /** A text that already ends in the mark at the exact cut length is left
      alone, so a cut text cannot always be told from an uncut one. */
  lemma TruncateMayKeepLongText()
    ensures exists t: string :: |t| > MaxArticleChars && Truncate(t) == t
  {
    var t := seq(MaxArticleChars, i => 'a') + "...";
    assert Truncate(t) == t[..MaxArticleChars] + "...";
    assert t[..MaxArticleChars] + "..." == t;
  }
}

=== FILE: http.dfy ===
/** HTTP as the handlers and fetchers see it: the outcome of `fetch`, the
    request method, and the status-plus-JSON replies the handlers send. */
module Http {
  import opened Wrappers
  import opened Json

  /** The outcome of `await fetch(url)`, which the model does not perform:
      a rejected promise (network failure, timeout) with its message, or a
      response with its status and body text. */
  datatype Fetched =
    | NetworkError(message: string)
    | Response(status: int, body: string)

  /** `fetch` itself, as a function of the URL requested. */
  type Fetcher = string -> Fetched

  /** `response.ok`. */
  predicate Ok(status: int) {
    200 <= status <= 299
  }

  datatype Method = Options | Post | Get | Delete | OtherMethod(name: string)

  /** A handler's reply: `res.status(s).end()` has no body,
      `res.status(s).json(v)` has the JSON body `v`. */
  datatype Reply = Reply(status: int, body: Option<JsonValue>)

  /** `{ success: false, error: message }`. */
  function ErrorBody(message: string): JsonValue {
    JObj(map["success" := JBool(false), "error" := JStr(message)])
  }

  function Fail(status: int, message: string): (r: Reply)
    ensures CapsuleOf(r).None?
  {
    Reply(status, Some(ErrorBody(message)))
  }

  /** The `error` text of a failure reply, if it has one. */
  function ErrorOf(r: Reply): Option<string> {
    if r.body.Some? && r.body.value.JObj? && "error" in r.body.value.fields
       && r.body.value.fields["error"].JStr?
    then Some(r.body.value.fields["error"].s)
    else None
  }

  /** `error.message || fallback`: an empty message is replaced. */
  function MessageOr(message: string, fallback: string): (r: string)
    ensures message != [] ==> r == message
    ensures message == [] ==> r == fallback
  {
    if message != [] then message else fallback
  }

  /** `{ success: true, ...fields }`. */
  function SuccessBody(fields: FieldMap): JsonValue {
    JObj(fields["success" := JBool(true)])
  }

  /** `{ success: true, capsule }`, the answer of every handler that built a
      capsule. */
  function CapsuleReply(c: FieldMap): (r: Reply)
    ensures CapsuleOf(r) == Some(c)
  {
    Reply(200, Some(SuccessBody(map["capsule" := JObj(c)])))
  }

  /** The capsule a reply carries, if any. */
  function CapsuleOf(r: Reply): Option<FieldMap> {
    if r.body.Some? && r.body.value.JObj? && "capsule" in r.body.value.fields
       && r.body.value.fields["capsule"].JObj?
    then Some(r.body.value.fields["capsule"].fields)
    else None
  }

  /** Reading the capsule back from the reply that carries it gives it back. */
  lemma CapsuleReplyCarries(c: FieldMap)
    ensures CapsuleOf(CapsuleReply(c)) == Some(c)
    ensures ErrorOf(CapsuleReply(c)) == None
  {
  }

  const MethodNotAllowed: string := "Method not allowed"

  /** The opening of every serverless POST handler: the CORS preflight gets
      an empty 200, any other method but POST a 405; `None` lets the request
      through. */
  function PostGate(m: Method): (r: Option<Reply>)
    ensures r.None? <==> m == Post
    ensures m == Options ==> r == Some(Reply(200, None))
    ensures m != Options && m != Post ==> r == Some(Fail(405, MethodNotAllowed))
  {
    if m == Options then Some(Reply(200, None))
    else if m != Post then Some(Fail(405, MethodNotAllowed))
    else None
  }
}

=== FILE: json.dfy ===
/** JSON values as JavaScript sees them after `JSON.parse`, together with the
    JavaScript operations the modelled code applies to them: truthiness,
    `a || b`, property reads, optional chaining, template-literal rendering
    and object spread. Numbers are integers in this model. */
module Json {
  import opened Wrappers
  import opened Strings

  datatype JsonValue =
    | JNull
    | JBool(b: bool)
    | JNum(n: int)
    | JStr(s: string)
    | JArr(items: seq<JsonValue>)
    | JObj(fields: map<string, JsonValue>)

  /** The own enumerable properties of a JavaScript object. */
  type FieldMap = map<string, JsonValue>

  /** `JSON.parse`, which the model does not define: a `Failure` carries the
      message of the `SyntaxError` it throws. */
  type Parser = string -> Result<JsonValue, string>

  /** JavaScript truthiness; `None` is `undefined`. */
  predicate Truthy(v: Option<JsonValue>) {
    match v
    case None => false
    case Some(JNull) => false
    case Some(JBool(b)) => b
    case Some(JNum(n)) => n != 0
    case Some(JStr(s)) => s != []
    case Some(_) => true
  }

  /** `v || d`. */
  function OrElse(v: Option<JsonValue>, d: JsonValue): JsonValue {
    if Truthy(v) then v.value else d
  }

  /** `v.k` on a value that is neither `null` nor `undefined`: only objects
      have the properties the modelled code reads. */
  function Prop(v: JsonValue, k: string): Option<JsonValue> {
    if v.JObj? && k in v.fields then Some(v.fields[k]) else None
  }

  /** `o?.k`. */
  function OptProp(o: Option<JsonValue>, k: string): Option<JsonValue> {
    match o
    case None => None
    case Some(JNull) => None
    case Some(v) => Prop(v, k)
  }

  /** The message V8 gives the `TypeError` thrown by reading `k` of `null`. */
  function NullReadMessage(k: string): string {
    "Cannot read properties of null (reading '" + k + "')"
  }

  /** `String(v)`, as used by template literals. */
  function Display(v: Option<JsonValue>): string {
    match v
    case None => "undefined"
    case Some(x) => DisplayValue(x)
  }

  function DisplayValue(x: JsonValue): string
    decreases x
  {
    match x
    case JNull => "null"
    case JBool(b) => if b then "true" else "false"
    case JNum(n) => IntToString(n)
    case JStr(s) => s
    case JArr(items) =>
      // Array.prototype.toString joins with "," and renders null as ""
      Join(seq(|items|, i requires 0 <= i < |items| =>
        if items[i] == JNull then "" else DisplayValue(items[i])), ",")
    case JObj(_) => "[object Object]"
  }

  /** Index-keyed properties "0", "1", ... of an array or a string. */
  function Indexed(xs: seq<JsonValue>): FieldMap
    decreases |xs|
  {
    if xs == [] then map[]
    else Indexed(xs[..|xs| - 1])[NatToString(|xs| - 1) := xs[|xs| - 1]]
  }

  /** The properties `{...v}` copies from a parsed value: an object's own
      fields, the indices of an array or a string, nothing for the rest. */
  function Spread(v: JsonValue): FieldMap {
    match v
    case JObj(m) => m
    case JArr(items) => Indexed(items)
    case JStr(s) => Indexed(seq(|s|, i requires 0 <= i < |s| => JStr([s[i]])))
    case _ => map[]
  }
}

=== FILE: lists.dfy ===
/** The two list idioms the client code repeats: `filter` with a test, and
    the toggle `xs.includes(x) ? xs.filter(y => y !== x) : [...xs, x]`. */
module Lists {

  /** `xs.filter(p)`. */
  function Filter<T(!new)>(xs: seq<T>, p: T -> bool): (r: seq<T>)
    ensures forall x :: x in r <==> x in xs && p(x)
    ensures |r| <= |xs|
    decreases |xs|
  {
    if xs == [] then []
    else if p(xs[0]) then [xs[0]] + Filter(xs[1..], p)
    else Filter(xs[1..], p)
  }

  /** Filtering works piece by piece, so the kept elements stay in their
      order. */
  lemma {:induction false} FilterConcat<T(!new)>(a: seq<T>, b: seq<T>, p: T -> bool)
    ensures Filter(a + b, p) == Filter(a, p) + Filter(b, p)
    decreases |a|
  {
    if a == [] {
      assert a + b == b;
    } else {
      assert (a + b)[1..] == a[1..] + b;
      FilterConcat(a[1..], b, p);
    }
  }

  /** A filter every element passes keeps the list as it is. */
  lemma {:induction false} FilterAll<T(!new)>(xs: seq<T>, p: T -> bool)
    requires forall i :: 0 <= i < |xs| ==> p(xs[i])
    ensures Filter(xs, p) == xs
    decreases |xs|
  {
    if xs != [] {
      FilterAll(xs[1..], p);
    }
  }

  /** Two tests that agree on every element keep the same elements. */
  lemma {:induction false} FilterSame<T(!new)>(xs: seq<T>, p: T -> bool, q: T -> bool)
    requires forall i :: 0 <= i < |xs| ==> p(xs[i]) == q(xs[i])
    ensures Filter(xs, p) == Filter(xs, q)
    decreases |xs|
  {
    if xs != [] {
      FilterSame(xs[1..], p, q);
    }
  }

  /** Each value is kept as many times as it occurs, or not at all. */
  lemma {:induction false} FilterCounts<T(!new)>(xs: seq<T>, p: T -> bool, y: T)
    ensures multiset(Filter(xs, p))[y] == if p(y) then multiset(xs)[y] else 0
    decreases |xs|
  {
    if xs != [] {
      FilterCounts(xs[1..], p, y);
      assert xs == [xs[0]] + xs[1..];
    }
  }

  /** `xs.filter(y => y !== x)`. */
  function Remove<T(==,!new)>(xs: seq<T>, x: T): (r: seq<T>)
    ensures x !in r
    ensures forall y :: y != x ==> (y in r <==> y in xs)
  {
    Filter(xs, y => y != x)
  }

  /** Removing works element by element from the front. */
  lemma RemoveCons<T(!new)>(y: T, xs: seq<T>, x: T)
    ensures Remove([], x) == []
    ensures Remove([y] + xs, x) == (if y == x then [] else [y]) + Remove(xs, x)
  {
    assert ([y] + xs)[1..] == xs;
  }

  /** No value occurs twice. */
  predicate NoDuplicates<T(==)>(xs: seq<T>) {
    forall i, j :: 0 <= i < j < |xs| ==> xs[i] != xs[j]
  }

  /** Remove every `x` if there is one, otherwise append `x`. */
  function Toggle<T(==,!new)>(xs: seq<T>, x: T): (r: seq<T>)
    ensures x in r <==> x !in xs
    ensures forall y :: y != x ==> (y in r <==> y in xs)
    ensures x !in xs ==> r == xs + [x]
  {
    if x in xs then Remove(xs, x) else xs + [x]
  }

  /** Toggling a value that was not there twice gives back the list. */
  lemma ToggleTwiceAbsent<T(!new)>(xs: seq<T>, x: T)
    requires x !in xs
    ensures Toggle(Toggle(xs, x), x) == xs
  {
    var p := (y: T) => y != x;
    FilterConcat(xs, [x], p);
    FilterAll(xs, p);
    assert Filter([x], p) == [];
  }

  /** In a list without repeats a value occurs once or not at all. */
  lemma OccursOnce<T>(xs: seq<T>, x: T)
    requires NoDuplicates(xs)
    ensures multiset(xs)[x] == if x in xs then 1 else 0
  {
    if x in xs {
      var i :| 0 <= i < |xs| && xs[i] == x;
      assert xs == xs[..i] + [x] + xs[i + 1..];
      assert x !in xs[..i];
      assert x !in xs[i + 1..];
    }
  }

  /** Filtering out one value shortens the list by its number of
      occurrences. */
  lemma {:induction false} RemoveCount<T(!new)>(xs: seq<T>, x: T)
    ensures |Remove(xs, x)| == |xs| - multiset(xs)[x]
    decreases |xs|
  {
    if xs != [] {
      RemoveCount(xs[1..], x);
      assert xs == [xs[0]] + xs[1..];
    }
  }

  /** A filter keeps a list free of repeats. */
  lemma {:induction false} FilterDistinct<T(!new)>(xs: seq<T>, p: T -> bool)
    requires NoDuplicates(xs)
    ensures NoDuplicates(Filter(xs, p))
    decreases |xs|
  {
    if xs != [] {
      var rest := Filter(xs[1..], p);
      FilterDistinct(xs[1..], p);
      if p(xs[0]) {
        assert xs[0] !in xs[1..];
        assert xs[0] !in rest;
        var r := [xs[0]] + rest;
        forall i, j | 0 <= i < j < |r| ensures r[i] != r[j] {
          if i == 0 {
            assert r[j] == rest[j - 1] && r[j] in rest;
          } else {
            assert r[i] == rest[i - 1] && r[j] == rest[j - 1];
          }
        }
      }
    }
  }

  /** Removing a value keeps a list free of repeats. */
  lemma RemoveDistinct<T(!new)>(xs: seq<T>, x: T)
    requires NoDuplicates(xs)
    ensures NoDuplicates(Remove(xs, x))
  {
    FilterDistinct(xs, y => y != x);
  }

  /** On a list without repeats a toggle removes or adds exactly one
      element and keeps the list free of repeats. */
  lemma ToggleCount<T(!new)>(xs: seq<T>, x: T)
    requires NoDuplicates(xs)
    ensures |Toggle(xs, x)| == if x in xs then |xs| - 1 else |xs| + 1
    ensures NoDuplicates(Toggle(xs, x))
  {
    if x in xs {
      RemoveCount(xs, x);
      OccursOnce(xs, x);
      RemoveDistinct(xs, x);
    } else {
      var r := xs + [x];
      forall i, j | 0 <= i < j < |r| ensures r[i] != r[j] {
        if j == |xs| {
          assert r[i] == xs[i];
        } else {
          assert r[i] == xs[i] && r[j] == xs[j];
        }
      }
    }
  }

  /** Toggling a value that was there twice keeps the same values, each as
      often as before, when no value was repeated. */
  lemma ToggleTwiceSameValues<T(!new)>(xs: seq<T>, x: T)
    requires NoDuplicates(xs) && x in xs
    ensures multiset(Toggle(Toggle(xs, x), x)) == multiset(xs)
  {
    var p := (y: T) => y != x;
    var once := Filter(xs, p);
    assert Toggle(Toggle(xs, x), x) == once + [x];
    forall y ensures multiset(once + [x])[y] == multiset(xs)[y] {
      FilterCounts(xs, p, y);
      if y == x {
        OccursOnce(xs, x);
      }
    }
  }

  /** ... but not always in the same order: toggling the first of two
      values twice moves it to the end. */
  lemma ToggleTwiceReorders()
    ensures Toggle(Toggle([0, 1], 0), 0) == [1, 0]
  {
    var p := (y: int) => y != 0;
    assert Filter([0, 1], p) == Filter([1], p);
    assert Filter([1], p) == [1] + Filter([], p);
  }
}

=== FILE: login.dfy ===
/** The serverless login handler: the password gates and the session
    token it issues for seven days. */
module Login {
  import opened Wrappers
  import opened Strings
  import opened Json
  import opened Http
  import opened Session

  const PasswordRequired: string := "Password is required"
  const AuthNotConfigured: string := "Auth not configured"
  const InvalidPassword: string := "Invalid password"

  /** Seven days in milliseconds. */
  const SessionMillis: int := 7 * 24 * 60 * 60 * 1000

  /** The token of a successful login, if the reply holds one. */
  function TokenOf(r: Reply): Option<string> {
    if r.body.Some? && r.body.value.JObj? && "token" in r.body.value.fields
       && r.body.value.fields["token"].JStr?
    then Some(r.body.value.fields["token"].s)
    else None
  }

  /** The handler. `configured` is `AUTH_PASSWORD`, `now` the clock in
      milliseconds and `random` the hex text of the 32 random bytes. */
  function Handle(m: Method, password: Option<string>, configured: Option<string>, now: int,
                  random: string, encode: Codec, sign: Signer): (r: Reply)
    ensures m == Options ==> r == Reply(200, None)
    ensures m != Options && m != Post ==> r == Fail(405, MethodNotAllowed)
    ensures m == Post && Falsy(password) ==> r == Fail(400, PasswordRequired)
    ensures m == Post && !Falsy(password) && Falsy(configured) ==> r == Fail(500, AuthNotConfigured)
    ensures m == Post && !Falsy(password) && !Falsy(configured) && password != configured ==>
      r == Fail(401, InvalidPassword)
    ensures TokenOf(r).Some? <==> m == Post && !Falsy(password) && password == configured
    ensures TokenOf(r).Some? ==>
      r.status == 200
      && TokenOf(r).value == Issue(password.value, random, now + SessionMillis, encode, sign)
      && "expiresAt" in r.body.value.fields && r.body.value.fields["expiresAt"] == JNum(now + SessionMillis)
      && "success" in r.body.value.fields && r.body.value.fields["success"] == JBool(true)
  {
    match PostGate(m)
    case Some(early) => early
    case None =>
      if Falsy(password) then Fail(400, PasswordRequired)
      else if Falsy(configured) then Fail(500, AuthNotConfigured)
      else if password != configured then Fail(401, InvalidPassword)
      else
        var expiry := now + SessionMillis;
        Reply(200, Some(SuccessBody(map["token" := JStr(Issue(configured.value, random, expiry, encode, sign)),
                                        "expiresAt" := JNum(expiry)])))
  }

  /** A token from a successful login opens the file handler for seven days
      and not a millisecond longer. */
  lemma LoginThenUpload(password: string, now: int, later: int, random: string,
                        encode: Codec, decode: Codec, sign: Signer, parse: Parser)
    requires password != [] && HexSigner(sign)
    requires var r := Handle(Post, Some(password), Some(password), now, random, encode, sign);
      TokenOf(r).value != []
    requires var data := TokenData(random, now + SessionMillis);
      Faithful(data, Frame(data, sign(password, data)), random, now + SessionMillis, encode, decode, parse)
    ensures var token := TokenOf(Handle(Post, Some(password), Some(password), now, random, encode, sign));
      token.Some?
      && (VerifyLastColon(token, Some(password), later, decode, sign, parse) <==> later <= now + SessionMillis)
  {
    IssuedTokenVerifiesAtLastColon(password, random, now + SessionMillis, later, encode, decode, sign, parse);
  }

  /** The same token is never accepted by the verify handler's check. */
  lemma LoginThenVerify(password: string, now: int, later: int, random: string,
                        encode: Codec, decode: Codec, sign: Signer, parse: Parser)
    requires HexSigner(sign)
    requires var data := TokenData(random, now + SessionMillis);
      decode(encode(Frame(data, sign(password, data)))) == Frame(data, sign(password, data))
    ensures var token := TokenOf(Handle(Post, Some(password), Some(password), now, random, encode, sign));
      token.Some? ==> !VerifyFirstColon(token, Some(password), later, decode, sign, parse)
  {
    IssuedTokenFailsAtFirstColon(password, random, now + SessionMillis, later, encode, decode, sign, parse);
  }
}

=== FILE: media.dfy ===
/** The media classification of the serverless file handler: the table of
    MIME types the model accepts, grouped by category, and the lookup that
    walks it in order. */
module Media {
  import opened Wrappers
  import opened Strings

  datatype MediaType = Image | Audio | Video | Document {
    /** The `sourceType` string stored in the capsule. */
    function Name(): string {
      match this
      case Image => "image"
      case Audio => "audio"
      case Video => "video"
      case Document => "document"
    }
  }

  /** `SUPPORTED_TYPES`, in the order `Object.entries` yields it. */
  const SupportedTypes: seq<(MediaType, seq<string>)> := [
    (Image, ["image/png", "image/jpeg", "image/webp", "image/heic", "image/heif"]),
    (Audio, ["audio/aac", "audio/flac", "audio/mp3", "audio/m4a", "audio/mpeg", "audio/mpga",
             "audio/mp4", "audio/ogg", "audio/wav", "audio/webm"]),
    (Video, ["video/mp4", "video/webm", "video/quicktime", "video/mpeg", "video/x-flv",
             "video/wmv", "video/3gpp"]),
    (Document, ["application/pdf", "text/plain"])
  ]

  /** The test of one listed type: the input starts with the part before its
      first '/', or equals it. */
  predicate MatchesListed(mimeType: string, m: string) {
    Split(m, '/')[0] <= mimeType || mimeType == m
  }

  /** `mimes.some(...)`. */
  predicate MatchesAny(mimeType: string, mimes: seq<string>) {
    exists j :: 0 <= j < |mimes| && MatchesListed(mimeType, mimes[j])
  }

  /** The `for ... of` over the table, from entry `i` on. */
  function Lookup(mimeType: string, table: seq<(MediaType, seq<string>)>): (r: Option<MediaType>)
    ensures r.Some? ==> exists i :: (0 <= i < |table| && table[i].0 == r.value
      && MatchesAny(mimeType, table[i].1)
      && forall j :: 0 <= j < i ==> !MatchesAny(mimeType, table[j].1))
    ensures r.None? <==> forall i :: 0 <= i < |table| ==> !MatchesAny(mimeType, table[i].1)
    decreases |table|
  {
    if table == [] then None
    else if MatchesAny(mimeType, table[0].1) then Some(table[0].0)
    else
      var r := Lookup(mimeType, table[1..]);
      if r.Some? then
        var i :| 0 <= i < |table[1..]| && table[1..][i].0 == r.value
          && MatchesAny(mimeType, table[1..][i].1)
          && forall j :: 0 <= j < i ==> !MatchesAny(mimeType, table[1..][j].1);
        assert table[i + 1] == table[1..][i];
        assert forall j :: 1 <= j < i + 1 ==> table[j] == table[1..][j - 1];
        r
      else
        assert forall i :: 1 <= i < |table| ==> table[i] == table[1..][i - 1];
        r
  }

  /** `getMediaType`: the first category, in table order, with a listed type
      the input matches, and `null` exactly when no category has one. */
  function GetMediaType(mimeType: string): (r: Option<MediaType>)
    ensures r.None? <==> forall i :: 0 <= i < |SupportedTypes| ==> !MatchesAny(mimeType, SupportedTypes[i].1)
    ensures r.Some? ==> exists i :: (0 <= i < |SupportedTypes| && SupportedTypes[i].0 == r.value
      && MatchesAny(mimeType, SupportedTypes[i].1)
      && forall j :: 0 <= j < i ==> !MatchesAny(mimeType, SupportedTypes[j].1))
  {
    Lookup(mimeType, SupportedTypes)
  }

  /** The lookup in plain words: the category is decided by the first word of
      the input alone, and exact matches add nothing. */
  function MediaTypeByPrefix(mimeType: string): Option<MediaType> {
    if "image" <= mimeType then Some(Image)
    else if "audio" <= mimeType then Some(Audio)
    else if "video" <= mimeType then Some(Video)
    else if "application" <= mimeType || "text" <= mimeType then Some(Document)
    else None
  }

  /** The part before the first '/' of a listed type is its leading word. */
  lemma SplitAtSlash(w: string, rest: string)
    requires '/' !in w
    ensures Split(w + "/" + rest, '/')[0] == w
  {
    var s := w + "/" + rest;
    assert s[|w|] == '/';
    assert s[..|w|] == w;
    assert '/' !in s[..|w|];
  }

  /** A category matches exactly when the input starts with its word(s). */
  lemma CategoryMatches(mimeType: string, word: string, mimes: seq<string>)
    requires '/' !in word && |mimes| > 0
    requires forall j :: 0 <= j < |mimes| ==> word + "/" <= mimes[j]
    ensures MatchesAny(mimeType, mimes) <==> word <= mimeType
  {
    forall j | 0 <= j < |mimes|
      ensures Split(mimes[j], '/')[0] == word
    {
      var rest := mimes[j][|word| + 1..];
      assert mimes[j] == word + "/" + rest;
      SplitAtSlash(word, rest);
    }
    if word <= mimeType {
      assert MatchesListed(mimeType, mimes[0]);
    }
    if MatchesAny(mimeType, mimes) {
      var j :| 0 <= j < |mimes| && MatchesListed(mimeType, mimes[j]);
      if mimeType == mimes[j] {
        assert word <= mimes[j];
      }
    }
  }

  lemma ImageMatches(mimeType: string)
    ensures MatchesAny(mimeType, SupportedTypes[0].1) <==> "image" <= mimeType
  {
    CategoryMatches(mimeType, "image", SupportedTypes[0].1);
  }

  lemma AudioMatches(mimeType: string)
    ensures MatchesAny(mimeType, SupportedTypes[1].1) <==> "audio" <= mimeType
  {
    CategoryMatches(mimeType, "audio", SupportedTypes[1].1);
  }

  lemma VideoMatches(mimeType: string)
    ensures MatchesAny(mimeType, SupportedTypes[2].1) <==> "video" <= mimeType
  {
    CategoryMatches(mimeType, "video", SupportedTypes[2].1);
  }

  /** A listed type matches exactly the inputs that start with its leading
      word. */
  lemma ListedMatchesWord(mimeType: string, w: string, rest: string)
    requires '/' !in w
    ensures MatchesListed(mimeType, w + "/" + rest) <==> w <= mimeType
  {
    SplitAtSlash(w, rest);
    if mimeType == w + "/" + rest {
      assert mimeType[..|w|] == w;
    }
  }

  /** The document category lists two types with different leading words. */
  lemma PairMatches(mimeType: string, a: string, x: string, b: string, y: string)
    requires '/' !in a && '/' !in b
    ensures MatchesAny(mimeType, [a + "/" + x, b + "/" + y]) <==> (a <= mimeType || b <= mimeType)
  {
    var mimes := [a + "/" + x, b + "/" + y];
    ListedMatchesWord(mimeType, a, x);
    ListedMatchesWord(mimeType, b, y);
    assert MatchesAny(mimeType, mimes) <==> MatchesListed(mimeType, mimes[0]) || MatchesListed(mimeType, mimes[1]);
  }

  lemma DocumentMatches(mimeType: string)
    ensures MatchesAny(mimeType, SupportedTypes[3].1) <==> ("application" <= mimeType || "text" <= mimeType)
  {
    assert "application/pdf" == "application" + "/" + "pdf";
    assert "text/plain" == "text" + "/" + "plain";
    assert SupportedTypes[3].1 == ["application" + "/" + "pdf", "text" + "/" + "plain"];
    PairMatches(mimeType, "application", "pdf", "text", "plain");
  }

  /** `getMediaType` agrees with the plain-words reading on every input. */
  lemma GetMediaTypeByPrefix(mimeType: string)
    ensures GetMediaType(mimeType) == MediaTypeByPrefix(mimeType)
  {
    var t := SupportedTypes;
    ImageMatches(mimeType);
    AudioMatches(mimeType);
    VideoMatches(mimeType);
    DocumentMatches(mimeType);
    assert t[1..][1..][1..][1..] == [];
  }
}

=== FILE: model_reply.dfy ===
/** The generative model as the handlers see it, and the clean-up every
    handler applies to its reply before `JSON.parse`: remove every
    "```json" fence and every "```" fence, each with one newline that may
    follow it, then trim. */
module ModelReply {
  import opened Wrappers
  import opened Strings
  import opened Json

  /** One part of a `generateContent` request. */
  datatype Part =
    | TextPart(text: string)
    | InlineData(mimeType: string, data: string)
    | FileData(mimeType: string, fileUri: string)

  /** The model call, which the model does not define: the reply text, or
      the message of the error it throws. */
  type Model = seq<Part> -> Result<string, string>

  /** The model as a handler holds it: `None` when no API key was
      configured, and the instructions every prompt starts with. These are
      `Prompts.ServerSystemPrompt` on the Express server,
      `Prompts.ServerlessSystemPrompt` in the serverless text and URL
      handlers and `Prompts.FileSystemInstruction` in the serverless file
      handler. */
  datatype Gemini = Gemini(model: Option<Model>, instructions: string)

  const JsonFence: string := "```json"
  const Fence: string := "```"

  /** `s.replace(/<tok>\n?/g, '')` for a token without metacharacters. */
  function StripToken(s: string, tok: string): (r: string)
    requires tok != []
    ensures |r| <= |s|
    decreases |s|
  {
    if s == [] then []
    else if tok <= s then
      var rest := s[|tok|..];
      if rest != [] && rest[0] == '\n' then StripToken(rest[1..], tok) else StripToken(rest, tok)
    else [s[0]] + StripToken(s[1..], tok)
  }

  /** Text that cannot hold the token passes through and leaves what follows
      it to be stripped on its own. */
  lemma {:induction false} StripTokenPlain(a: string, t: string, tok: string)
    requires tok != [] && tok[0] !in a
    ensures StripToken(a + t, tok) == a + StripToken(t, tok)
    decreases |a|
  {
    if a != [] {
      assert a[0] in a;
      assert (a + t)[0] == a[0];
      assert !(tok <= a + t);
      assert (a + t)[1..] == a[1..] + t;
      StripTokenPlain(a[1..], t, tok);
      assert a == [a[0]] + a[1..];
    } else {
      assert a + t == t;
    }
  }

  /** A text shorter than the token is left as it is. */
  lemma {:induction false} StripTokenShort(s: string, tok: string)
    requires tok != [] && |s| < |tok|
    ensures StripToken(s, tok) == s
    decreases |s|
  {
    if s != [] {
      StripTokenShort(s[1..], tok);
    }
  }

  /** The reply clean-up shared by every handler. */
  function CleanFences(text: string): (r: string)
    ensures |r| <= |text|
    ensures r == [] || (!IsSpace(r[0]) && !IsSpace(r[|r| - 1]))
  {
    var r := Trim(StripToken(StripToken(text, JsonFence), Fence));
    assert exists k: nat | k <= |StripToken(StripToken(text, JsonFence), Fence)| ::
      IsSliceAt(r, StripToken(StripToken(text, JsonFence), Fence), k);
    r
  }

  /** A body followed by one newline trims back to the body. */
  lemma TrimLineBreak(b: string)
    requires b == [] || (!IsSpace(b[0]) && !IsSpace(b[|b| - 1]))
    ensures Trim(b + "\n") == b
  {
    var s := b + "\n";
    assert TrimEnd(s) == TrimEnd(s[..|s| - 1]);
    assert s[..|s| - 1] == b;
    if b == [] {
      assert s == "\n";
      assert TrimStart(s) == TrimStart(s[1..]);
      assert s[1..] == [];
    } else {
      assert s[0] == b[0];
      assert TrimStart(s) == s;
    }
  }

  /** A reply wrapped in a "```json" Markdown block cleans to its body. */
  lemma CleanJsonBlock(b: string)
    requires '`' !in b
    requires b == [] || (!IsSpace(b[0]) && !IsSpace(b[|b| - 1]))
    ensures CleanFences("```json\n" + b + "\n```") == b
  {
    var body := b + "\n";
    assert '`' !in body;
    assert "```json\n" + b + "\n```" == JsonFence + ("\n" + (body + Fence));
    StripAtFront(JsonFence, "\n" + (body + Fence));
    assert ("\n" + (body + Fence))[1..] == body + Fence;
    StripBodyFenceJson(body);
    StripBodyFence(body);
    TrimLineBreak(b);
  }

  /** A reply wrapped in a bare "```" Markdown block cleans to its body. */
  lemma CleanPlainBlock(b: string)
    requires '`' !in b
    requires b == [] || (!IsSpace(b[0]) && !IsSpace(b[|b| - 1]))
    ensures CleanFences("```\n" + b + "\n```") == b
  {
    var body := b + "\n";
    assert '`' !in body;
    var mid := "\n" + body;
    assert '`' !in mid && mid[0] == '\n';
    assert "```\n" + b + "\n```" == Fence + mid + Fence;
    StripTokenPlainJsonTail(mid);
    assert Fence + mid + Fence == Fence + ("\n" + (body + Fence));
    StripAtFront(Fence, "\n" + (body + Fence));
    assert ("\n" + (body + Fence))[1..] == body + Fence;
    StripBodyFence(body);
    TrimLineBreak(b);
  }

  /** A token with no match at the front keeps the first character. */
  lemma StripSkip(s: string, tok: string)
    requires s != [] && tok != [] && !(tok <= s)
    ensures StripToken(s, tok) == [s[0]] + StripToken(s[1..], tok)
  {
  }

  /** A token at the front goes, with the line break after it. */
  lemma StripAtFront(tok: string, rest: string)
    requires tok != [] && rest != [] && rest[0] == '\n'
    ensures StripToken(tok + rest, tok) == StripToken(rest[1..], tok)
  {
    assert tok <= tok + rest;
    assert (tok + rest)[|tok|..] == rest;
  }

  /** A body without backticks followed by a bare fence loses the fence. */
  lemma StripBodyFence(body: string)
    requires '`' !in body
    ensures StripToken(body + Fence, Fence) == body
  {
    StripTokenPlain(body, Fence, Fence);
    assert Fence <= Fence && Fence[|Fence|..] == [];
  }

  /** The json-fence pass leaves such a body and its bare fence alone. */
  lemma StripBodyFenceJson(body: string)
    requires '`' !in body
    ensures StripToken(body + Fence, JsonFence) == body + Fence
  {
    StripTokenPlain(body, Fence, JsonFence);
    StripTokenShort(Fence, JsonFence);
  }

  /** The json-fence pass leaves a bare block untouched. */
  lemma StripTokenPlainJsonTail(mid: string)
    requires '`' !in mid && mid != [] && mid[0] == '\n'
    ensures StripToken(Fence + mid + Fence, JsonFence) == Fence + mid + Fence
  {
    var tail := mid + Fence;
    assert tail[0] == '\n';
    assert Fence + mid + Fence == Fence + tail;
    TicksThenBreak(2, tail);
    TicksThenBreak(1, tail);
    TicksThenBreak(0, tail);
    assert Fence[0..] == Fence;
    StripBodyFenceJson(mid);
  }

  /** Backticks from `Fence[k..]` up to a line break hold no "```json". */
  lemma {:induction false} TicksThenBreak(k: nat, tail: string)
    requires k < 3 && tail != [] && tail[0] == '\n'
    ensures StripToken(Fence[k..] + tail, JsonFence) == Fence[k..] + StripToken(tail, JsonFence)
    decreases 3 - k
  {
    var s := Fence[k..] + tail;
    assert s[3 - k] == '\n' && JsonFence[3 - k] != '\n';
    assert !(JsonFence <= s);
    StripSkip(s, JsonFence);
    assert s[1..] == Fence[k + 1..] + tail;
    if k < 2 {
      TicksThenBreak(k + 1, tail);
    } else {
      assert Fence[k + 1..] == [];
    }
    assert Fence[k..] == [Fence[k]] + Fence[k + 1..];
  }

  /** A reply without any backtick is only trimmed. */
  lemma CleanWithoutFences(text: string)
    requires '`' !in text
    ensures CleanFences(text) == Trim(text)
  {
    StripTokenPlain(text, [], JsonFence);
    StripTokenPlain(text, [], Fence);
    assert text + [] == text;
  }

  /** The model answers the prompt with a reply that does not parse after
      the clean-up. */
  predicate AnswersUnparsable(g: Gemini, parse: Parser, prompt: string) {
    g.model.Some?
    && var reply := g.model.value([TextPart(prompt)]);
    reply.Success? && parse(CleanFences(reply.value)).Failure?
  }

  /** `JSON.parse` of the cleaned reply; a failure carries the cleaned text,
      which is what the handlers log or return. */
  function ParseReply(text: string, parse: Parser): (r: Result<JsonValue, string>)
    ensures r.Failure? <==> parse(CleanFences(text)).Failure?
    ensures r.Success? ==> Success(r.value) == parse(CleanFences(text))
    ensures r.Failure? ==> r.error == CleanFences(text)
  {
    var cleaned := CleanFences(text);
    match parse(cleaned)
    case Failure(_) => Failure(cleaned)
    case Success(v) => Success(v)
  }
}

=== FILE: new_capsule.dfy ===
/** The page that creates a capsule (`NewCapsule`): three tabs (link, text,
    file), the file picker's size and preview gate, the icon of the picked
    file, the checks made before anything is sent, what the page shows for
    the answer, and the text it copies. */
module NewCapsule {
  import opened Wrappers
  import opened Strings
  import opened Json
  import opened Http
  import opened Browser
  import ClientStore
  import Media
  import Share
  import CapsuleView

  const MaxFileBytes: nat := 50 * 1024 * 1024
  const FileTooLarge: string := "El archivo no debe superar los 50MB"
  const FileMissing: string := "Selecciona un archivo para procesar"
  const UrlMissing: string := "Ingresa una URL para procesar"
  const ContentMissing: string := "Ingresa el contenido a procesar"
  const ProcessFailed: string := "Error al procesar el contenido"

  datatype Tab = LinkTab | TextTab | FileTab

  /** The picked file: its size in bytes and its MIME type. */
  datatype SelectedFile = SelectedFile(size: nat, mimeType: string)

  /** The form's state: the tab, the typed text, the picked file, whether a
      preview is shown, and the error shown above the tabs. */
  datatype Form = Form(tab: Tab, input: string, file: Option<SelectedFile>, preview: bool,
                       error: Option<string>)

  /** The form when the page opens. */
  const Initial: Form := Form(LinkTab, "", None, false, None)

  // ---------------------------------------------------------------------
  // Picking a file
  // ---------------------------------------------------------------------

  /** Image and video files get a preview. */
  predicate HasPreview(mimeType: string) {
    "image/" <= mimeType || "video/" <= mimeType
  }

  /** `handleFileSelect`: no file changes nothing; a file over 50 MB only
      sets the error, so an earlier pick stays selected; any other file is
      taken, the error is cleared and images and videos get a preview. */
  function SelectFile(f: Form, picked: Option<SelectedFile>): (r: Form)
    ensures r.tab == f.tab && r.input == f.input
    ensures r.file == f.file || (picked.Some? && r.file == picked && picked.value.size <= MaxFileBytes)
    ensures picked.Some? && picked.value.size > MaxFileBytes ==> r == f.(error := Some(FileTooLarge))
    ensures picked.Some? && picked.value.size <= MaxFileBytes ==>
      r.file == picked && r.error.None? && (r.preview <==> HasPreview(picked.value.mimeType))
  {
    match picked
    case None => f
    case Some(file) =>
      if file.size > MaxFileBytes then f.(error := Some(FileTooLarge))
      else f.(file := picked, error := None, preview := HasPreview(file.mimeType))
  }

  /** A file that is too large leaves the earlier pick in place while the
      error is shown. */
  lemma OversizeKeepsEarlierPick(f: Form, earlier: SelectedFile, big: SelectedFile)
    requires earlier.size <= MaxFileBytes && big.size > MaxFileBytes
    ensures var r := SelectFile(SelectFile(f, Some(earlier)), Some(big));
      r.file == Some(earlier) && r.error == Some(FileTooLarge)
  {
  }

  /** The icon shown for the picked file. */
  datatype FileIcon = ImageIcon | MusicIcon | VideoIcon | PdfIcon | TextIcon

  /** `getFileIcon`. */
  function IconOf(mimeType: string): (r: FileIcon)
    ensures r == ImageIcon <==> "image/" <= mimeType
    ensures r == PdfIcon ==> mimeType == "application/pdf"
    ensures r == TextIcon ==> !("image/" <= mimeType || "audio/" <= mimeType || "video/" <= mimeType)
  {
    if "image/" <= mimeType then ImageIcon
    else if "audio/" <= mimeType then MusicIcon
    else if "video/" <= mimeType then VideoIcon
    else if mimeType == "application/pdf" then PdfIcon
    else TextIcon
  }

  /** A prefix of a prefix is a prefix. */
  lemma PrefixOfPrefix(p: string, q: string, s: string)
    requires p <= q && q <= s
    ensures p <= s
  {
  }

  /** Prefixes that differ at some letter exclude each other. */
  lemma PrefixesExclude(p: string, q: string, s: string, k: nat)
    requires p <= s && k < |p| && k < |q| && p[k] != q[k]
    ensures !(q <= s)
  {
    assert s[k] == p[k];
  }

  /** Every icon but the plain-text one names the media type the file
      handler gives the file. */
  lemma IconAgreesWithMedia(mimeType: string)
    ensures IconOf(mimeType) == ImageIcon ==> Media.GetMediaType(mimeType) == Some(Media.Image)
    ensures IconOf(mimeType) == MusicIcon ==> Media.GetMediaType(mimeType) == Some(Media.Audio)
    ensures IconOf(mimeType) == VideoIcon ==> Media.GetMediaType(mimeType) == Some(Media.Video)
    ensures IconOf(mimeType) == PdfIcon ==> Media.GetMediaType(mimeType) == Some(Media.Document)
  {
    Media.GetMediaTypeByPrefix(mimeType);
    IconAgreesWithPrefix(mimeType);
  }

  /** The same, against the plain-words reading of the lookup. */
  lemma IconAgreesWithPrefix(mimeType: string)
    ensures IconOf(mimeType) == ImageIcon ==> Media.MediaTypeByPrefix(mimeType) == Some(Media.Image)
    ensures IconOf(mimeType) == MusicIcon ==> Media.MediaTypeByPrefix(mimeType) == Some(Media.Audio)
    ensures IconOf(mimeType) == VideoIcon ==> Media.MediaTypeByPrefix(mimeType) == Some(Media.Video)
    ensures IconOf(mimeType) == PdfIcon ==> Media.MediaTypeByPrefix(mimeType) == Some(Media.Document)
  {
    if "image/" <= mimeType {
      PrefixOfPrefix("image", "image/", mimeType);
    } else if "audio/" <= mimeType {
      PrefixOfPrefix("audio", "audio/", mimeType);
      PrefixesExclude("audio/", "image", mimeType, 0);
    } else if "video/" <= mimeType {
      PrefixOfPrefix("video", "video/", mimeType);
      PrefixesExclude("video/", "image", mimeType, 0);
      PrefixesExclude("video/", "audio", mimeType, 0);
    } else if mimeType == "application/pdf" {
      PrefixOfPrefix("application", "application/pdf", mimeType);
      PrefixesExclude("application/pdf", "image", mimeType, 0);
      PrefixesExclude("application/pdf", "audio", mimeType, 1);
      PrefixesExclude("application/pdf", "video", mimeType, 0);
    }
  }

  // ---------------------------------------------------------------------
  // Sending
  // ---------------------------------------------------------------------

  /** What `handleProcess` sends, once its checks pass. The text tab sends
      the tab's id, "text", as the source type and "Manual" as the source. */
  datatype Request =
    | FileRequest(file: SelectedFile)
    | UrlRequest(url: string)
    | TextRequest(content: string)

  /** The checks of `handleProcess`: the file tab needs a picked file, the
      other two a text that is not blank. The text is sent untrimmed. */
  function Submit(f: Form): (r: Result<Request, string>)
    ensures f.tab == FileTab ==> (r.Failure? <==> f.file.None?)
    ensures f.tab != FileTab ==> (r.Failure? <==> Trim(f.input) == [])
    ensures r.Failure? ==> r.error == (match f.tab
      case FileTab => FileMissing case LinkTab => UrlMissing case TextTab => ContentMissing)
    ensures r.Success? ==> match r.value
      case FileRequest(file) => f.tab == FileTab && f.file == Some(file)
      case UrlRequest(url) => f.tab == LinkTab && url == f.input && !Blank(Some(url))
      case TextRequest(content) => f.tab == TextTab && content == f.input && !Blank(Some(content))
  {
    match f.tab
    case FileTab => if f.file.None? then Failure(FileMissing) else Success(FileRequest(f.file.value))
    case LinkTab => if Trim(f.input) == [] then Failure(UrlMissing) else Success(UrlRequest(f.input))
    case TextTab => if Trim(f.input) == [] then Failure(ContentMissing) else Success(TextRequest(f.input))
  }

  /** Changing tab clears the text, the file and the error. */
  function SwitchTab(f: Form, t: Tab): (r: Form)
    ensures r.tab == t && r.input == [] && r.file.None? && !r.preview && r.error.None?
  {
    Form(t, [], None, false, None)
  }

  /** Right after a tab change nothing can be sent: the page asks for the
      input of the new tab. */
  lemma SwitchedFormRefused(f: Form, t: Tab)
    ensures Submit(SwitchTab(f, t)).Failure?
  {
    assert Trim([]) == [];
  }

  // ---------------------------------------------------------------------
  // The answer
  // ---------------------------------------------------------------------

  /** What the page shows after sending: the result card, or the error. */
  datatype Shown = ResultCard(capsule: JsonValue) | ErrorShown(message: string)

  /** `response.success && response.capsule` shows the capsule; otherwise
      `response.error || 'Error al procesar el contenido'`. */
  function ShowResponse(response: JsonValue): (r: Shown)
    ensures r.ResultCard? <==> Truthy(Prop(response, "success")) && Truthy(Prop(response, "capsule"))
    ensures r.ResultCard? ==> Prop(response, "capsule") == Some(r.capsule)
    ensures r.ErrorShown? && !Truthy(Prop(response, "error")) ==> r.message == ProcessFailed
    ensures r.ErrorShown? && Truthy(Prop(response, "error")) ==>
      r.message == DisplayValue(Prop(response, "error").value)
  {
    if Truthy(Prop(response, "success")) && Truthy(Prop(response, "capsule")) then
      ResultCard(Prop(response, "capsule").value)
    else
      ErrorShown(DisplayValue(OrElse(Prop(response, "error"), JStr(ProcessFailed))))
  }

  /** `handleProcess` as a whole. `postContent` and `postUrl` are the two
      requests of the capsule store; `processFile` stands for the file
      request, which is not part of this model. */
  function Process(f: Form, postContent: JsonValue -> Fetched, postUrl: JsonValue -> Fetched,
                   processFile: SelectedFile -> JsonValue, parse: Parser,
                   ls: Storage, codec: ClientStore.Codec): (r: (Shown, Storage))
    ensures Submit(f).Failure? ==> r == (ErrorShown(Submit(f).error), ls)
    ensures r.1 == ls || exists c :: r.1 == ClientStore.Add(ls, c, codec)
  {
    match Submit(f)
    case Failure(e) => (ErrorShown(e), ls)
    case Success(FileRequest(file)) => (ShowResponse(processFile(file)), ls)
    case Success(UrlRequest(url)) =>
      var (response, after) := ClientStore.ProcessUrl(url, postUrl, parse, ls, codec);
      (ShowResponse(response), after)
    case Success(TextRequest(content)) =>
      var (response, after) := ClientStore.ProcessContent(content, Some("text"), Some("Manual"),
                                                          postContent, parse, ls, codec);
      (ShowResponse(response), after)
  }

  /** The capsule the result card shows for a link or a text is the one put
      at the front of the store. */
  lemma ShownCapsuleIsStored(response: Fetched, parse: Parser, fallback: string, ls: Storage,
                             codec: ClientStore.Codec, c: map<string, JsonValue>)
    ensures var (body, after) := ClientStore.Outcome(response, parse, fallback, ls, codec);
      ShowResponse(body) == ResultCard(JObj(c)) ==> after == ClientStore.Add(ls, c, codec)
  {
  }

  // ---------------------------------------------------------------------
  // Copy
  // ---------------------------------------------------------------------

  /** `copyToClipboard`: the title, the summary and the numbered actions;
      the empty text when there is no result. */
  function CopyText(result: Option<CapsuleView.CapsuleData>): (r: string)
    ensures result.None? ==> r == []
    ensures result.Some? ==> result.value.title + "\n\n" + result.value.summary <= r
    ensures result.Some? ==> var n := Share.Numbered(result.value.actions);
      |n| <= |r| && r[|r| - |n|..] == n
  {
    match result
    case None => []
    case Some(c) => c.title + "\n\n" + c.summary + "\n\nAcciones:\n" + Share.Numbered(c.actions)
  }
}

=== FILE: prompts.dfy ===
/** The fixed instructions sent to the generative model, and the prompts
    the handlers build around the content. */
module Prompts {
  import opened Strings

  /** The instructions of the Express server. */
  const ServerSystemPrompt: string := @"Eres un Curador Cognitivo de Élite. Tu misión es transformar la sobrecarga de información en ""Cápsulas de Acción"" ultra-eficientes.

Tu objetivo principal es el VALOR POR TIEMPO. No resumas por resumir; identifica insights que cambien la forma de trabajar o pensar del usuario.

REGLAS PARA DIFERENTES CONTENIDOS:
- Si es un VIDEO o YOUTUBE: Gemini lo está ""viendo"". Enfócate en conceptos clave, marcas de tiempo teóricas si son evidentes, y conclusiones prácticas. Ignora la paja introductoria.
- Si es un ARTÍCULO: Extrae los argumentos centrales y las estadísticas más impactantes.
- Si es un DOCUMENTO/PDF: Identifica las acciones obligatorias o cambios de política.

ESTRUCTURA DE RESPUESTA (JSON):
{
  ""title"": ""Título con 'punch' y contexto (ej: 'Estrategias IA 2026: El Giro hacia Agentes')"",
  ""summary"": ""2-3 frases potentes. No empieces con 'Este artículo trata...'. Ve al grano."",
  ""actions"": [""Acción concreta (ej: 'Implementar RAG en el módulo de chat')"", ""Acción 2"", ""Acción 3""],
  ""priority"": ""high|medium|low"",
  ""sentiment"": ""positive|neutral|negative|urgent"",
  ""tags"": [""temática1"", ""temática2""],
  ""readTime"": <segundos para leer esta cápsula>,
  ""keyInsights"": [""Insight profundo 1"", ""Insight profundo 2""],
  ""clipboardReady"": [""Prompt, dirección o comando técnico para copiar/pegar""]
}

REGLAS ESPECÍFICAS:
- clipboardReady: DEBES extraer cualquier prompt, dirección física, comando técnico o código que el usuario pueda querer usar directamente. Es para copiar y pegar en otro sitio. Si no hay nada, devuelve [].

IMPORTANTE: Responde ÚNICAMENTE con el objeto JSON. Sin backticks, sin markdown labels, sin texto antes o después.
CLÁUSULA ANTIFANTASÍA: Basa tu respuesta EXCLUSIVAMENTE en el contenido enviado. Si el contenido es insuficiente o falta información clave, regístralo así. PROHIBIDO ALUCINAR O INVENTAR CONTEXTO NO EXPLÍCITO."

  /** The instructions shared by the serverless text and URL handlers. */
  const ServerlessSystemPrompt: string := @"Eres un asistente especializado en curación cognitiva. Tu tarea es analizar contenido y extraer información accionable.

Para cada contenido que recibas, debes generar una ""Cápsula de Acción"" con la siguiente estructura JSON:

{
  ""title"": ""Título conciso y descriptivo del contenido (max 100 caracteres)"",
  ""summary"": ""Resumen ejecutivo de 2-3 oraciones que capture la esencia del contenido"",
  ""actions"": [""Acción 1 específica y ejecutable"", ""Acción 2"", ""Acción 3""],
  ""priority"": ""high|medium|low"",
  ""sentiment"": ""positive|neutral|negative|urgent"",
  ""tags"": [""tag1"", ""tag2"", ""tag3""],
  ""readTime"": <número estimado de segundos para leer el resumen>
}

Criterios para prioridad:
- high: Requiere acción inmediata, deadline cercano, impacto alto
- medium: Importante pero no urgente
- low: Informativo, para referencia futura

Criterios para sentiment:
- positive: Oportunidades, buenas noticias, logros
- neutral: Información objetiva, datos
- negative: Problemas, riesgos, alertas
- urgent: Requiere atención inmediata

IMPORTANTE: Responde SOLO con el JSON válido, sin texto adicional ni markdown."

  /** The system instruction the serverless file handler configures. */
  const FileSystemInstruction: string := @"Eres un asistente experto en curación cognitiva. Analizas contenido multimedia (imágenes, audio, video, PDFs) y lo transformas en información accionable.

Para IMÁGENES: Describe qué ves, identifica texto (OCR), diagramas, datos visuales.
Para AUDIO: Transcribe y resume el contenido hablado, identifica speakers si es posible.
Para VIDEO: Analiza el contenido visual y de audio, identifica temas clave.
Para PDF: Extrae el contenido principal, tablas, datos importantes.

Genera una ""Cápsula de Acción"" en JSON:

{
  ""title"": ""Título descriptivo (max 80 caracteres)"",
  ""summary"": ""Resumen de 2-4 oraciones del contenido analizado"",
  ""actions"": [""Acción específica 1"", ""Acción específica 2"", ""Acción específica 3""],
  ""priority"": ""high|medium|low"",
  ""sentiment"": ""positive|neutral|negative|urgent"",
  ""tags"": [""tag1"", ""tag2"", ""tag3""],
  ""readTime"": 30,
  ""keyInsights"": [""Insight 1"", ""Insight 2""],
  ""deadline"": null,
  ""extractedText"": ""Texto extraído relevante (si aplica)"",
  ""mediaAnalysis"": ""Descripción del contenido multimedia""
}

IMPORTANTE: Analiza el contenido REAL. NO inventes información. Responde SOLO con JSON válido."

  /** The line between the instructions and the content, with the blank
      lines around it. */
  function SourceLine(sourceType: string, source: string): string {
    "\n\nContenido a analizar (tipo: " + sourceType + ", fuente: " + source + "):\n\n"
  }

  /** The prompt of the text and URL paths: the instructions, a blank line,
      the line naming the type and the source, a blank line, the content. */
  function TextPrompt(system: string, sourceType: string, source: string, content: string): (r: string)
    ensures system <= r
    ensures |content| <= |r| && r[|r| - |content|..] == content
    ensures Contains(r, SourceLine(sourceType, source))
  {
    ContainsInfix(system, SourceLine(sourceType, source), content);
    system + SourceLine(sourceType, source) + content
  }

  /** Two contents are told apart by their prompts. */
  lemma TextPromptInjective(system: string, sourceType: string, source: string, c1: string, c2: string)
    requires TextPrompt(system, sourceType, source, c1) == TextPrompt(system, sourceType, source, c2)
    ensures c1 == c2
  {
    var p := TextPrompt(system, sourceType, source, c1);
    var mid := SourceLine(sourceType, source);
    assert |p| == |system| + |mid| + |c1| == |system| + |mid| + |c2|;
  }

  /** The prompt of the Express file route, which names the uploaded file. */
  function UploadPrompt(system: string, fileName: string): (r: string)
    ensures system <= r
    ensures Contains(r, "(" + fileName + ")")
  {
    ContainsInfix(system + "\n\nAnaliza este archivo ", "(" + fileName + ")",
      ". Extrae los insights más relevantes y genera la Cápsula de Acción.");
    system + "\n\nAnaliza este archivo " + ("(" + fileName + ")")
      + ". Extrae los insights más relevantes y genera la Cápsula de Acción."
  }

  /** A template of `getPromptForMediaType`: the text before the quoted
      file name and the text after it. */
  datatype Template = Template(lead: string, tail: string)

  const ImageTemplate: Template := Template("Analiza esta imagen ",
    ":\n1. Describe qué ves en detalle\n2. Extrae cualquier texto visible (OCR)\n"
    + "3. Identifica datos, gráficos o diagramas\n4. Genera acciones basadas en el contenido")

  const AudioTemplate: Template := Template("Analiza este audio ",
    ":\n1. Transcribe el contenido hablado\n2. Identifica los temas principales\n"
    + "3. Resume los puntos clave\n4. Genera acciones basadas en lo discutido")

  const VideoTemplate: Template := Template("Analiza este video ",
    ":\n1. Describe el contenido visual\n2. Transcribe/resume el audio\n"
    + "3. Identifica los temas principales\n4. Genera acciones basadas en el contenido")

  const DocumentTemplate: Template := Template("Analiza este documento ",
    ":\n1. Extrae el contenido principal\n2. Identifica tablas y datos importantes\n"
    + "3. Resume los puntos clave\n4. Genera acciones basadas en el contenido")

  /** A template with the file name filled in, in double quotes. */
  function Fill(t: Template, fileName: string): (r: string)
    ensures Contains(r, "\"" + fileName + "\"")
    ensures t.lead <= r
  {
    ContainsInfix(t.lead, "\"" + fileName + "\"", t.tail);
    t.lead + ("\"" + fileName + "\"") + t.tail
  }

  /** `prompts[mediaType] || prompts.document`: the template is chosen by
      the media type's name, the document one for any other key. */
  function PromptForMediaType(mediaType: string, fileName: string): (r: string)
    ensures Contains(r, "\"" + fileName + "\"")
    ensures mediaType !in {"image", "audio", "video"} ==> r == Fill(DocumentTemplate, fileName)
  {
    if mediaType == "image" then Fill(ImageTemplate, fileName)
    else if mediaType == "audio" then Fill(AudioTemplate, fileName)
    else if mediaType == "video" then Fill(VideoTemplate, fileName)
    else Fill(DocumentTemplate, fileName)
  }

  /** Distinct file names give distinct prompts of the same type. */
  lemma FillInjective(t: Template, f1: string, f2: string)
    requires Fill(t, f1) == Fill(t, f2)
    ensures f1 == f2
  {
    var r := Fill(t, f1);
    assert |f1| == |f2|;
    assert f1 == r[|t.lead| + 1..|t.lead| + 1 + |f1|];
  }
}

=== FILE: server.dfy ===
/** The self-hosted Express server: the model call with its reply clean-up,
    the URL content extraction, the three processing routes with their
    input gates, and the capsule routes over the JSON file store. */
module Server {
  import opened Wrappers
  import opened Strings
  import opened Json
  import opened Http
  import opened ModelReply
  import opened HtmlText
  import opened UrlKind
  import opened Prompts
  import opened Capsule
  import Twitter
  import YouTube

  // ---------------------------------------------------------------------
  // processWithGemini
  // ---------------------------------------------------------------------

  const NotInitialized: string := "Gemini AI not initialized. Please set GEMINI_API_KEY."
  const InvalidFormat: string := "La IA devolvió un formato inválido. Por favor, inténtalo de nuevo."

  /** `processWithGemini`: the parsed capsule data, or the message of what
      it throws. */
  function ProcessWithGemini(g: Gemini, parse: Parser,
                             content: string, sourceType: string, source: string): (r: Result<JsonValue, string>)
    ensures g.model.None? ==> r == Failure(NotInitialized)
    ensures g.model.Some? ==>
      var reply := g.model.value([TextPart(TextPrompt(g.instructions, sourceType, source, content))]);
      (reply.Failure? ==> r == Failure(reply.error))
      && (reply.Success? ==>
            (parse(CleanFences(reply.value)).Failure? ==> r == Failure(InvalidFormat))
            && (parse(CleanFences(reply.value)).Success? ==> r == parse(CleanFences(reply.value))))
  {
    if g.model.None? then Failure(NotInitialized)
    else
      var text :- g.model.value([TextPart(TextPrompt(g.instructions, sourceType, source, content))]);
      match ParseReply(text, parse)
      case Failure(_) => Failure(InvalidFormat)
      case Success(v) => Success(v)
  }

  // ---------------------------------------------------------------------
  // fetchUrlContent
  // ---------------------------------------------------------------------

  /** What Readability makes of a page; `None` fields are `null`. */
  datatype Article = Article(title: Option<string>, textContent: Option<string>, content: Option<string>)

  /** The network and the libraries the extraction calls, none of which the
      model defines: `fetch`, `JSON.parse`, the transcript library, the
      watch-page scan of the timed-text method, and Readability over a DOM
      built from the page and its URL. */
  datatype Services = Services(
    fetch: Fetcher,
    parse: Parser,
    transcriptLibrary: string -> Result<YouTube.LibraryTranscript, string>,
    scanPage: YouTube.PageScanner,
    readArticle: (string, string) -> Option<Article>)

  const ExtractionPrefix: string := "Error de extracción: "

  predicate Present(s: Option<string>) {
    s.Some? && s.value != []
  }

  /** The text of a page that Readability understood, or the `TypeError` of
      reading `trim` from a `null` text. */
  function ArticleText(a: Article): (r: Result<string, string>)
    ensures r.Failure? <==> a.textContent.None?
    ensures r.Failure? ==> r.error == NullReadMessage("trim")
    ensures r.Success? ==> "Título: " + NullableText(a.title) <= r.value
    ensures r.Success? ==> var body := Trim(a.textContent.value);
      |body| <= |r.value| && r.value[|r.value| - |body|..] == body
  {
    if a.textContent.None? then Failure(NullReadMessage("trim"))
    else
      var head := "Título: " + NullableText(a.title);
      var body := Trim(a.textContent.value);
      PrefixOfConcat(head, "\n\nContenido:\n" + body);
      SuffixOfConcat(head + "\n\nContenido:\n", body);
      Success(head + "\n\nContenido:\n" + body)
  }

  /** Readability found nothing to use: no article, or one whose text and
      markup are both empty. */
  predicate NothingRead(article: Option<Article>) {
    article.None? || (!Present(article.value.textContent) && !Present(article.value.content))
  }

  /** The generic path, inside its `try`: fetch, then Readability, then the
      basic clean-up when Readability found nothing. */
  function GenericContent(url: string, s: Services): (r: Result<string, string>)
    ensures s.fetch(url).NetworkError? ==> r == Failure(s.fetch(url).message)
    ensures s.fetch(url).Response? && !Ok(s.fetch(url).status) ==>
      r == Failure("Error al acceder a la URL: HTTP " + IntToString(s.fetch(url).status))
    ensures s.fetch(url).Response? && Ok(s.fetch(url).status) ==>
      var page := s.fetch(url).body;
      var article := s.readArticle(page, url);
      (NothingRead(article) ==> r == Success(HtmlToText(page)))
      && (!NothingRead(article) ==> r == ArticleText(article.value))
  {
    match s.fetch(url)
    case NetworkError(m) => Failure(m)
    case Response(status, html) =>
      if !Ok(status) then Failure("Error al acceder a la URL: HTTP " + IntToString(status))
      else
        var article := s.readArticle(html, url);
        if NothingRead(article) then Success(HtmlToText(html))
        else ArticleText(article.value)
  }

  /** `fetchUrlContent`: `Success(None)` is the `null` of a video without a
      transcript; a `Failure` is the message of what it throws. */
  function FetchUrlContent(url: string, s: Services): (r: Result<Option<string>, string>)
    ensures r.Success? && r.value.None? ==> YouTube.GetYoutubeId(url).Some?
    ensures YouTube.GetYoutubeId(url).Some? ==>
      var id := YouTube.GetYoutubeId(url).value;
      var data := YouTube.FetchTranscript(id, s.transcriptLibrary(id), s.fetch, s.scanPage);
      r == Success(YouTube.FormatYouTubeContent(data, id))
      && (data.transcript.None? ==> r == Success(None))
    ensures YouTube.GetYoutubeId(url).None? && Twitter.GetTweetId(url).Some? ==>
      var t := Twitter.FetchTweet(Twitter.GetTweetId(url).value, s.fetch, s.parse);
      (t.Failure? ==> r == Failure(t.error))
      && (t.Success? ==> r == Success(Some(Twitter.FormatTweetContent(t.value))))
    ensures YouTube.GetYoutubeId(url).None? && Twitter.GetTweetId(url).None? ==>
      var g := GenericContent(url, s);
      (g.Failure? ==> r == Failure(ExtractionPrefix + g.error))
      && (g.Success? ==> r == Success(Some(g.value)))
  {
    match YouTube.GetYoutubeId(url)
    case Some(videoId) =>
      var data := YouTube.FetchTranscript(videoId, s.transcriptLibrary(videoId), s.fetch, s.scanPage);
      Success(YouTube.FormatYouTubeContent(data, videoId))
    case None =>
      match Twitter.GetTweetId(url)
      case Some(tweetId) =>
        var tweet :- Twitter.FetchTweet(tweetId, s.fetch, s.parse);
        Success(Some(Twitter.FormatTweetContent(tweet)))
      case None =>
        match GenericContent(url, s)
        case Failure(m) => Failure(ExtractionPrefix + m)
        case Success(text) => Success(Some(text))
  }

  /** A video whose two transcript methods both fail gives no content: the
      route then answers that there is not enough to analyse. */
  lemma ExhaustedVideoIsNull(url: string, s: Services)
    requires YouTube.GetYoutubeId(url).Some?
    requires var id := YouTube.GetYoutubeId(url).value;
      s.transcriptLibrary(id).Failure? && YouTube.FromTimedText(id, s.fetch, s.scanPage).Failure?
    ensures FetchUrlContent(url, s) == Success(None)
  {
  }

  /** A page Readability cannot read is reduced to normalised text: no white
      space at either end and none doubled. */
  lemma FallbackIsNormalized(url: string, s: Services)
    requires YouTube.GetYoutubeId(url).None? && Twitter.GetTweetId(url).None?
    requires s.fetch(url).Response? && Ok(s.fetch(url).status)
    requires s.readArticle(s.fetch(url).body, url).None?
    ensures FetchUrlContent(url, s) == Success(Some(HtmlToText(s.fetch(url).body)))
    ensures Normalized(FetchUrlContent(url, s).value.value)
  {
  }

  /** A failed page fetch is reported with its status behind the extraction
      prefix. */
  lemma HttpErrorIsPrefixed(url: string, s: Services)
    requires YouTube.GetYoutubeId(url).None? && Twitter.GetTweetId(url).None?
    requires s.fetch(url).Response? && !Ok(s.fetch(url).status)
    ensures FetchUrlContent(url, s)
      == Failure(ExtractionPrefix + ("Error al acceder a la URL: HTTP " + IntToString(s.fetch(url).status)))
  {
  }

  // ---------------------------------------------------------------------
  // The processing routes
  // ---------------------------------------------------------------------

  /** A route's reply and the capsule list saved after it. */
  datatype Outcome = Outcome(reply: Reply, store: seq<Capsule>)

  /** Assemble the capsule, save it at the front, and answer
      `{ success: true, capsule }`. */
  function Created(store: seq<Capsule>, id: string, data: JsonValue, provenance: FieldMap): (o: Outcome)
    ensures o.reply.status == 200 && |o.store| == |store| + 1 && o.store[1..] == store
    ensures Carries(o.store[0], provenance)
  {
    var c := Assemble(id, data, provenance);
    Outcome(CapsuleReply(c), Prepend(store, c))
  }

  /** The end of a processing route: the model's failure as a 500 with the
      route's default message, or the new capsule. */
  function ModelOutcome(r: Result<JsonValue, string>, fallback: string, store: seq<Capsule>,
                        id: string, provenance: FieldMap): (o: Outcome)
    ensures r.Failure? ==> o.reply == Fail(500, MessageOr(r.error, fallback)) && o.store == store
    ensures r.Success? ==> o.reply.status == 200 && |o.store| == |store| + 1 && o.store[1..] == store
    ensures r.Success? ==> Carries(o.store[0], provenance)
  {
    match r
    case Failure(m) => Outcome(Fail(500, MessageOr(m, fallback)), store)
    case Success(data) => Created(store, id, data, provenance)
  }

  const ContentRequired: string := "El contenido es requerido."
  const ContentTooLong: string := "El contenido es demasiado largo. Máximo 100,000 caracteres."
  const ProcessDefault: string := "Error al procesar el contenido. Por favor, inténtalo de nuevo."
  const MaxContentChars: nat := 100000

  /** POST /api/process. Missing body fields are `None`; `newId` and `now`
      stand for `generateId()` and the ISO time. */
  function ProcessRoute(content: Option<string>, sourceType: Option<string>, source: Option<string>,
                        g: Gemini, parse: Parser, store: seq<Capsule>,
                        newId: string, now: string): (o: Outcome)
    ensures Blank(content) ==> o == Outcome(Fail(400, ContentRequired), store)
    ensures !Blank(content) && |content.value| > MaxContentChars ==>
      o == Outcome(Fail(400, ContentTooLong), store)
    ensures o.reply.status != 200 ==> o.store == store
    ensures o.reply.status == 200 ==>
      !Blank(content) && |content.value| <= MaxContentChars
      && |o.store| == |store| + 1 && o.store[1..] == store
      && Carries(o.store[0], Provenance(source.GetOr("Manual"), sourceType.GetOr("text"), now))
  {
    if Blank(content) then Outcome(Fail(400, ContentRequired), store)
    else if |content.value| > MaxContentChars then Outcome(Fail(400, ContentTooLong), store)
    else
      var kind := sourceType.GetOr("text");
      var from := source.GetOr("Manual");
      ModelOutcome(ProcessWithGemini(g, parse, content.value, kind, from), ProcessDefault,
                   store, newId, Provenance(from, kind, now))
  }

  /** The gates answer before the model is consulted: any two models give the
      same outcome on a rejected request. */
  lemma ProcessGateIgnoresModel(content: Option<string>, sourceType: Option<string>, source: Option<string>,
                                g1: Gemini, g2: Gemini, parse: Parser, store: seq<Capsule>,
                                newId: string, now: string)
    requires Blank(content) || |content.value| > MaxContentChars
    ensures ProcessRoute(content, sourceType, source, g1, parse, store, newId, now)
         == ProcessRoute(content, sourceType, source, g2, parse, store, newId, now)
  {
  }

  /** A reply the model wraps in a "```json" block is parsed as its body. */
  lemma GeminiFencedReply(g: Gemini, parse: Parser, content: string, sourceType: string, source: string,
                          body: string)
    requires '`' !in body && (body == [] || (!IsSpace(body[0]) && !IsSpace(body[|body| - 1])))
    requires g.model.Some?
    requires g.model.value([TextPart(TextPrompt(g.instructions, sourceType, source, content))])
      == Success("```json\n" + body + "\n```")
    ensures ProcessWithGemini(g, parse, content, sourceType, source)
      == if parse(body).Success? then parse(body) else Failure(InvalidFormat)
  {
    CleanJsonBlock(body);
  }

  /** A model answer that reads as JSON becomes a new capsule at the head of
      the store, carrying the request's provenance (or its defaults). */
  lemma ProcessSucceeds(content: string, sourceType: Option<string>, source: Option<string>,
                        g: Gemini, parse: Parser, store: seq<Capsule>,
                        newId: string, now: string, data: JsonValue)
    requires Trim(content) != [] && |content| <= MaxContentChars
    requires ProcessWithGemini(g, parse, content, sourceType.GetOr("text"), source.GetOr("Manual")) == Success(data)
    ensures ProcessRoute(Some(content), sourceType, source, g, parse, store, newId, now)
      == Created(store, newId, data, Provenance(source.GetOr("Manual"), sourceType.GetOr("text"), now))
  {
  }

  /** A reply that does not parse fails with the fixed message and stores
      nothing. */
  lemma ProcessUnparsableReply(content: string, sourceType: Option<string>, source: Option<string>,
                               g: Gemini, parse: Parser, store: seq<Capsule>, newId: string, now: string)
    requires Trim(content) != [] && |content| <= MaxContentChars
    requires AnswersUnparsable(g, parse, TextPrompt(g.instructions, sourceType.GetOr("text"),
                                                    source.GetOr("Manual"), content))
    ensures ProcessRoute(Some(content), sourceType, source, g, parse, store, newId, now)
      == Outcome(Fail(500, InvalidFormat), store)
  {
    var kind := sourceType.GetOr("text");
    var from := source.GetOr("Manual");
    GeminiUnparsable(g, parse, content, kind, from);
    InvalidFormatShown(ProcessDefault);
    assert !Blank(Some(content));
    assert ProcessRoute(Some(content), sourceType, source, g, parse, store, newId, now)
        == ModelOutcome(Failure(InvalidFormat), ProcessDefault, store, newId, Provenance(from, kind, now));
  }

  /** A reply that does not parse is reported with the fixed message. */
  lemma GeminiUnparsable(g: Gemini, parse: Parser, content: string, sourceType: string, source: string)
    requires AnswersUnparsable(g, parse, TextPrompt(g.instructions, sourceType, source, content))
    ensures ProcessWithGemini(g, parse, content, sourceType, source) == Failure(InvalidFormat)
  {
  }

  /** The fixed message is not empty, so it replaces any default. */
  lemma InvalidFormatShown(fallback: string)
    ensures MessageOr(InvalidFormat, fallback) == InvalidFormat
  {
    assert |InvalidFormat| > 0;
  }

  const UrlRequired: string := "La URL es requerida."
  const UrlInvalid: string := "URL inválida. Por favor, verifica el formato."
  const NoTranscript: string := "No se pudo obtener la transcripción del video. El procesamiento multimodal de videos estará disponible próximamente."
  const NotEnoughContent: string := "No se pudo extraer suficiente contenido de la URL. Verifica que la página sea accesible."
  const UrlDefault: string := "Error al procesar la URL. Por favor, inténtalo de nuevo."
  const MinContentChars: nat := 50

  /** POST /api/process-url. `validUrl` is whether `new URL(url)` accepts
      the text. */
  function ProcessUrlRoute(url: Option<string>, validUrl: string -> bool, s: Services,
                           g: Gemini, store: seq<Capsule>, newId: string, now: string): (o: Outcome)
    ensures Blank(url) ==> o == Outcome(Fail(400, UrlRequired), store)
    ensures !Blank(url) && !validUrl(url.value) ==> o == Outcome(Fail(400, UrlInvalid), store)
    ensures o.reply.status != 200 ==> o.store == store
    ensures o.reply.status == 200 ==>
      !Blank(url) && validUrl(url.value)
      && var c := FetchUrlContent(url.value, s);
      c.Success? && c.value.Some? && |c.value.value| >= MinContentChars
      && |o.store| == |store| + 1 && o.store[1..] == store
      && Carries(o.store[0], Provenance(url.value, ClassifyUrl(url.value).Name(), now))
  {
    if Blank(url) then Outcome(Fail(400, UrlRequired), store)
    else if !validUrl(url.value) then Outcome(Fail(400, UrlInvalid), store)
    else
      var u := url.value;
      var kind := ClassifyUrl(u);
      match FetchUrlContent(u, s)
      case Failure(m) => Outcome(Fail(500, MessageOr(m, UrlDefault)), store)
      case Success(content) =>
        if content.None? && kind == YouTube then Outcome(Fail(400, NoTranscript), store)
        else if content.None? || |content.value| < MinContentChars then Outcome(Fail(400, NotEnoughContent), store)
        else
          ModelOutcome(ProcessWithGemini(g, s.parse, content.value, kind.Name(), u), UrlDefault,
                       store, newId, Provenance(u, kind.Name(), now))
  }

  /** A video id found in a URL that names no YouTube host still takes the
      video path; without a transcript the reply is the generic "not enough
      content" one, not the transcript one. */
  lemma NullContentOffYouTube(url: string, validUrl: string -> bool, s: Services,
                              g: Gemini, store: seq<Capsule>, newId: string, now: string)
    requires Trim(url) != [] && validUrl(url)
    requires ClassifyUrl(url) != YouTube
    requires FetchUrlContent(url, s) == Success(None)
    ensures ProcessUrlRoute(Some(url), validUrl, s, g, store, newId, now)
         == Outcome(Fail(400, NotEnoughContent), store)
  {
  }

  /** Extracted text under 50 characters is rejected before the model is
      consulted. */
  lemma ShortContentRejected(url: string, validUrl: string -> bool, s: Services,
                             g1: Gemini, g2: Gemini, store: seq<Capsule>, newId: string, now: string)
    requires Trim(url) != [] && validUrl(url)
    requires FetchUrlContent(url, s).Success? && FetchUrlContent(url, s).value.Some?
    requires |FetchUrlContent(url, s).value.value| < MinContentChars
    ensures ProcessUrlRoute(Some(url), validUrl, s, g1, store, newId, now)
         == Outcome(Fail(400, NotEnoughContent), store)
    ensures ProcessUrlRoute(Some(url), validUrl, s, g1, store, newId, now)
         == ProcessUrlRoute(Some(url), validUrl, s, g2, store, newId, now)
  {
    assert !Blank(Some(url));
    var content := FetchUrlContent(url, s).value;
    assert content.Some? && |content.value| < MinContentChars;
  }

  /** The file multer stored for the request. */
  datatype UploadedFile = UploadedFile(originalName: string, mimeType: string, size: nat)

  /** The File API's record of an upload. */
  datatype FileRef = FileRef(mimeType: string, uri: string)

  /** The upload to the File API, which the model does not perform. */
  type Uploader = UploadedFile -> Result<FileRef, string>

  const NoFile: string := "No se ha subido ningún archivo."
  const FileTooLarge: string := "El archivo es demasiado grande. Máximo 50MB."
  const FileNotInitialized: string := "Gemini AI no inicializado. Contacta al administrador."
  const FileDefault: string := "Error al procesar el archivo. Por favor, inténtalo de nuevo."
  const MaxUploadBytes: nat := 50 * 1024 * 1024

  /** The capsule fields the file route writes itself. */
  function UploadProvenance(file: UploadedFile, source: Option<string>, now: string): FieldMap {
    Provenance(if Present(source) then source.value else file.originalName,
               Split(file.mimeType, '/')[0], now)
  }

  /** POST /api/process-file. */
  function ProcessFileRoute(file: Option<UploadedFile>, source: Option<string>, g: Gemini,
                            upload: Uploader, parse: Parser, store: seq<Capsule>,
                            newId: string, now: string): (o: Outcome)
    ensures file.None? ==> o == Outcome(Fail(400, NoFile), store)
    ensures file.Some? && file.value.size > MaxUploadBytes ==> o == Outcome(Fail(400, FileTooLarge), store)
    ensures file.Some? && file.value.size <= MaxUploadBytes && g.model.None? ==>
      o == Outcome(Fail(500, FileNotInitialized), store)
    ensures o.reply.status != 200 ==> o.store == store
    ensures o.reply.status == 200 ==>
      file.Some? && file.value.size <= MaxUploadBytes && upload(file.value).Success?
      && |o.store| == |store| + 1 && o.store[1..] == store
      && Carries(o.store[0], UploadProvenance(file.value, source, now))
  {
    if file.None? then Outcome(Fail(400, NoFile), store)
    else if file.value.size > MaxUploadBytes then Outcome(Fail(400, FileTooLarge), store)
    else if g.model.None? then Outcome(Fail(500, FileNotInitialized), store)
    else
      var f := file.value;
      match upload(f)
      case Failure(m) => Outcome(Fail(500, MessageOr(m, FileDefault)), store)
      case Success(ref) =>
        match g.model.value([FileData(ref.mimeType, ref.uri), TextPart(UploadPrompt(g.instructions, f.originalName))])
        case Failure(m) => Outcome(Fail(500, MessageOr(m, FileDefault)), store)
        case Success(text) =>
          match ParseReply(text, parse)
          case Failure(_) => Outcome(Fail(500, InvalidFormat), store)
          case Success(data) => Created(store, newId, data, UploadProvenance(f, source, now))
  }

  /** The source type of an upload is the MIME type's part before its first
      '/', so "image/png" is stored as "image". */
  lemma UploadSourceType(name: string, source: Option<string>, now: string)
    ensures UploadProvenance(UploadedFile(name, "image/png", 0), source, now)["sourceType"] == JStr("image")
  {
    var m := "image/png";
    assert m[5] == '/';
    assert '/' !in m[..5];
    assert m[..5] == "image";
  }

  // ---------------------------------------------------------------------
  // The capsule routes
  // ---------------------------------------------------------------------

  /** GET /api/capsules/:id. */
  function GetCapsuleRoute(store: seq<Capsule>, id: string): (r: Reply)
    ensures r.status == 404 <==> forall j :: 0 <= j < |store| ==> !HasId(store[j], id)
    ensures r.status == 200 ==>
      exists k :: 0 <= k < |store| && r.body == Some(JObj(map["capsule" := JObj(store[k])]))
                  && HasId(store[k], id) && forall j :: 0 <= j < k ==> !HasId(store[j], id)
  {
    match FindIndex(store, id)
    case None => Reply(404, Some(JObj(map["error" := JStr("Capsule not found")])))
    case Some(k) => Reply(200, Some(JObj(map["capsule" := JObj(store[k])])))
  }

  /** DELETE /api/capsules/:id: only the first capsule with the id goes. */
  function DeleteCapsuleRoute(store: seq<Capsule>, id: string): (o: Outcome)
    ensures o.reply.status == 404 <==> forall j :: 0 <= j < |store| ==> !HasId(store[j], id)
    ensures o.reply.status == 404 ==> o.store == store
    ensures o.reply.status == 200 ==> |o.store| == |store| - 1
    ensures o.reply.status == 200 ==> DeleteFirst(store, id).Some? && o.store == DeleteFirst(store, id).value
  {
    match DeleteFirst(store, id)
    case None => Outcome(Fail(404, "Capsule not found"), store)
    case Some(rest) => Outcome(Reply(200, Some(SuccessBody(map[]))), rest)
  }

  /** Deleting the capsule a route just created brings the store back. */
  lemma CreateThenDelete(store: seq<Capsule>, id: string, data: JsonValue, provenance: FieldMap)
    requires HasId(Assemble(id, data, provenance), id)
    ensures DeleteCapsuleRoute(Created(store, id, data, provenance).store, id).store == store
  {
    DeleteFirstUndoesPrepend(store, Assemble(id, data, provenance), id);
  }
}

=== FILE: session.dfy ===
/** The session token of the serverless handlers. The login handler issues
    base64(tokenData ":" signature), where tokenData is the JSON text
    `{"token":"<hex>","expiry":<ms>}` and the signature is the hex
    HMAC-SHA256 (RFC 2104) of tokenData keyed by the password. The
    verifiers decode it, split it at a colon, recompute the signature,
    parse tokenData and compare its expiry with the clock. Base64
    (RFC 4648 section 4), HMAC and `JSON.parse` are parameters. */
module Session {
  import opened Wrappers
  import opened Strings
  import opened Json

  /** `createHmac('sha256', key).update(data).digest('hex')`, as a function
      of the key and the data. */
  type Signer = (string, string) -> string

  /** One direction of base64 over UTF-8 text. */
  type Codec = string -> string

  /** Lower-case hexadecimal text, as `digest('hex')` and
      `randomBytes(...).toString('hex')` produce. */
  predicate IsHex(s: string) {
    forall i :: 0 <= i < |s| ==> IsHexDigit(s[i])
  }

  /** A signer that only ever answers in hexadecimal. */
  ghost predicate HexSigner(sign: Signer) {
    forall key, data :: IsHex(sign(key, data))
  }

  const TokenKey: string := "{\"token\":\""

  /** `JSON.stringify({ token, expiry })` for a hex token: it opens with the
      token's key and value and closes with the expiry and a brace. */
  function TokenData(token: string, expiry: int): (r: string)
    ensures TokenKey + token <= r
    ensures var tail := IntToString(expiry) + "}";
      |tail| <= |r| && r[|r| - |tail|..] == tail
  {
    var head := TokenKey + token;
    var tail := IntToString(expiry) + "}";
    PrefixOfConcat(head, "\",\"expiry\":" + tail);
    SuffixOfConcat(head + "\",\"expiry\":", tail);
    head + "\",\"expiry\":" + tail
  }

  /** The text that is base64-encoded into the session token. */
  function Frame(data: string, signature: string): string {
    data + ":" + signature
  }

  // ---------------------------------------------------------------------
  // The two ways of splitting the decoded token
  // ---------------------------------------------------------------------

  /** `lastIndexOf(':')` and the two substrings around it; `None` when there
      is no colon. */
  function SplitLast(s: string): (r: Option<(string, string)>)
    ensures r.None? <==> ':' !in s
    ensures r.Some? ==> s == Frame(r.value.0, r.value.1) && ':' !in r.value.1
  {
    match LastIndexOfChar(s, ':')
    case None => None
    case Some(k) =>
      assert s == s[..k] + ":" + s[k + 1..];
      Some((s[..k], s[k + 1..]))
  }

  /** Framing then splitting at the last colon gives back both parts when
      the signature has no colon. */
  lemma SplitLastFrame(data: string, signature: string)
    requires ':' !in signature
    ensures SplitLast(Frame(data, signature)) == Some((data, signature))
  {
    var s := Frame(data, signature);
    var k := LastIndexOfChar(s, ':').value;
    assert s[|data|] == ':';
    assert s[|data| + 1..] == signature;
    assert s[..|data|] == data;
  }

  /** `const [tokenData, signature] = s.split(':')`: the text before the
      first colon, and the text between the first and the second colon
      (`None`, that is `undefined`, when there is no colon at all). */
  function SplitFirst(s: string): (r: (string, Option<string>))
    ensures ':' !in r.0 && r.0 <= s
    ensures r.1.None? <==> ':' !in s
    ensures r.1.Some? ==> (':' !in r.1.value && |r.0| < |s| && s[|r.0|] == ':'
      && r.1.value <= s[|r.0| + 1..])
  {
    match IndexOfChar(s, ':')
    case None => (s, None)
    case Some(i) =>
      var rest := s[i + 1..];
      match IndexOfChar(rest, ':')
      case None => (s[..i], Some(rest))
      case Some(j) => (s[..i], Some(rest[..j]))
  }

  /** The same pieces as the general `split`. */
  lemma SplitFirstIsSplit(s: string)
    ensures SplitFirst(s).0 == Split(s, ':')[0]
    ensures |Split(s, ':')| >= 2 <==> SplitFirst(s).1.Some?
    ensures SplitFirst(s).1.Some? ==> SplitFirst(s).1.value == Split(s, ':')[1]
  {
    match IndexOfChar(s, ':')
    case None =>
    case Some(i) =>
      var rest := s[i + 1..];
      assert Split(s, ':') == [s[..i]] + Split(rest, ':');
  }

  // ---------------------------------------------------------------------
  // The checks after the split
  // ---------------------------------------------------------------------

  /** `Date.now() > expiry` for the value read from tokenData: a number is
      compared as it is, `null` as 0, a boolean as 0 or 1, and `undefined`
      (no expiry property) never compares greater. */
  function Expired(now: int, expiry: Option<JsonValue>): (r: bool)
    ensures expiry == Some(JNum(now)) ==> !r
    ensures expiry.None? ==> !r
  {
    match expiry
    case Some(JNum(n)) => now > n
    case Some(JNull) => now > 0
    case Some(JBool(b)) => now > (if b then 1 else 0)
    case _ => false
  }

  /** The signature test, the parse of tokenData and the expiry test, with
      every exception read as `false`. */
  function CheckParts(data: string, signature: Option<string>, password: string, now: int,
                      sign: Signer, parse: Parser): (r: bool)
    ensures r ==> signature == Some(sign(password, data))
    ensures r ==> (parse(data).Success? && parse(data).value != JNull
      && !Expired(now, Prop(parse(data).value, "expiry")))
  {
    signature == Some(sign(password, data))
    && match parse(data)
       case Failure(_) => false
       case Success(v) => v != JNull && !Expired(now, Prop(v, "expiry"))
  }

  /** `verifyToken` of the verify handler: the split is at the FIRST colon. */
  function VerifyFirstColon(token: Option<string>, password: Option<string>, now: int,
                            decode: Codec, sign: Signer, parse: Parser): (r: bool)
    ensures Falsy(token) || Falsy(password) ==> !r
    ensures r ==> var (data, signature) := SplitFirst(decode(token.value));
      signature == Some(sign(password.value, data))
  {
    if Falsy(token) || Falsy(password) then false
    else
      var (data, signature) := SplitFirst(decode(token.value));
      CheckParts(data, signature, password.value, now, sign, parse)
  }

  /** `verifyToken` of the file handler: the split is at the LAST colon. */
  function VerifyLastColon(token: Option<string>, password: Option<string>, now: int,
                           decode: Codec, sign: Signer, parse: Parser): (r: bool)
    ensures Falsy(token) || Falsy(password) ==> !r
    ensures r ==> exists data, signature :: (decode(token.value) == Frame(data, signature)
      && ':' !in signature && signature == sign(password.value, data))
  {
    if Falsy(token) || Falsy(password) then false
    else
      match SplitLast(decode(token.value))
      case None => false
      case Some((data, signature)) => CheckParts(data, Some(signature), password.value, now, sign, parse)
  }

  /** `authorization?.replace('Bearer ', '')`: the first "Bearer " anywhere
      in the header is removed; a header that starts with it gives the rest. */
  function BearerToken(authorization: Option<string>): (r: Option<string>)
    ensures r.None? <==> authorization.None?
    ensures authorization.Some? && "Bearer " <= authorization.value ==>
      r == Some(authorization.value[|"Bearer "|..])
  {
    match authorization
    case None => None
    case Some(h) =>
      assert "Bearer " <= h ==> ReplaceFirst(h, "Bearer ", "") == h[|"Bearer "|..] by {
        if "Bearer " <= h {
          assert h != [];
          assert "" + h[|"Bearer "|..] == h[|"Bearer "|..];
        }
      }
      Some(ReplaceFirst(h, "Bearer ", ""))
  }

  /** The header the client sends gives back the token it holds. */
  lemma BearerTokenOfHeader(token: string)
    ensures BearerToken(Some("Bearer " + token)) == Some(token)
  {
    var h := "Bearer " + token;
    assert "Bearer " <= h;
    assert h[|"Bearer "|..] == token;
    assert h != [];
    assert ReplaceFirst(h, "Bearer ", "") == "" + h[|"Bearer "|..];
    assert "" + token == token;
  }

  // ---------------------------------------------------------------------
  // Issue and verify
  // ---------------------------------------------------------------------

  /** What a well-behaved environment gives: base64 decoding undoes the
      encoding of this frame, and `JSON.parse` reads back the two fields. */
  predicate Faithful(data: string, frame: string, random: string, expiry: int,
                     encode: Codec, decode: Codec, parse: Parser) {
    decode(encode(frame)) == frame
    && parse(data) == Success(JObj(map["token" := JStr(random), "expiry" := JNum(expiry)]))
  }

  /** The token issued for `random` at expiry `expiry`. */
  function Issue(password: string, random: string, expiry: int, encode: Codec, sign: Signer): string {
    encode(Frame(TokenData(random, expiry), sign(password, TokenData(random, expiry))))
  }

  /** Decoding an issued token and splitting it at its last colon gives back
      the token data and the signature the login handler computed. */
  lemma IssueSplitsBack(password: string, random: string, expiry: int, encode: Codec, decode: Codec,
                        sign: Signer)
    requires HexSigner(sign)
    requires var data := TokenData(random, expiry);
      decode(encode(Frame(data, sign(password, data)))) == Frame(data, sign(password, data))
    ensures var data := TokenData(random, expiry);
      SplitLast(decode(Issue(password, random, expiry, encode, sign))) == Some((data, sign(password, data)))
  {
    var data := TokenData(random, expiry);
    var signature := sign(password, data);
    assert IsHex(signature);
    assert ':' !in signature;
    SplitLastFrame(data, signature);
  }

  /** A token issued by the login handler passes the last-colon verifier
      until its expiry, and fails once the clock has passed it. */
  lemma {:induction false} IssuedTokenVerifiesAtLastColon(password: string, random: string, expiry: int,
                                                          now: int, encode: Codec, decode: Codec,
                                                          sign: Signer, parse: Parser)
    requires password != [] && HexSigner(sign)
    requires Issue(password, random, expiry, encode, sign) != []
    requires var data := TokenData(random, expiry);
      Faithful(data, Frame(data, sign(password, data)), random, expiry, encode, decode, parse)
    ensures var token := Issue(password, random, expiry, encode, sign);
      VerifyLastColon(Some(token), Some(password), now, decode, sign, parse) <==> now <= expiry
  {
    var data := TokenData(random, expiry);
    var signature := sign(password, data);
    assert IsHex(signature);
    assert ':' !in signature;
    SplitLastFrame(data, signature);
    var v := JObj(map["token" := JStr(random), "expiry" := JNum(expiry)]);
    assert Prop(v, "expiry") == Some(JNum(expiry));
  }

  /** The first piece of a login token is the text `{"token"`, and the
      second begins with a double quote. */
  lemma {:induction false} TokenDataSplitsEarly(random: string, expiry: int, signature: string)
    ensures var (data, second) := SplitFirst(Frame(TokenData(random, expiry), signature));
      data == "{\"token\"" && second.Some? && second.value != [] && second.value[0] == '"'
  {
    var s := Frame(TokenData(random, expiry), signature);
    assert s[..8] == "{\"token\"";
    assert s[8] == ':' && s[9] == '"';
    assert ':' !in s[..8];
    assert IndexOfChar(s, ':') == Some(8);
    var rest := s[9..];
    assert rest[0] == '"';
    assert ':' !in rest[..1];
    match IndexOfChar(rest, ':')
    case None =>
    case Some(j) =>
      assert j != 0;
  }

  /** A token issued by the login handler never passes the first-colon
      verifier, whatever the clock says: the piece it compares with the
      signature starts with a double quote, which hex text never does. */
  lemma {:induction false} IssuedTokenFailsAtFirstColon(password: string, random: string, expiry: int,
                                                        now: int, encode: Codec, decode: Codec,
                                                        sign: Signer, parse: Parser)
    requires HexSigner(sign)
    requires var data := TokenData(random, expiry);
      decode(encode(Frame(data, sign(password, data)))) == Frame(data, sign(password, data))
    ensures !VerifyFirstColon(Some(Issue(password, random, expiry, encode, sign)), Some(password), now,
                              decode, sign, parse)
  {
    var data := TokenData(random, expiry);
    var token := Issue(password, random, expiry, encode, sign);
    if !Falsy(Some(token)) && !Falsy(Some(password)) {
      TokenDataSplitsEarly(random, expiry, sign(password, data));
      var (first, second) := SplitFirst(Frame(data, sign(password, data)));
      var expected := sign(password, first);
      assert IsHex(expected);
      assert second != Some(expected);
    }
  }
}

=== FILE: settings.dfy ===
/** The settings page (`Settings`): the notification switches and the
    connected integrations, both kept only in the page's state. */
module Settings {
  import Lists

  /** One notification switch. */
  datatype Notification = Notification(id: string, caption: string, enabled: bool)

  /** The switches the page starts with. */
  const DefaultNotifications: seq<Notification> := [
    Notification("new_capsule", "Nueva Cápsula creada", true),
    Notification("daily_digest", "Resumen diario", true),
    Notification("weekly_report", "Reporte semanal", false),
    Notification("urgent", "Alertas de urgencia", true)
  ]

  /** The integrations connected when the page opens. */
  const DefaultIntegrations: seq<string> := ["whatsapp", "email"]

  const PreferenceUpdated: string := "Preferencia actualizada"
  const Connected: string := "Integración conectada"
  const Disconnected: string := "Integración desconectada"

  /** `toggleNotification`: every switch with the id flips, the others and
      all captions stay; the toast is always the same. */
  function ToggleNotification(ns: seq<Notification>, id: string): (r: (seq<Notification>, string))
    ensures |r.0| == |ns| && r.1 == PreferenceUpdated
    ensures forall i :: 0 <= i < |ns| ==> r.0[i].id == ns[i].id && r.0[i].caption == ns[i].caption
    ensures forall i :: 0 <= i < |ns| && ns[i].id == id ==> r.0[i].enabled == !ns[i].enabled
    ensures forall i :: 0 <= i < |ns| && ns[i].id != id ==> r.0[i] == ns[i]
  {
    (seq(|ns|, i requires 0 <= i < |ns| =>
      if ns[i].id == id then ns[i].(enabled := !ns[i].enabled) else ns[i]), PreferenceUpdated)
  }

  /** Flipping the same switch twice gives back the switches. */
  lemma ToggleNotificationTwice(ns: seq<Notification>, id: string)
    ensures ToggleNotification(ToggleNotification(ns, id).0, id).0 == ns
  {
  }

  /** An id no switch has changes nothing. */
  lemma ToggleUnknownNotification(ns: seq<Notification>, id: string)
    requires forall i :: 0 <= i < |ns| ==> ns[i].id != id
    ensures ToggleNotification(ns, id).0 == ns
  {
  }

  /** `toggleIntegration`: the id is removed if connected, otherwise
      appended, and the toast tells which. */
  function ToggleIntegration(connected: seq<string>, id: string): (r: (seq<string>, string))
    ensures id in r.0 <==> r.1 == Connected
    ensures r.1 == Connected || r.1 == Disconnected
    ensures forall other :: other != id ==> (other in r.0 <==> other in connected)
  {
    (Lists.Toggle(connected, id), if id !in connected then Connected else Disconnected)
  }

  /** Connecting an integration and disconnecting it again gives back the
      list, and the two toasts differ. */
  lemma ConnectThenDisconnect(connected: seq<string>, id: string)
    requires id !in connected
    ensures var first := ToggleIntegration(connected, id);
      ToggleIntegration(first.0, id) == (connected, Disconnected) && first.1 == Connected
  {
    Lists.ToggleTwiceAbsent(connected, id);
  }

  /** Disconnecting the first of two connected integrations leaves the
      second. */
  lemma DisconnectFirstOfTwo(a: string, b: string)
    requires a != b
    ensures ToggleIntegration([a, b], a) == ([b], Disconnected)
  {
    Lists.RemoveCons(a, [b], a);
    Lists.RemoveCons(b, [], a);
    assert [a] + [b] == [a, b] && [b] + [] == [b];
  }

  /** Disconnecting WhatsApp from the defaults leaves email connected. */
  lemma DisconnectDefault()
    ensures ToggleIntegration(DefaultIntegrations, "whatsapp") == (["email"], Disconnected)
  {
    assert "whatsapp"[0] != "email"[0];
    DisconnectFirstOfTwo("whatsapp", "email");
  }
}

=== FILE: share.dfy ===
/** The share texts of a capsule (`src/components/ShareModal.tsx`): the
    plain format with its emoji headings, the compact format, and the
    shortened text handed to SMS. The texts are only built here; the
    clipboard and the share targets are not modelled. */
module Share {
  import opened Wrappers
  import opened Strings

  /** `${i + 1}. ${a}`: the action at index `i`, numbered from one. */
  function ActionLine(i: nat, action: string): (r: string)
    ensures NatToString(i + 1) + ". " <= r
    ensures r[|NatToString(i + 1)| + 2..] == action
  {
    NatToString(i + 1) + ". " + action
  }

  function ActionLines(actions: seq<string>): (r: seq<string>)
    ensures |r| == |actions|
    ensures forall i :: 0 <= i < |r| ==> r[i] == ActionLine(i, actions[i])
  {
    seq(|actions|, i requires 0 <= i < |actions| => ActionLine(i, actions[i]))
  }

  /** `actions.map((a, i) => `${i + 1}. ${a}`).join('\n')`: empty exactly
      without actions, and every action appears with its number. */
  function Numbered(actions: seq<string>): (r: string)
    ensures r == [] <==> actions == []
    ensures forall k :: 0 <= k < |actions| ==> Contains(r, ActionLine(k, actions[k]))
  {
    var lines := ActionLines(actions);
    assert forall k :: 0 <= k < |actions| ==> Contains(Join(lines, "\n"), lines[k]) by {
      forall k | 0 <= k < |actions| ensures Contains(Join(lines, "\n"), lines[k]) {
        JoinContainsPart(lines, "\n", k);
      }
    }
    assert actions != [] ==> Join(lines, "\n") != [] by {
      if actions != [] {
        JoinStartsWithFirst(lines, "\n");
        assert |lines[0]| > 0;
      }
    }
    Join(lines, "\n")
  }

  /** Actions without line breaks can be read back from the numbered list:
      its lines are the numbered actions, in order. */
  lemma NumberedSplitsBack(actions: seq<string>)
    requires |actions| >= 1
    requires forall k :: 0 <= k < |actions| ==> '\n' !in actions[k]
    ensures Split(Numbered(actions), '\n') == ActionLines(actions)
  {
    var lines := ActionLines(actions);
    forall k | 0 <= k < |lines| ensures '\n' !in lines[k] {
      var n := NatToString(k + 1);
      assert lines[k] == n + ". " + actions[k];
      assert '\n' !in n by {
        forall j | 0 <= j < |n| ensures n[j] != '\n' {
          assert IsDigit(n[j]);
        }
      }
    }
    SplitJoin(lines, '\n');
  }

  /** `${url ? `\n\n${prefix}${url}` : ''}`. */
  function SourcePart(prefix: string, sourceUrl: Option<string>): (r: string)
    ensures Falsy(sourceUrl) <==> r == []
  {
    if Falsy(sourceUrl) then "" else "\n\n" + prefix + sourceUrl.value
  }

  /** The compact format. */
  function Compact(title: string, summary: string, actions: seq<string>, sourceUrl: Option<string>)
    : (r: string)
    ensures title + "\n\n" + summary + "\n\n" + Numbered(actions) <= r
    ensures Falsy(sourceUrl) ==> r == title + "\n\n" + summary + "\n\n" + Numbered(actions)
    ensures !Falsy(sourceUrl) ==> |sourceUrl.value| <= |r| && r[|r| - |sourceUrl.value|..] == sourceUrl.value
  {
    title + "\n\n" + summary + "\n\n" + Numbered(actions) + SourcePart("", sourceUrl)
  }

  const ActionsHeading: string := "\U{2705} *Acciones:*\n"
  const TagsMark: string := "\n\n\U{1F3F7}\U{FE0F} "
  const SourceLabel: string := "\U{1F517} Fuente: "
  const Footer: string := "\n\n\U{2014}\n\U{2728} Generado con FocusBrief"

  /** The heading of the plain format: title in asterisks, then the summary. */
  function PlainHead(title: string, summary: string): string {
    "\U{1F4CB} *" + title + "*\n\n" + summary + "\n\n" + ActionsHeading
  }

  /** `\n\n🏷️ ${tags.join(', ')}` when there are tags. */
  function TagsPart(tags: seq<string>): (r: string)
    ensures tags == [] <==> r == []
  {
    if tags == [] then "" else TagsMark + Join(tags, ", ")
  }

  /** The plain format, the default one. */
  function Plain(title: string, summary: string, actions: seq<string>, tags: seq<string>,
                 sourceUrl: Option<string>): (r: string)
    ensures PlainHead(title, summary) + Numbered(actions) <= r
    ensures |r| >= |Footer| && r[|r| - |Footer|..] == Footer
    ensures tags != [] ==> Contains(r, TagsMark + Join(tags, ", "))
    ensures !Falsy(sourceUrl) ==> Contains(r, "\n\n" + SourceLabel + sourceUrl.value)
    ensures tags == [] && Falsy(sourceUrl) ==> |r| == |PlainHead(title, summary) + Numbered(actions)| + |Footer|
  {
    var head := PlainHead(title, summary) + Numbered(actions);
    OptionalPartsOccur(head, TagsPart(tags), SourcePart(SourceLabel, sourceUrl));
    head + TagsPart(tags) + SourcePart(SourceLabel, sourceUrl) + Footer
  }

  /** Both optional parts occur in the text they are assembled into. */
  lemma OptionalPartsOccur(head: string, tagsPart: string, sourcePart: string)
    ensures Contains(head + tagsPart + sourcePart + Footer, tagsPart)
    ensures Contains(head + tagsPart + sourcePart + Footer, sourcePart)
  {
    ContainsSelf(tagsPart);
    ContainsWithin(head, tagsPart, sourcePart + Footer, tagsPart);
    assert head + tagsPart + (sourcePart + Footer) == head + tagsPart + sourcePart + Footer;
    ContainsSelf(sourcePart);
    ContainsWithin(head + tagsPart, sourcePart, Footer, sourcePart);
  }

  /** Without tags and without a source the plain text is the heading, the
      actions and the footer, with nothing in between. */
  lemma PlainWithoutExtras(title: string, summary: string, actions: seq<string>, sourceUrl: Option<string>)
    requires Falsy(sourceUrl)
    ensures Plain(title, summary, actions, [], sourceUrl) == PlainHead(title, summary) + Numbered(actions) + Footer
  {
    var r := Plain(title, summary, actions, [], sourceUrl);
    var h := PlainHead(title, summary) + Numbered(actions);
    assert r == r[..|h|] + r[|h|..];
    assert r[..|h|] == h;
    assert r[|h|..] == Footer;
  }

  datatype Format = PlainFormat | CompactFormat

  /** `generateShareText(format = 'plain')`. */
  function ShareText(format: Option<Format>, title: string, summary: string, actions: seq<string>,
                     tags: seq<string>, sourceUrl: Option<string>): (r: string)
    ensures format != Some(CompactFormat) ==> r == Plain(title, summary, actions, tags, sourceUrl)
    ensures format == Some(CompactFormat) ==> r == Compact(title, summary, actions, sourceUrl)
  {
    match format.GetOr(PlainFormat)
    case CompactFormat => Compact(title, summary, actions, sourceUrl)
    case PlainFormat => Plain(title, summary, actions, tags, sourceUrl)
  }

  /** The SMS text: the first 100 characters of the summary and "...",
      and the first two actions, in the compact format. */
  function Sms(title: string, summary: string, actions: seq<string>, sourceUrl: Option<string>): (r: string)
    ensures var shown := if |actions| <= 2 then actions else actions[..2];
      r == Compact(title, Take(summary, 100) + "...", shown, sourceUrl)
  {
    var shown := if |actions| <= 2 then actions else actions[..2];
    title + "\n\n" + Take(summary, 100) + "...\n\n" + Numbered(shown) + SourcePart("", sourceUrl)
  }

  /** The SMS text opens with the title and at most the first 100
      characters of the summary, marked with "..."; a summary of at most
      100 characters appears whole. */
  lemma SmsShortensSummary(title: string, summary: string, actions: seq<string>, sourceUrl: Option<string>)
    ensures exists cut :: (cut <= summary && |cut| == (if |summary| < 100 then |summary| else 100)
      && title + "\n\n" + cut + "...\n\n" <= Sms(title, summary, actions, sourceUrl))
    ensures |summary| <= 100 ==> title + "\n\n" + summary + "..." <= Sms(title, summary, actions, sourceUrl)
  {
    var cut := Take(summary, 100);
    var shown := if |actions| <= 2 then actions else actions[..2];
    var head := title + "\n\n" + cut + "...\n\n";
    var r := Sms(title, summary, actions, sourceUrl);
    Assoc(head, Numbered(shown), SourcePart("", sourceUrl));
    PrefixOfConcat(head, Numbered(shown) + SourcePart("", sourceUrl));
    assert head <= r;
    assert cut <= summary;
    if |summary| <= 100 {
      assert cut == summary;
      var opening := title + "\n\n" + summary + "...";
      assert head == opening + "\n\n";
      PrefixOfConcat(opening, "\n\n");
      assert opening <= r by {
        assert r[..|opening|] == head[..|opening|];
      }
    }
  }

  /** The SMS text lists at most two actions. */
  lemma SmsListsTwoActions(title: string, summary: string, actions: seq<string>)
    requires |actions| >= 2
    requires forall k :: 0 <= k < |actions| ==> '\n' !in actions[k]
    ensures Sms(title, summary, actions, None)
         == title + "\n\n" + Take(summary, 100) + "...\n\n" + Numbered(actions[..2])
    ensures |Split(Numbered(actions[..2]), '\n')| == 2
  {
    if |actions| == 2 {
      assert actions[..2] == actions;
    }
    NumberedSplitsBack(actions[..2]);
  }
}

=== FILE: strings.dfy ===
/** The string primitives of JavaScript that the modelled code relies on:
    `includes`, `startsWith`, `indexOf`/`lastIndexOf`, `split` on one
    character, `join`, global `replace` with a literal pattern, `trim`,
    `toLowerCase`, `substring(0, n)` and number-to-decimal rendering. */
module Strings {
  import opened Wrappers

  // ---------------------------------------------------------------------
  // Character classes
  // ---------------------------------------------------------------------

  /** The characters JavaScript's `\s` and `String.prototype.trim` treat as
      white space: WhiteSpace plus LineTerminator of ECMA-262. */
  predicate IsSpace(c: char) {
    c == ' ' || c == '\t' || c == '\n' || c == '\r' || c == '\U{000B}' || c == '\U{000C}'
    || c == '\U{00A0}' || c == '\U{1680}' || ('\U{2000}' <= c <= '\U{200A}')
    || c == '\U{2028}' || c == '\U{2029}' || c == '\U{202F}' || c == '\U{205F}'
    || c == '\U{3000}' || c == '\U{FEFF}'
  }

  /** The characters a regular-expression `.` does not match. */
  predicate IsLineTerminator(c: char) {
    c == '\n' || c == '\r' || c == '\U{2028}' || c == '\U{2029}'
  }

  predicate IsDigit(c: char) {
    '0' <= c <= '9'
  }

  /** Regular-expression `\w`. */
  predicate IsWordChar(c: char) {
    ('a' <= c <= 'z') || ('A' <= c <= 'Z') || IsDigit(c) || c == '_'
  }

  predicate IsHexDigit(c: char) {
    IsDigit(c) || ('a' <= c <= 'f')
  }

  predicate AllDigits(s: string) {
    forall i :: 0 <= i < |s| ==> IsDigit(s[i])
  }

  // ---------------------------------------------------------------------
  // Substring search
  // ---------------------------------------------------------------------

  predicate OccursAt(s: string, p: string, i: nat) {
    i + |p| <= |s| && s[i..i + |p|] == p
  }

  /** `s.includes(p)`. */
  predicate Contains(s: string, p: string) {
    exists i: nat | i <= |s| :: OccursAt(s, p, i)
  }

  lemma ContainsEmpty(s: string)
    ensures Contains(s, [])
  {
    assert OccursAt(s, [], 0);
  }

  /** A pattern holding a character the text lacks cannot occur in it. */
  lemma MissingCharNotContained(s: string, p: string, c: char)
    requires c in p && c !in s
    ensures !Contains(s, p)
  {
    var k :| 0 <= k < |p| && p[k] == c;
    forall i: nat | i <= |s| ensures !OccursAt(s, p, i) {
      if i + |p| <= |s| {
        assert s[i..i + |p|][k] == s[i + k];
        assert s[i + k] in s;
      }
    }
  }

  lemma ContainsInfix(a: string, b: string, c: string)
    ensures Contains(a + b + c, b)
  {
    assert (a + b + c)[|a|..|a| + |b|] == b;
    assert OccursAt(a + b + c, b, |a|);
  }

  lemma ContainsSelf(s: string)
    ensures Contains(s, s)
  {
    ContainsInfix([], s, []);
    assert [] + s + [] == s;
  }

  /** An occurrence inside a part is an occurrence in the whole. */
  lemma ContainsWithin(a: string, b: string, c: string, p: string)
    requires Contains(b, p)
    ensures Contains(a + b + c, p)
  {
    var i: nat :| i <= |b| && OccursAt(b, p, i);
    assert (a + b + c)[|a| + i..|a| + i + |p|] == b[i..i + |p|];
    assert OccursAt(a + b + c, p, |a| + i);
  }

  /** A text starts with its first part. */
  lemma PrefixOfConcat(a: string, b: string)
    ensures a <= a + b
  {
    assert (a + b)[..|a|] == a;
  }

  /** A text ends with its last part. */
  lemma SuffixOfConcat(a: string, b: string)
    ensures |b| <= |a + b| && (a + b)[|a + b| - |b|..] == b
  {
  }

  lemma Assoc(a: string, b: string, c: string)
    ensures a + (b + c) == a + b + c
  {
  }

  // ---------------------------------------------------------------------
  // indexOf / lastIndexOf / split / join
  // ---------------------------------------------------------------------

  /** `s.indexOf(c)`, with `None` for -1. */
  function IndexOfChar(s: string, c: char): (r: Option<nat>)
    ensures r.None? <==> c !in s
    ensures r.Some? ==> r.value < |s| && s[r.value] == c && c !in s[..r.value]
    decreases |s|
  {
    if s == [] then None
    else if s[0] == c then Some(0)
    else match IndexOfChar(s[1..], c)
      case None => None
      case Some(i) => assert s[1..][..i] == s[1..i + 1]; Some(i + 1)
  }

  /** `s.lastIndexOf(c)`, with `None` for -1. */
  function LastIndexOfChar(s: string, c: char): (r: Option<nat>)
    ensures r.None? <==> c !in s
    ensures r.Some? ==> r.value < |s| && s[r.value] == c && c !in s[r.value + 1..]
    decreases |s|
  {
    if s == [] then None
    else if s[|s| - 1] == c then Some(|s| - 1)
    else
      var r := LastIndexOfChar(s[..|s| - 1], c);
      assert r.Some? ==> s[r.value + 1..] == s[..|s| - 1][r.value + 1..] + [s[|s| - 1]];
      r
  }

  /** `s.split(c)` for a one-character separator. */
  function Split(s: string, c: char): (r: seq<string>)
    ensures |r| >= 1
    decreases |s|
  {
    match IndexOfChar(s, c)
    case None => [s]
    case Some(i) => [s[..i]] + Split(s[i + 1..], c)
  }

  /** `xs.join(sep)`. */
  function Join(xs: seq<string>, sep: string): string
    decreases |xs|
  {
    if |xs| == 0 then []
    else if |xs| == 1 then xs[0]
    else xs[0] + sep + Join(xs[1..], sep)
  }

  /** Splitting a join on a separator character the parts never contain
      gives the parts back. */
  lemma {:induction false} SplitJoin(xs: seq<string>, c: char)
    requires |xs| >= 1
    requires forall i :: 0 <= i < |xs| ==> c !in xs[i]
    ensures Split(Join(xs, [c]), c) == xs
    decreases |xs|
  {
    if |xs| == 1 {
      assert Join(xs, [c]) == xs[0];
    } else {
      assert Join(xs, [c]) == xs[0] + [c] + Join(xs[1..], [c]);
      SplitAtFirst(xs[0], c, Join(xs[1..], [c]));
      assert forall i :: 0 <= i < |xs[1..]| ==> xs[1..][i] == xs[i + 1];
      SplitJoin(xs[1..], c);
      assert xs == [xs[0]] + xs[1..];
    }
  }

  /** A part without the separator, the separator, then the rest: the part is
      the first piece. */
  lemma SplitAtFirst(a: string, c: char, rest: string)
    requires c !in a
    ensures Split(a + [c] + rest, c) == [a] + Split(rest, c)
  {
    var s := a + [c] + rest;
    assert s[|a|] == c;
    assert s[..|a|] == a;
    assert IndexOfChar(s, c) == Some(|a|);
    assert s[|a| + 1..] == rest;
  }

  /** Joining the pieces of a split with the same character restores the text. */
  lemma {:induction false} JoinSplit(s: string, c: char)
    ensures Join(Split(s, c), [c]) == s
    decreases |s|
  {
    match IndexOfChar(s, c)
    case None =>
    case Some(i) =>
      var tail := Split(s[i + 1..], c);
      JoinSplit(s[i + 1..], c);
      assert Split(s, c) == [s[..i]] + tail;
      assert ([s[..i]] + tail)[1..] == tail;
      assert s == s[..i] + [c] + s[i + 1..];
  }

  /** Every part appears in the joined text. */
  lemma {:induction false} JoinContainsPart(xs: seq<string>, sep: string, k: nat)
    requires k < |xs|
    ensures Contains(Join(xs, sep), xs[k])
    decreases |xs|
  {
    if |xs| == 1 {
      ContainsSelf(xs[0]);
    } else if k == 0 {
      ContainsInfix([], xs[0], sep + Join(xs[1..], sep));
      assert [] + xs[0] + (sep + Join(xs[1..], sep)) == Join(xs, sep);
    } else {
      JoinContainsPart(xs[1..], sep, k - 1);
      ContainsWithin(xs[0] + sep, Join(xs[1..], sep), [], xs[k]);
      assert xs[0] + sep + Join(xs[1..], sep) + [] == Join(xs, sep);
    }
  }

  /** A joined text with a prefix part starts with that part. */
  lemma JoinStartsWithFirst(xs: seq<string>, sep: string)
    requires |xs| >= 1
    ensures xs[0] <= Join(xs, sep)
  {
  }

  // ---------------------------------------------------------------------
  // Global replace with a literal pattern
  // ---------------------------------------------------------------------

  /** `s.replace(/pat/g, rep)` for a pattern without metacharacters:
      left-to-right, non-overlapping, the replacement is never rescanned. */
  function ReplaceAll(s: string, pat: string, rep: string): string
    requires pat != []
    decreases |s|
  {
    if s == [] then []
    else if pat <= s then rep + ReplaceAll(s[|pat|..], pat, rep)
    else [s[0]] + ReplaceAll(s[1..], pat, rep)
  }

  /** `s.replace(pat, rep)` with a string pattern: first occurrence only. */
  function ReplaceFirst(s: string, pat: string, rep: string): string
    requires pat != []
    decreases |s|
  {
    if s == [] then []
    else if pat <= s then rep + s[|pat|..]
    else [s[0]] + ReplaceFirst(s[1..], pat, rep)
  }

  /** A text without the pattern's first character passes through unchanged
      and does not disturb what follows it. */
  lemma {:induction false} ReplaceAllPlain(a: string, t: string, pat: string, rep: string)
    requires pat != [] && pat[0] !in a
    ensures ReplaceAll(a + t, pat, rep) == a + ReplaceAll(t, pat, rep)
    decreases |a|
  {
    if a != [] {
      assert a[0] in a;
      assert (a + t)[0] == a[0];
      assert !(pat <= a + t);
      assert (a + t)[1..] == a[1..] + t;
      assert ReplaceAll(a + t, pat, rep) == [a[0]] + ReplaceAll(a[1..] + t, pat, rep);
      ReplaceAllPlain(a[1..], t, pat, rep);
      assert a == [a[0]] + a[1..];
    } else {
      assert a + t == t;
    }
  }

  /** A unit that starts like the pattern but does not match it (and holds
      the pattern's first character nowhere else) passes through unchanged. */
  lemma ReplaceAllMismatch(e: string, t: string, pat: string, rep: string)
    requires pat != [] && |e| >= 1 && pat[0] !in e[1..]
    requires !(pat <= e + t)
    ensures ReplaceAll(e + t, pat, rep) == e + ReplaceAll(t, pat, rep)
  {
    assert (e + t)[1..] == e[1..] + t;
    ReplaceAllPlain(e[1..], t, pat, rep);
    assert e == [e[0]] + e[1..];
  }

  /** An exact occurrence at the front is replaced. */
  lemma ReplaceAllHit(t: string, pat: string, rep: string)
    requires pat != []
    ensures ReplaceAll(pat + t, pat, rep) == rep + ReplaceAll(t, pat, rep)
  {
    assert (pat + t)[|pat|..] == t;
  }

  /** Replacing a single character by a text without it removes it entirely. */
  lemma {:induction false} ReplaceAllRemovesChar(s: string, c: char, rep: string)
    requires c !in rep
    ensures c !in ReplaceAll(s, [c], rep)
    decreases |s|
  {
    if s != [] {
      ReplaceAllRemovesChar(s[1..], c, rep);
      if [c] <= s {
        assert s[1..] == s[|[c]|..];
      } else {
        assert s[0] != c;
      }
    }
  }

  /** Replacing a character the text lacks changes nothing. */
  lemma {:induction false} ReplaceAllAbsentChar(s: string, c: char, rep: string)
    requires c !in s
    ensures ReplaceAll(s, [c], rep) == s
    decreases |s|
  {
    if s != [] {
      assert s[0] != c;
      assert !([c] <= s);
      ReplaceAllAbsentChar(s[1..], c, rep);
      assert s == [s[0]] + s[1..];
    }
  }

  // ---------------------------------------------------------------------
  // trim
  // ---------------------------------------------------------------------

  /** `r` is the contiguous part of `s` that starts at index `k`. */
  predicate IsSliceAt(r: string, s: string, k: nat) {
    k + |r| <= |s| && r == s[k..k + |r|]
  }

  function TrimStart(s: string): (r: string)
    ensures |r| <= |s| && r == s[|s| - |r|..]
    ensures forall j :: 0 <= j < |s| - |r| ==> IsSpace(s[j])
    ensures r == [] || !IsSpace(r[0])
    decreases |s|
  {
    if s != [] && IsSpace(s[0]) then TrimStart(s[1..]) else s
  }

  function TrimEnd(s: string): (r: string)
    ensures |r| <= |s| && r == s[..|r|]
    ensures forall j :: |r| <= j < |s| ==> IsSpace(s[j])
    ensures r == [] || !IsSpace(r[|r| - 1])
    decreases |s|
  {
    if s != [] && IsSpace(s[|s| - 1]) then TrimEnd(s[..|s| - 1]) else s
  }

  /** `s.trim()`: the text between the first and the last non-space characters. */
  function Trim(s: string): (r: string)
    ensures r == [] || (!IsSpace(r[0]) && !IsSpace(r[|r| - 1]))
    ensures exists k: nat | k <= |s| :: IsSliceAt(r, s, k)
  {
    var a := TrimStart(s);
    var r := TrimEnd(a);
    assert IsSliceAt(r, s, |s| - |a|);
    r
  }

  /** A blank request field: absent, or only white space after `trim`. */
  predicate Blank(s: Option<string>) {
    s.None? || Trim(s.value) == []
  }

  /** JavaScript falsiness of an optional text field: absent or empty. */
  /** `${s}` of a text that may be null: a missing text renders as "null". */
  function NullableText(s: Option<string>): string {
    if s.Some? then s.value else "null"
  }

  predicate Falsy(s: Option<string>) {
    s.None? || s.value == []
  }

  /** A blank text (nothing left after `trim`) is exactly an all-space text. */
  lemma TrimEmptyIff(s: string)
    ensures Trim(s) == [] <==> forall i :: 0 <= i < |s| ==> IsSpace(s[i])
  {
    var a := TrimStart(s);
    if Trim(s) == [] {
      assert a == [];
    }
  }

  /** A text with no white space at either end is its own trim. */
  lemma TrimIdentity(s: string)
    requires s == [] || (!IsSpace(s[0]) && !IsSpace(s[|s| - 1]))
    ensures Trim(s) == s
  {
  }

  // ---------------------------------------------------------------------
  // Case, prefixes and numbers
  // ---------------------------------------------------------------------

  /** `toLowerCase` on one character, for the ASCII and Latin-1 capital
      letters only: every other character is kept as it is. */
  function LowerChar(c: char): char {
    if 'A' <= c <= 'Z' || ('\U{00C0}' <= c <= '\U{00DE}' && c != '\U{00D7}') then
      (c as int + 32) as char
    else c
  }

  /** `s.toLowerCase()` restricted to ASCII and Latin-1, letter by letter.
      JavaScript also lowers the capitals of every other script, and a few
      (such as U+0130) become two characters; this model keeps them. */
  function ToLower(s: string): (r: string)
    ensures |r| == |s|
    ensures forall i :: 0 <= i < |s| ==> r[i] == LowerChar(s[i])
  {
    seq(|s|, i requires 0 <= i < |s| => LowerChar(s[i]))
  }

  /** `s.substring(0, n)`. */
  function Take(s: string, n: nat): (r: string)
    ensures |r| == if |s| < n then |s| else n
    ensures r <= s
  {
    if |s| <= n then s else s[..n]
  }

  function DigitChar(d: nat): (c: char)
    requires d < 10
    ensures IsDigit(c)
  {
    ('0' as int + d) as char
  }

  function DigitValue(c: char): (d: nat)
    requires IsDigit(c)
    ensures d < 10 && DigitChar(d) == c
  {
    c as int - '0' as int
  }

  /** Decimal rendering of a non-negative integer, as `String(n)`. */
  function NatToString(n: nat): (r: string)
    ensures |r| >= 1 && AllDigits(r)
    decreases n
  {
    if n < 10 then [DigitChar(n)] else NatToString(n / 10) + [DigitChar(n % 10)]
  }

  /** Decimal rendering of an integer, as `String(n)`. */
  function IntToString(n: int): (r: string)
    ensures |r| >= 1
  {
    if n < 0 then "-" + NatToString(-n) else NatToString(n)
  }

  /** The value of a run of decimal digits. */
  function DigitsValue(s: string): nat
    requires AllDigits(s)
    decreases |s|
  {
    if s == [] then 0 else DigitsValue(s[..|s| - 1]) * 10 + DigitValue(s[|s| - 1])
  }

  /** Reading back a rendered natural number gives the number. */
  lemma {:induction false} DigitsValueOfNatToString(n: nat)
    ensures DigitsValue(NatToString(n)) == n
    decreases n
  {
    var r := NatToString(n);
    if n >= 10 {
      DigitsValueOfNatToString(n / 10);
      assert r[..|r| - 1] == NatToString(n / 10);
    }
  }

  /** Length of the longest all-digit prefix. */
  function DigitRun(s: string): (k: nat)
    ensures k <= |s| && AllDigits(s[..k])
    ensures k == |s| || !IsDigit(s[k])
    decreases |s|
  {
    if s != [] && IsDigit(s[0]) then
      var k := 1 + DigitRun(s[1..]);
      assert s[..k] == [s[0]] + s[1..][..k - 1];
      k
    else 0
  }

  lemma DigitRunAll(s: string)
    requires AllDigits(s)
    ensures DigitRun(s) == |s|
  {
  }

  /** `parseInt(s, 10)`: leading white space, an optional sign and the
      longest digit run; `None` stands for `NaN`. */
  function ParseInt(s: string): (r: Option<int>)
  {
    var t := TrimStart(s);
    var neg := t != [] && t[0] == '-';
    var u := if t != [] && (t[0] == '-' || t[0] == '+') then t[1..] else t;
    var k := DigitRun(u);
    var v: int := if k == 0 then 0 else DigitsValue(u[..k]);
    if k == 0 then None
    else if neg then Some(-v)
    else Some(v)
  }

  /** `parseInt(String(n), 10) == n`: the decimal rendering round-trips. */
  lemma ParseIntOfIntToString(n: int)
    ensures ParseInt(IntToString(n)) == Some(n)
  {
    var digits := NatToString(if n < 0 then -n else n);
    DigitRunAll(digits);
    DigitsValueOfNatToString(if n < 0 then -n else n);
    assert digits[..|digits|] == digits;
    assert !IsSpace(digits[0]);
    if n < 0 {
      var s := IntToString(n);
      assert s == "-" + digits;
      assert !IsSpace(s[0]);
      assert TrimStart(s) == s;
      assert s[1..] == digits;
    } else {
      assert TrimStart(digits) == digits;
      assert digits[0] != '-' && digits[0] != '+';
    }
  }
}

=== FILE: twitter.dfy ===
/** The tweet fetcher of the self-hosted server: three public endpoints
    (fxtwitter, vxtwitter, the syndication embed API) tried in that order,
    each normalised to one tweet record; the extraction of the tweet id
    from a URL; and the text block handed to the model. */
module Twitter {
  import opened Wrappers
  import opened Strings
  import opened Json
  import opened Http
  import opened Fallback

  /** The normalised tweet. Fields keep whatever JSON value the endpoint
      sent, as `a || default` does. */
  datatype Tweet = Tweet(author: JsonValue, handle: JsonValue, text: JsonValue,
                         likes: JsonValue, retweets: JsonValue)

  const UnknownAuthor: JsonValue := JStr("Desconocido")
  const UnknownHandle: JsonValue := JStr("unknown")

  /** `data.key` where `data` came from `response.json()`: reading from
      `null` throws. */
  function Read(data: JsonValue, key: string): Result<Option<JsonValue>, string> {
    if data == JNull then Failure(NullReadMessage(key)) else Success(Prop(data, key))
  }

  /** The parsed body of a successful response, or the error thrown on the way. */
  function Body(httpPrefix: string, resp: Fetched, parse: Parser): (r: Result<JsonValue, string>)
    ensures resp.NetworkError? ==> r == Failure(resp.message)
    ensures resp.Response? && !Ok(resp.status) ==> r == Failure(httpPrefix + IntToString(resp.status))
    ensures resp.Response? && Ok(resp.status) ==> r == parse(resp.body)
  {
    match resp
    case NetworkError(m) => Failure(m)
    case Response(status, body) =>
      if !Ok(status) then Failure(httpPrefix + IntToString(status))
      else parse(body)
  }

  /** A field normalised as `read || default`: a truthy value is copied, a
      falsy or missing one gives the default. */
  predicate Normalised(field: JsonValue, read: Option<JsonValue>, default: JsonValue) {
    (Truthy(read) ==> field == read.value) && (!Truthy(read) ==> field == default)
  }

  /** How fxtwitter's `tweet` object becomes the record. */
  predicate FxFields(t: Tweet, tw: JsonValue) {
    Normalised(t.author, OptProp(Prop(tw, "author"), "name"), UnknownAuthor)
    && Normalised(t.handle, OptProp(Prop(tw, "author"), "screen_name"), UnknownHandle)
    && (Truthy(Prop(tw, "text")) ==> t.text == Prop(tw, "text").value)
    && (!Truthy(Prop(tw, "text")) ==> Normalised(t.text, OptProp(Prop(tw, "raw_text"), "text"), JStr("")))
    && Normalised(t.likes, Prop(tw, "likes"), JNum(0))
    && Normalised(t.retweets, Prop(tw, "retweets"), JNum(0))
  }

  const FxHttp: string := "fxtwitter HTTP "
  const VxHttp: string := "vxtwitter HTTP "
  const SyndicationHttp: string := "syndication HTTP "

  /** fxtwitter: the body must carry `code` 200 and a truthy `tweet`. */
  function FromFx(resp: Fetched, parse: Parser): (r: Result<Tweet, string>)
    ensures resp.Response? && !Ok(resp.status) ==> r == Failure(FxHttp + IntToString(resp.status))
    ensures Body(FxHttp, resp, parse).Failure? ==> r == Failure(Body(FxHttp, resp, parse).error)
    ensures Body(FxHttp, resp, parse) == Success(JNull) ==> r == Failure(NullReadMessage("code"))
    ensures var b := Body(FxHttp, resp, parse);
      b.Success? && b.value != JNull ==>
      var code := Prop(b.value, "code");
      (r.Failure? <==> code != Some(JNum(200)) || !Truthy(Prop(b.value, "tweet")))
      && (r.Failure? ==> r.error == "Tweet not found (code: " + Display(code) + ")")
      && (r.Success? ==> FxFields(r.value, Prop(b.value, "tweet").value))
    ensures r.Success? ==> Truthy(Some(r.value.author)) && Truthy(Some(r.value.handle))
  {
    var data :- Body(FxHttp, resp, parse);
    var code :- Read(data, "code");
    // once `data.code` was read, `data` is not null and `data.tweet` cannot throw
    var tweet := Prop(data, "tweet");
    if code != Some(JNum(200)) || !Truthy(tweet) then
      Failure("Tweet not found (code: " + Display(code) + ")")
    else
      var t := tweet.value;
      Success(Tweet(
        OrElse(OptProp(Prop(t, "author"), "name"), UnknownAuthor),
        OrElse(OptProp(Prop(t, "author"), "screen_name"), UnknownHandle),
        OrElse(Prop(t, "text"), OrElse(OptProp(Prop(t, "raw_text"), "text"), JStr(""))),
        OrElse(Prop(t, "likes"), JNum(0)),
        OrElse(Prop(t, "retweets"), JNum(0))))
  }

  /** How a vxtwitter body becomes the record. */
  predicate VxFields(t: Tweet, data: JsonValue) {
    Normalised(t.author, Prop(data, "user_name"), UnknownAuthor)
    && Normalised(t.handle, Prop(data, "user_screen_name"), UnknownHandle)
    && Normalised(t.text, Prop(data, "text"), JStr(""))
    && Normalised(t.likes, Prop(data, "likes"), JNum(0))
    && Normalised(t.retweets, Prop(data, "retweets"), JNum(0))
  }

  /** vxtwitter: the body must carry a truthy `text`. */
  function FromVx(resp: Fetched, parse: Parser): (r: Result<Tweet, string>)
    ensures resp.Response? && !Ok(resp.status) ==> r == Failure(VxHttp + IntToString(resp.status))
    ensures Body(VxHttp, resp, parse).Failure? ==> r == Failure(Body(VxHttp, resp, parse).error)
    ensures Body(VxHttp, resp, parse) == Success(JNull) ==> r == Failure(NullReadMessage("text"))
    ensures var b := Body(VxHttp, resp, parse);
      b.Success? && b.value != JNull ==>
      (r.Failure? <==> !Truthy(Prop(b.value, "text")))
      && (r.Failure? ==> r.error == "Tweet content not found")
      && (r.Success? ==> VxFields(r.value, b.value))
    ensures r.Success? ==>
      Truthy(Some(r.value.author)) && Truthy(Some(r.value.handle)) && Truthy(Some(r.value.text))
  {
    var data :- Body(VxHttp, resp, parse);
    var text :- Read(data, "text");
    if !Truthy(text) then Failure("Tweet content not found")
    else
      Success(Tweet(
        OrElse(Prop(data, "user_name"), UnknownAuthor),
        OrElse(Prop(data, "user_screen_name"), UnknownHandle),
        OrElse(text, JStr("")),
        OrElse(Prop(data, "likes"), JNum(0)),
        OrElse(Prop(data, "retweets"), JNum(0))))
  }

  /** How a syndication body becomes the record. */
  predicate SyndicationFields(t: Tweet, data: JsonValue) {
    Normalised(t.author, OptProp(Prop(data, "user"), "name"), UnknownAuthor)
    && Normalised(t.handle, OptProp(Prop(data, "user"), "screen_name"), UnknownHandle)
    && Normalised(t.text, Prop(data, "text"), JStr(""))
    && Normalised(t.likes, Prop(data, "favorite_count"), JNum(0))
    && Normalised(t.retweets, Prop(data, "retweet_count"), JNum(0))
  }

  /** Syndication: the body must carry a truthy `text`; counts are named
      `favorite_count` and `retweet_count`. */
  function FromSyndication(resp: Fetched, parse: Parser): (r: Result<Tweet, string>)
    ensures resp.Response? && !Ok(resp.status) ==> r == Failure(SyndicationHttp + IntToString(resp.status))
    ensures Body(SyndicationHttp, resp, parse).Failure? ==> r == Failure(Body(SyndicationHttp, resp, parse).error)
    ensures Body(SyndicationHttp, resp, parse) == Success(JNull) ==> r == Failure(NullReadMessage("text"))
    ensures var b := Body(SyndicationHttp, resp, parse);
      b.Success? && b.value != JNull ==>
      (r.Failure? <==> !Truthy(Prop(b.value, "text")))
      && (r.Failure? ==> r.error == "Tweet content not found in syndication")
      && (r.Success? ==> SyndicationFields(r.value, b.value))
    ensures r.Success? ==>
      Truthy(Some(r.value.author)) && Truthy(Some(r.value.handle)) && Truthy(Some(r.value.text))
  {
    var data :- Body(SyndicationHttp, resp, parse);
    var text :- Read(data, "text");
    if !Truthy(text) then Failure("Tweet content not found in syndication")
    else
      Success(Tweet(
        OrElse(OptProp(Prop(data, "user"), "name"), UnknownAuthor),
        OrElse(OptProp(Prop(data, "user"), "screen_name"), UnknownHandle),
        OrElse(text, JStr("")),
        OrElse(Prop(data, "favorite_count"), JNum(0)),
        OrElse(Prop(data, "retweet_count"), JNum(0))))
  }

  /** A fxtwitter tweet that carries only its text gets the unknown author
      and handle and zero counts. */
  lemma FxDefaults(resp: Fetched, parse: Parser, text: string)
    requires text != []
    requires Body(FxHttp, resp, parse)
      == Success(JObj(map["code" := JNum(200), "tweet" := JObj(map["text" := JStr(text)])]))
    ensures FromFx(resp, parse) == Success(Tweet(UnknownAuthor, UnknownHandle, JStr(text), JNum(0), JNum(0)))
  {
    var tw := JObj(map["text" := JStr(text)]);
    assert Prop(tw, "author").None? && Prop(tw, "likes").None? && Prop(tw, "retweets").None?;
  }

  /** vxtwitter and the syndication API name the same facts differently:
      bodies that carry the same values under their own names give the same
      record, or fail together. */
  lemma VxSyndicationAgree(vx: Fetched, syn: Fetched, parse: Parser)
    requires Body(VxHttp, vx, parse).Success? && Body(SyndicationHttp, syn, parse).Success?
    requires var v, d := Body(VxHttp, vx, parse).value, Body(SyndicationHttp, syn, parse).value;
      v != JNull && d != JNull
      && Prop(v, "text") == Prop(d, "text")
      && Prop(v, "user_name") == OptProp(Prop(d, "user"), "name")
      && Prop(v, "user_screen_name") == OptProp(Prop(d, "user"), "screen_name")
      && Prop(v, "likes") == Prop(d, "favorite_count")
      && Prop(v, "retweets") == Prop(d, "retweet_count")
    ensures FromVx(vx, parse).Success? <==> FromSyndication(syn, parse).Success?
    ensures FromVx(vx, parse).Success? ==> FromVx(vx, parse).value == FromSyndication(syn, parse).value
  {
  }

  function FxUrl(id: string): string { "https://api.fxtwitter.com/status/" + id }
  function VxUrl(id: string): string { "https://api.vxtwitter.com/status/" + id }
  function SyndicationUrl(id: string): string { "https://cdn.syndication.twimg.com/tweet-result?id=" + id }

  /** The three methods in the order they are tried. */
  function TweetAttempts(id: string, fetch: Fetcher, parse: Parser): seq<Attempt<Tweet>> {
    [Attempt("fxtwitter", FromFx(fetch(FxUrl(id)), parse)),
     Attempt("vxtwitter", FromVx(fetch(VxUrl(id)), parse)),
     Attempt("syndication", FromSyndication(fetch(SyndicationUrl(id)), parse))]
  }

  const AllFailedPrefix: string := "No se pudo obtener el tweet. Intentos fallidos: "

  /** `fetchTweet`: the first method that yields a tweet, else an error that
      lists every method with its reason. */
  function FetchTweet(id: string, fetch: Fetcher, parse: Parser): (r: Result<Tweet, string>)
    ensures r.Success? ==>
      r == FromFx(fetch(FxUrl(id)), parse)
      || (FromFx(fetch(FxUrl(id)), parse).Failure? && r == FromVx(fetch(VxUrl(id)), parse))
      || (FromFx(fetch(FxUrl(id)), parse).Failure? && FromVx(fetch(VxUrl(id)), parse).Failure? && r == FromSyndication(fetch(SyndicationUrl(id)), parse))
    ensures r.Failure? <==>
      FromFx(fetch(FxUrl(id)), parse).Failure? && FromVx(fetch(VxUrl(id)), parse).Failure? && FromSyndication(fetch(SyndicationUrl(id)), parse).Failure?
    ensures r.Failure? ==> AllFailedPrefix <= r.error
  {
    var attempts := TweetAttempts(id, fetch, parse);
    assert attempts[0].outcome == FromFx(fetch(FxUrl(id)), parse);
    assert attempts[1].outcome == FromVx(fetch(VxUrl(id)), parse);
    assert attempts[2].outcome == FromSyndication(fetch(SyndicationUrl(id)), parse);
    RunFindsAny(attempts);
    match Run(attempts)
    case Found(t, _, _) => Success(t)
    case Exhausted(errors) => Failure(AllFailedPrefix + Summary(errors))
  }

  /** When every endpoint fails, the error names each one with its reason. */
  lemma FetchTweetReportsAll(id: string, fetch: Fetcher, parse: Parser)
    requires FetchTweet(id, fetch, parse).Failure?
    ensures Contains(FetchTweet(id, fetch, parse).error, "fxtwitter: " + FromFx(fetch(FxUrl(id)), parse).error)
    ensures Contains(FetchTweet(id, fetch, parse).error, "vxtwitter: " + FromVx(fetch(VxUrl(id)), parse).error)
    ensures Contains(FetchTweet(id, fetch, parse).error, "syndication: " + FromSyndication(fetch(SyndicationUrl(id)), parse).error)
  {
    var attempts := TweetAttempts(id, fetch, parse);
    assert attempts[0].outcome == FromFx(fetch(FxUrl(id)), parse);
    assert attempts[1].outcome == FromVx(fetch(VxUrl(id)), parse);
    assert attempts[2].outcome == FromSyndication(fetch(SyndicationUrl(id)), parse);
    var errors := Run(attempts).errors;
    var msg := FetchTweet(id, fetch, parse).error;
    assert msg == AllFailedPrefix + Summary(errors);
    forall k | 0 <= k < 3
      ensures Contains(msg, errors[k].methodName + ": " + errors[k].error)
    {
      SummaryMentions(errors, k);
      ContainsWithin(AllFailedPrefix, Summary(errors), [], errors[k].methodName + ": " + errors[k].error);
      assert AllFailedPrefix + Summary(errors) + [] == msg;
    }
    assert "fxtwitter" + ": " == "fxtwitter: ";
    assert "vxtwitter" + ": " == "vxtwitter: ";
    assert "syndication" + ": " == "syndication: ";
    assert errors[0] == Failed("fxtwitter", FromFx(fetch(FxUrl(id)), parse).error);
    assert errors[1] == Failed("vxtwitter", FromVx(fetch(VxUrl(id)), parse).error);
    assert errors[2] == Failed("syndication", FromSyndication(fetch(SyndicationUrl(id)), parse).error);
  }

  // ---------------------------------------------------------------------
  // Tweet id
  // ---------------------------------------------------------------------

  /** Length of the longest run of `\w` characters at the front. */
  function WordRun(s: string): (k: nat)
    ensures k <= |s| && forall j :: 0 <= j < k ==> IsWordChar(s[j])
    ensures k == |s| || !IsWordChar(s[k])
    decreases |s|
  {
    if s != [] && IsWordChar(s[0]) then 1 + WordRun(s[1..]) else 0
  }

  /** The match of `(?:twitter\.com|x\.com)\/\w+\/status\/(\d+)` that starts
      at index 0, as its digit group. */
  function TweetIdHere(s: string): (r: Option<string>)
    ensures r.Some? ==> r.value != [] && AllDigits(r.value)
  {
    match AfterHost(s)
    case None => None
    case Some(u) => StatusDigits(u)
  }

  /** What follows `twitter.com/` or `x.com/` at index 0. */
  function AfterHost(s: string): (r: Option<string>)
    ensures r.Some? ==> |r.value| < |s| && r.value == s[|s| - |r.value|..]
  {
    if "twitter.com/" <= s then Some(s[12..])
    else if "x.com/" <= s then Some(s[6..])
    else None
  }

  /** `\w+\/status\/(\d+)` at index 0, as its digit group. */
  function StatusDigits(u: string): (r: Option<string>)
    ensures r.Some? ==> r.value != [] && AllDigits(r.value)
  {
    var w := WordRun(u);
    if w == 0 || !("/status/" <= u[w..]) then None
    else
      var v := u[w + 8..];
      var d := DigitRun(v);
      if d == 0 then None else Some(v[..d])
  }

  /** `getTweetId`: the digits of the leftmost match. */
  function GetTweetId(url: string): (r: Option<string>)
    ensures r.Some? ==> r.value != [] && AllDigits(r.value)
    decreases |url|
  {
    if url == [] then None
    else if TweetIdHere(url).Some? then TweetIdHere(url)
    else GetTweetId(url[1..])
  }

  /** A match starts at index `i` and at none before it. */
  predicate LeftmostAt(url: string, i: nat) {
    i < |url| && TweetIdHere(url[i..]).Some? && forall j :: 0 <= j < i ==> TweetIdHere(url[j..]).None?
  }

  /** A leftmost match in the tail, after a first character where none
      starts, is the leftmost match of the whole text. */
  lemma LeftmostShift(url: string, k: nat)
    requires url != [] && TweetIdHere(url).None? && LeftmostAt(url[1..], k)
    ensures LeftmostAt(url, k + 1) && TweetIdHere(url[k + 1..]) == TweetIdHere(url[1..][k..])
  {
    assert url[0..] == url;
    assert url[1..][k..] == url[k + 1..];
    forall j | 1 <= j < k + 1 ensures TweetIdHere(url[j..]).None? {
      assert url[1..][j - 1..] == url[j..];
    }
  }

  /** No match in the tail and none at the front: none anywhere. */
  lemma NoneShift(url: string)
    requires url != [] && TweetIdHere(url).None?
    requires forall i :: 0 <= i < |url[1..]| ==> TweetIdHere(url[1..][i..]).None?
    ensures forall i :: 0 <= i < |url| ==> TweetIdHere(url[i..]).None?
  {
    assert url[0..] == url;
    forall i | 1 <= i < |url| ensures TweetIdHere(url[i..]).None? {
      assert url[1..][i - 1..] == url[i..];
    }
  }

  /** `getTweetId` gives `null` exactly when the pattern matches nowhere, and
      otherwise the digits of the leftmost match. */
  lemma {:induction false} GetTweetIdLeftmost(url: string)
    ensures GetTweetId(url).None? <==> forall i :: 0 <= i < |url| ==> TweetIdHere(url[i..]).None?
    ensures GetTweetId(url).Some? ==> exists i: nat :: LeftmostAt(url, i) && GetTweetId(url) == TweetIdHere(url[i..])
    decreases |url|
  {
    if url == [] {
    } else if TweetIdHere(url).Some? {
      assert url[0..] == url;
      assert LeftmostAt(url, 0);
    } else {
      GetTweetIdLeftmost(url[1..]);
      if GetTweetId(url[1..]).Some? {
        var k: nat :| LeftmostAt(url[1..], k) && GetTweetId(url[1..]) == TweetIdHere(url[1..][k..]);
        LeftmostShift(url, k);
        assert LeftmostAt(url, k + 1);
      } else {
        NoneShift(url);
      }
    }
  }

  /** A run of `\w` characters followed by something else is read whole. */
  lemma {:induction false} WordRunOf(user: string, t: string)
    requires forall j :: 0 <= j < |user| ==> IsWordChar(user[j])
    requires t == [] || !IsWordChar(t[0])
    ensures WordRun(user + t) == |user|
    decreases |user|
  {
    if user != [] {
      assert (user + t)[1..] == user[1..] + t;
      WordRunOf(user[1..], t);
    } else {
      assert user + t == t;
    }
  }

  /** A run of digits followed by a non-digit is read whole. */
  lemma {:induction false} DigitRunOf(digits: string, t: string)
    requires AllDigits(digits)
    requires t == [] || !IsDigit(t[0])
    ensures DigitRun(digits + t) == |digits|
    decreases |digits|
  {
    if digits != [] {
      assert (digits + t)[1..] == digits[1..] + t;
      DigitRunOf(digits[1..], t);
    } else {
      assert digits + t == t;
    }
  }

  /** No match starts at a character that begins neither alternative. */
  lemma NoMatchHere(s: string)
    requires s != [] && s[0] != 'x' && (s[0] == 't' ==> |s| >= 2 && s[1] != 'w')
    ensures TweetIdHere(s).None?
  {
    assert "twitter.com/"[1] == 'w' && "x.com/"[0] == 'x';
  }

  /** A text whose first character begins neither alternative is searched
      from its second character on. */
  lemma SkipOne(u: string)
    requires u != [] && u[0] != 'x' && (u[0] == 't' ==> |u| >= 2 && u[1] != 'w')
    ensures GetTweetId(u) == GetTweetId(u[1..])
  {
    NoMatchHere(u);
  }

  /** The two hosts the pattern accepts, with the slash after them. */
  predicate TweetHost(host: string) {
    host == "twitter.com/" || host == "x.com/"
  }

  /** The id of a link that starts with a host, whatever follows the digits. */
  lemma GetTweetIdAtHost(host: string, user: string, digits: string, tail: string)
    requires TweetHost(host)
    requires user != [] && forall j :: 0 <= j < |user| ==> IsWordChar(user[j])
    requires digits != [] && AllDigits(digits)
    requires tail == [] || !IsDigit(tail[0])
    ensures TweetIdHere(host + user + "/status/" + digits + tail) == Some(digits)
  {
    var u := user + "/status/" + digits + tail;
    AfterTweetHost(host, u);
    assert host + user + "/status/" + digits + tail == host + u;
    StatusDigitsOf(user, digits, tail);
  }

  /** The text after a host is what follows it. */
  lemma AfterTweetHost(host: string, u: string)
    requires TweetHost(host)
    ensures AfterHost(host + u) == Some(u)
  {
    var link := host + u;
    assert host <= link;
    if host == "x.com/" {
      assert link[0] == 'x' && "twitter.com/"[0] == 't';
      assert link[6..] == u;
    } else {
      assert link[12..] == u;
    }
  }

  /** A user name, `/status/` and digits give the digits. */
  lemma StatusDigitsOf(user: string, digits: string, tail: string)
    requires user != [] && forall j :: 0 <= j < |user| ==> IsWordChar(user[j])
    requires digits != [] && AllDigits(digits)
    requires tail == [] || !IsDigit(tail[0])
    ensures StatusDigits(user + "/status/" + digits + tail) == Some(digits)
  {
    var after := "/status/" + digits + tail;
    var u := user + after;
    assert u == user + "/status/" + digits + tail;
    assert after[0] == '/';
    WordRunOf(user, after);
    assert u[|user|..] == after;
    assert "/status/" <= after;
    var v := u[|user| + 8..];
    assert v == digits + tail;
    DigitRunOf(digits, tail);
    assert v[..|digits|] == digits;
  }

  /** The id of a canonical status link on either host, whatever follows
      the digits. */
  lemma GetTweetIdOfStatusLink(host: string, user: string, digits: string, tail: string)
    requires TweetHost(host)
    requires user != [] && forall j :: 0 <= j < |user| ==> IsWordChar(user[j])
    requires digits != [] && AllDigits(digits)
    requires tail == [] || !IsDigit(tail[0])
    ensures GetTweetId("https://" + (host + user + "/status/" + digits + tail)) == Some(digits)
  {
    var link := host + user + "/status/" + digits + tail;
    assert link[0] == host[0];
    if host == "twitter.com/" {
      assert link[1] == host[1] == 'w';
    }
    SchemeSkipped(link);
    GetTweetIdAtHost(host, user, digits, tail);
    GetTweetIdAtStart(link);
  }

  /** No character of `p` begins a match, even with `link` after it: none
      is an `x`, and a `t` is followed by something other than `w`. */
  predicate Skippable(p: string, link: string) {
    link != [] && forall k :: 0 <= k < |p| ==>
      p[k] != 'x' && (p[k] == 't' ==> (p + link)[k + 1] != 'w')
  }

  /** A prefix no match can start in is searched past. */
  lemma {:induction false} SkipPrefix(p: string, link: string)
    requires |link| >= 1 && Skippable(p, link)
    ensures GetTweetId(p + link) == GetTweetId(link)
    decreases |p|
  {
    if p != [] {
      var u := p + link;
      assert u[0] == p[0];
      if p[0] == 't' {
        assert u[1] != 'w';
      }
      SkipOne(u);
      assert u[1..] == p[1..] + link;
      assert Skippable(p[1..], link) by {
        forall k | 0 <= k < |p[1..]|
          ensures p[1..][k] != 'x' && (p[1..][k] == 't' ==> (p[1..] + link)[k + 1] != 'w')
        {
          assert p[1..][k] == p[k + 1];
          assert (p[1..] + link)[k + 1] == u[k + 2];
        }
      }
      SkipPrefix(p[1..], link);
    } else {
      assert p + link == link;
    }
  }

  /** `https://` in front of a text starting with `x` or `tw` is searched
      past. */
  lemma SchemeSkipped(link: string)
    requires |link| >= 2 && (link[0] == 'x' || (link[0] == 't' && link[1] == 'w'))
    ensures GetTweetId("https://" + link) == GetTweetId(link)
  {
    var p := "https://";
    var u := p + link;
    assert Skippable(p, link) by {
      assert u[..8] == p && u[8] == link[0];
      assert forall k :: 0 <= k < 8 ==> u[k] == p[k];
      assert p[0] == 'h' && p[1] == 't' && p[2] == 't' && p[3] == 'p' && p[4] == 's';
      assert p[5] == ':' && p[6] == '/' && p[7] == '/';
    }
    SkipPrefix(p, link);
  }

  /** A match at the front is the leftmost one. */
  lemma GetTweetIdAtStart(s: string)
    requires TweetIdHere(s).Some?
    ensures GetTweetId(s) == TweetIdHere(s)
  {
  }

  // ---------------------------------------------------------------------
  // Text for the model
  // ---------------------------------------------------------------------

  /** The line naming the author and the handle. */
  function AuthorLine(t: Tweet): string {
    "AUTOR: " + Display(Some(t.author)) + " (@" + Display(Some(t.handle)) + ")"
  }

  /** The line with the two counts. */
  function CountsLine(t: Tweet): string {
    "METADATOS: " + Display(Some(t.likes)) + " Likes, " + Display(Some(t.retweets)) + " Retweets"
  }

  const TweetTitle: string := "TIPO: TWEET DE X/TWITTER\n"

  /** The text block of `formatTweetContent` between the author line and
      the counts line. */
  function TweetBody(t: Tweet): string {
    "\nCONTENIDO:\n\n" + Display(Some(t.text)) + "\n\n"
  }

  /** `formatTweetContent`: the type line and the author line open the
      block, and the counts line closes it. */
  function FormatTweetContent(t: Tweet): (r: string)
    ensures TweetTitle + AuthorLine(t) <= r
    ensures |CountsLine(t)| <= |r| && r[|r| - |CountsLine(t)|..] == CountsLine(t)
  {
    var head := TweetTitle + AuthorLine(t);
    var body := TweetBody(t);
    var counts := CountsLine(t);
    PrefixOfConcat(head, body + counts);
    SuffixOfConcat(head + body, counts);
    head + body + counts
  }

  /** The tweet's text reaches the model verbatim. */
  lemma FormatTweetContentHasText(t: Tweet)
    ensures Contains(FormatTweetContent(t), Display(Some(t.text)))
  {
    var text := Display(Some(t.text));
    var head := TweetTitle + AuthorLine(t);
    assert TweetBody(t) + CountsLine(t) == "\nCONTENIDO:\n\n" + text + ("\n\n" + CountsLine(t)) by {
      Assoc("\nCONTENIDO:\n\n" + text, "\n\n", CountsLine(t));
    }
    assert FormatTweetContent(t) == head + "\nCONTENIDO:\n\n" + text + ("\n\n" + CountsLine(t)) by {
      Assoc(head, TweetBody(t), CountsLine(t));
      Assoc(head, "\nCONTENIDO:\n\n" + text, "\n\n" + CountsLine(t));
      Assoc(head, "\nCONTENIDO:\n\n", text);
    }
    ContainsInfix(head + "\nCONTENIDO:\n\n", text, "\n\n" + CountsLine(t));
  }

  /** The block names the author, the handle and both counts verbatim. */
  lemma FormatTweetContentNamesAll(t: Tweet)
    ensures Contains(FormatTweetContent(t), Display(Some(t.author)) + " (@" + Display(Some(t.handle)) + ")")
    ensures Contains(FormatTweetContent(t), Display(Some(t.likes)) + " Likes, " + Display(Some(t.retweets)) + " Retweets")
  {
    var a, h := Display(Some(t.author)), Display(Some(t.handle));
    var l, rt := Display(Some(t.likes)), Display(Some(t.retweets));
    var who := a + " (@" + h + ")";
    var counts := l + " Likes, " + rt + " Retweets";
    var head, body := TweetTitle + "AUTOR: ", TweetBody(t);
    var r := FormatTweetContent(t);
    assert AuthorLine(t) == "AUTOR: " + who by {
      Assoc("AUTOR: ", a, " (@");
      Assoc("AUTOR: ", a + " (@", h);
      Assoc("AUTOR: ", a + " (@" + h, ")");
    }
    assert CountsLine(t) == "METADATOS: " + counts by {
      Assoc("METADATOS: ", l, " Likes, ");
      Assoc("METADATOS: ", l + " Likes, ", rt);
      Assoc("METADATOS: ", l + " Likes, " + rt, " Retweets");
    }
    assert r == head + who + (body + CountsLine(t)) by {
      Assoc(TweetTitle, "AUTOR: ", who);
      Assoc(TweetTitle + AuthorLine(t), body, CountsLine(t));
    }
    ContainsInfix(head, who, body + CountsLine(t));
    assert r == TweetTitle + AuthorLine(t) + body + "METADATOS: " + counts + [] by {
      Assoc(TweetTitle + AuthorLine(t) + body, "METADATOS: ", counts);
    }
    ContainsInfix(TweetTitle + AuthorLine(t) + body + "METADATOS: ", counts, []);
  }
}

=== FILE: url_kind.dfy ===
/** The source type the URL routes record in a capsule, decided by plain
    substring tests on the URL: YouTube first, then Twitter/X, else an
    article. Both the Express server and the serverless handler use the
    same tests. */
module UrlKind {
  import opened Strings

  datatype SourceKind = YouTube | Twitter | Article {
    /** The `sourceType` string stored in the capsule. */
    function Name(): string {
      match this
      case YouTube => "youtube"
      case Twitter => "twitter"
      case Article => "article"
    }
  }

  predicate MentionsYouTube(url: string) {
    Contains(url, "youtube.com") || Contains(url, "youtu.be")
  }

  predicate MentionsTwitter(url: string) {
    Contains(url, "twitter.com") || Contains(url, "x.com")
  }

  /** The `let sourceType = 'article'; if ... else if ...` block. */
  function ClassifyUrl(url: string): (r: SourceKind)
    ensures r == YouTube <==> MentionsYouTube(url)
    ensures r == Twitter <==> !MentionsYouTube(url) && MentionsTwitter(url)
    ensures r == Article <==> !MentionsYouTube(url) && !MentionsTwitter(url)
  {
    if MentionsYouTube(url) then YouTube
    else if MentionsTwitter(url) then Twitter
    else Article
  }

  /** A URL that names YouTube anywhere is a YouTube source, whatever else
      it names. */
  lemma YouTubeWins(a: string, b: string)
    ensures ClassifyUrl(a + "youtube.com" + b) == YouTube
  {
    ContainsInfix(a, "youtube.com", b);
  }

  /** Any URL holding "x.com" anywhere and no YouTube marker is classed as a
      tweet, however it continues. */
  lemma XComAnywhere(a: string, b: string)
    requires !MentionsYouTube(a + "x.com" + b)
    ensures ClassifyUrl(a + "x.com" + b) == Twitter
  {
    ContainsInfix(a, "x.com", b);
  }

  /** A Dropbox link is classed as a tweet: "dropbox.com" ends in "x.com". */
  lemma DropboxIsTwitter()
    ensures ClassifyUrl("https://dropbox.com/s/abc") == Twitter
  {
    var url := "https://dropbox.com/s/abc";
    MissingCharNotContained(url, "youtube.com", 'y');
    MissingCharNotContained(url, "youtu.be", 'y');
    assert url == "https://dropbo" + "x.com" + "/s/abc";
    XComAnywhere("https://dropbo", "/s/abc");
  }

  /** An address without the letters 'y', 'w' and 'c' can name none of the
      hosts, so it is an article. */
  lemma NoHostLettersIsArticle(url: string)
    requires 'y' !in url && 'w' !in url && 'c' !in url
    ensures ClassifyUrl(url) == Article
  {
    MissingCharNotContained(url, "youtube.com", 'y');
    MissingCharNotContained(url, "youtu.be", 'y');
    MissingCharNotContained(url, "twitter.com", 'w');
    MissingCharNotContained(url, "x.com", 'c');
  }

  /** An address that names none of the hosts is an article. */
  lemma PlainSiteIsArticle()
    ensures ClassifyUrl("https://example.org/post") == Article
  {
    var url := "https://example.org/post";
    assert forall i :: 0 <= i < |url| ==> url[i] != 'y' && url[i] != 'w' && url[i] != 'c';
    NoHostLettersIsArticle(url);
  }
}

=== FILE: verify.dfy ===
/** The serverless verify handler: it answers every request but the CORS
    preflight with 200 and `{ valid }`. */
module Verify {
  import opened Wrappers
  import opened Json
  import opened Http
  import opened Session

  /** The handler as written, with the first-colon check. */
  function Handle(m: Method, authorization: Option<string>, password: Option<string>, now: int,
                  decode: Codec, sign: Signer, parse: Parser): (r: Reply)
    ensures r.status == 200
    ensures m == Options ==> r.body.None?
    ensures m != Options ==>
      r.body == Some(JObj(map["valid" := JBool(VerifyFirstColon(BearerToken(authorization), password, now,
                                                                 decode, sign, parse))]))
  {
    if m == Options then Reply(200, None)
    else Reply(200, Some(JObj(map["valid" := JBool(VerifyFirstColon(BearerToken(authorization), password,
                                                                    now, decode, sign, parse))])))
  }

  /** The handler with the split moved to the last colon, as the file
      handler does it. */
  function HandleCorrected(m: Method, authorization: Option<string>, password: Option<string>, now: int,
                           decode: Codec, sign: Signer, parse: Parser): (r: Reply)
    ensures r.status == 200
    ensures m == Options ==> r.body.None?
    ensures m != Options ==>
      r.body == Some(JObj(map["valid" := JBool(VerifyLastColon(BearerToken(authorization), password, now,
                                                                decode, sign, parse))]))
  {
    if m == Options then Reply(200, None)
    else Reply(200, Some(JObj(map["valid" := JBool(VerifyLastColon(BearerToken(authorization), password,
                                                                   now, decode, sign, parse))])))
  }

  /** The reply to a client that sends "Bearer <token>" for a token the
      login handler issued: never valid as written, valid until the expiry
      once corrected. */
  lemma IssuedTokenReplies(password: string, random: string, expiry: int, now: int,
                           encode: Codec, decode: Codec, sign: Signer, parse: Parser)
    requires password != [] && HexSigner(sign)
    requires Issue(password, random, expiry, encode, sign) != []
    requires var data := TokenData(random, expiry);
      Faithful(data, Frame(data, sign(password, data)), random, expiry, encode, decode, parse)
    ensures var header := Some("Bearer " + Issue(password, random, expiry, encode, sign));
      Handle(Post, header, Some(password), now, decode, sign, parse).body
        == Some(JObj(map["valid" := JBool(false)]))
      && HandleCorrected(Post, header, Some(password), now, decode, sign, parse).body
        == Some(JObj(map["valid" := JBool(now <= expiry)]))
  {
    var token := Issue(password, random, expiry, encode, sign);
    BearerTokenOfHeader(token);
    IssuedTokenFailsAtFirstColon(password, random, expiry, now, encode, decode, sign, parse);
    IssuedTokenVerifiesAtLastColon(password, random, expiry, now, encode, decode, sign, parse);
  }
}

=== FILE: wrappers.dfy ===
/** Failure-carrying datatypes shared by every module of the model.
    `Option` stands for JavaScript's `undefined`/`null`-or-value, and
    `Result` for a computation that either returns a value or throws. */
module Wrappers {

  datatype Option<+T> = None | Some(value: T) {

    function GetOr(default: T): T {
      match this
      case Some(v) => v
      case None => default
    }
  }

  /** `Failure` carries the message of the error the source would throw. */
  datatype Result<+R, +E> = Success(value: R) | Failure(error: E) {

    predicate IsFailure() {
      Failure?
    }

    function PropagateFailure<U>(): Result<U, E>
      requires Failure?
    {
      Failure(error)
    }

    function Extract(): R
      requires Success?
    {
      value
    }
  }
}

=== FILE: youtube.dfy ===
/** The transcript fetcher of the self-hosted server: the transcript
    library first, the public timed-text captions second, and a null
    transcript when both fail; the extraction of the 11-character video id
    from a URL; and the text block handed to the model. */
module YouTube {
  import opened Wrappers
  import opened Strings
  import opened Http
  import opened Fallback

  const DefaultTitle: string := "Video de YouTube"

  /** The names of the two methods, which are also the `source` of what
      each yields. */
  const LibraryName: string := "youtube-transcript-api"
  const TimedTextName: string := "timedtext-api"

  /** What a method of the chain yields. */
  datatype Transcript = Transcript(title: string, text: string, source: string)

  /** What `fetchYouTubeTranscript` returns: title and transcript are
      `null` and `error` holds the summary when every method failed. */
  datatype TranscriptData =
    TranscriptData(title: Option<string>, transcript: Option<string>, error: Option<string>, source: string)

  // ---------------------------------------------------------------------
  // Method 1: the transcript library
  // ---------------------------------------------------------------------

  /** The library's answer: a title (absent or empty when unknown) and the
      text of each segment. */
  datatype LibraryTranscript = LibraryTranscript(title: Option<string>, segments: seq<string>)

  function FromLibrary(answer: Result<LibraryTranscript, string>): (r: Result<Transcript, string>)
    ensures r.Success? <==> answer.Success?
    ensures r.Success? ==> r.value.title != [] && r.value.source == LibraryName
    ensures r.Success? ==> r.value.text == Join(answer.value.segments, " ")
  {
    var data :- answer;
    var title := if data.title.None? || data.title.value == [] then DefaultTitle else data.title.value;
    Success(Transcript(title, Join(data.segments, " "), LibraryName))
  }

  // ---------------------------------------------------------------------
  // Method 2: timed-text captions
  // ---------------------------------------------------------------------

  /** What the regular expressions of the timed-text method find in the watch
      page, which the model takes as given: the `<title>` text, the
      `captionTracks` list, and the `baseUrl` of the Spanish track and of
      the first track in it. */
  datatype PageScan = PageScan(title: Option<string>, captionTracks: Option<string>,
                               spanishUrl: Option<string>, firstUrl: Option<string>)

  type PageScanner = string -> PageScan

  function WatchUrl(videoId: string): string {
    "https://www.youtube.com/watch?v=" + videoId
  }

  /** `url.replace(/\\u0026/g, '&')`: the JSON escape of `&` left in page
      text. */
  function UnescapeAmpersands(url: string): string {
    ReplaceAll(url, "\\u0026", "&")
  }

  /** The caption URL: the Spanish track when there is one, else the first. */
  function CaptionUrl(scan: PageScan): (r: Option<string>)
    ensures scan.spanishUrl.Some? ==> r == Some(UnescapeAmpersands(scan.spanishUrl.value))
    ensures scan.spanishUrl.None? ==> r == if scan.firstUrl.Some? then Some(UnescapeAmpersands(scan.firstUrl.value)) else None
  {
    if scan.spanishUrl.Some? then Some(UnescapeAmpersands(scan.spanishUrl.value))
    else if scan.firstUrl.Some? then Some(UnescapeAmpersands(scan.firstUrl.value))
    else None
  }

  /** Where the caption text that starts at index 0 ends: `<text`, the first
      `>` after it, the characters up to the next `<`, then `</text>`. */
  function FragmentHere(s: string): (r: Option<(string, nat)>)
    ensures r.Some? ==> 0 < r.value.1 <= |s| && '<' !in r.value.0
  {
    if !("<text" <= s) then None
    else
      match IndexOfChar(s[5..], '>')
      case None => None
      case Some(g) =>
        var start := 5 + g + 1;
        var body := s[start..];
        var n := match IndexOfChar(body, '<') case Some(k) => k case None => |body|;
        assert '<' !in body[..n];
        if "</text>" <= body[n..] then Some((body[..n], start + n + 7)) else None
  }

  /** `xml.matchAll(/<text[^>]*>([^<]*)<\/text>/g)`, as the captured texts. */
  function Fragments(xml: string): (r: seq<string>)
    ensures forall i :: 0 <= i < |r| ==> '<' !in r[i]
    decreases |xml|
  {
    if xml == [] then []
    else
      match FragmentHere(xml)
      case Some((text, end)) => [text] + Fragments(xml[end..])
      case None => Fragments(xml[1..])
  }

  /** The entity decoding applied to each caption text, in the source's order:
      `&amp;` first, then `&lt;`, `&gt;`, `&quot;`, `&#39;`, then newlines
      become spaces. The result is one line, and a text without `&` only
      has its line breaks changed. */
  function DecodeFragment(f: string): (r: string)
    ensures '\n' !in r
    ensures '&' !in f ==> r == ReplaceAll(f, "\n", " ")
  {
    var a := ReplaceAll(f, "&amp;", "&");
    var b := ReplaceAll(a, "&lt;", "<");
    var c := ReplaceAll(b, "&gt;", ">");
    var d := ReplaceAll(c, "&quot;", "\"");
    var e := ReplaceAll(d, "&#39;", "'");
    ReplaceAllRemovesChar(e, '\n', " ");
    assert '&' !in f ==> e == f by {
      if '&' !in f {
        NoEntity(f, "&amp;", "&");
        NoEntity(f, "&lt;", "<");
        NoEntity(f, "&gt;", ">");
        NoEntity(f, "&quot;", "\"");
        NoEntity(f, "&#39;", "'");
      }
    }
    ReplaceAll(e, "\n", " ")
  }

  /** A text without `&` holds no entity, so replacing one leaves it as is. */
  lemma NoEntity(f: string, pat: string, rep: string)
    requires pat != [] && pat[0] == '&' && '&' !in f
    ensures ReplaceAll(f, pat, rep) == f
  {
    ReplaceAllPlain(f, [], pat, rep);
    assert f + [] == f;
  }

  const NoCaptions: string := "No captions available for this video"
  const NoCaptionUrl: string := "Could not extract caption URL"
  const NoTranscriptText: string := "No transcript text found"

  /** `titleMatch ? titleMatch[1] : 'Video de YouTube'`. */
  function TitleOr(title: Option<string>): (r: string)
    ensures r != []
    ensures title.Some? && title.value != [] ==> r == title.value
  {
    if title.Some? && title.value != [] then title.value else DefaultTitle
  }

  /** Each caption text decoded, in order. */
  function DecodeAll(frags: seq<string>): (r: seq<string>)
    ensures |r| == |frags| && forall i :: 0 <= i < |frags| ==> r[i] == DecodeFragment(frags[i])
  {
    seq(|frags|, i requires 0 <= i < |frags| => DecodeFragment(frags[i]))
  }

  /** The timed-text method, step by step: the watch page, its caption
      list, the caption URL, the caption file, and its decoded texts. */
  function FromTimedText(videoId: string, fetch: Fetcher, scanPage: PageScanner): (r: Result<Transcript, string>)
    ensures var page := fetch(WatchUrl(videoId));
      page.NetworkError? ==> r == Failure(page.message)
    ensures var page := fetch(WatchUrl(videoId));
      page.Response? && !Ok(page.status) ==> r == Failure("YouTube page fetch failed: " + IntToString(page.status))
    ensures var page := fetch(WatchUrl(videoId));
      page.Response? && Ok(page.status) && scanPage(page.body).captionTracks.None? ==> r == Failure(NoCaptions)
    ensures var page := fetch(WatchUrl(videoId));
      page.Response? && Ok(page.status) && scanPage(page.body).captionTracks.Some?
      && (CaptionUrl(scanPage(page.body)).None? || CaptionUrl(scanPage(page.body)).value == []) ==>
      r == Failure(NoCaptionUrl)
    ensures var page := fetch(WatchUrl(videoId));
      page.Response? && Ok(page.status) && scanPage(page.body).captionTracks.Some?
      && CaptionUrl(scanPage(page.body)).Some? && CaptionUrl(scanPage(page.body)).value != [] ==>
      var captions := fetch(CaptionUrl(scanPage(page.body)).value);
      (captions.NetworkError? ==> r == Failure(captions.message))
      && (captions.Response? && !Ok(captions.status) ==>
            r == Failure("Caption fetch failed: " + IntToString(captions.status)))
      && (captions.Response? && Ok(captions.status) && Fragments(captions.body) == [] ==>
            r == Failure(NoTranscriptText))
      && (captions.Response? && Ok(captions.status) && Fragments(captions.body) != [] ==>
            r == Success(Transcript(TitleOr(scanPage(page.body).title),
                                    Join(DecodeAll(Fragments(captions.body)), " "), TimedTextName)))
  {
    match fetch(WatchUrl(videoId))
    case NetworkError(m) => Failure(m)
    case Response(status, html) =>
      if !Ok(status) then Failure("YouTube page fetch failed: " + IntToString(status))
      else
        var scan := scanPage(html);
        if scan.captionTracks.None? then Failure(NoCaptions)
        else
          var url := CaptionUrl(scan);
          if url.None? || url.value == [] then Failure(NoCaptionUrl)
          else
            match fetch(url.value)
            case NetworkError(m) => Failure(m)
            case Response(captionStatus, xml) =>
              if !Ok(captionStatus) then Failure("Caption fetch failed: " + IntToString(captionStatus))
              else
                var frags := Fragments(xml);
                if frags == [] then Failure(NoTranscriptText)
                else Success(Transcript(TitleOr(scan.title), Join(DecodeAll(frags), " "), TimedTextName))
  }

  // ---------------------------------------------------------------------
  // Entity decoding inverts XML escaping (for text without '&')
  // ---------------------------------------------------------------------

  /** The order in which `DecodeFragment` restores a character (0: never
      escaped). Stage 1, `&amp;`, has no character here: texts with `&` are
      outside the round trip. */
  function StageOf(c: char): nat {
    if c == '<' then 2 else if c == '>' then 3 else if c == '"' then 4 else if c == '\'' then 5 else 0
  }

  /** The pattern and replacement of stage `k`. */
  function StagePattern(k: nat): string
    requires 1 <= k <= 5
  {
    if k == 1 then "&amp;" else if k == 2 then "&lt;" else if k == 3 then "&gt;" else if k == 4 then "&quot;" else "&#39;"
  }

  function StageChar(k: nat): char
    requires 1 <= k <= 5
  {
    if k == 1 then '&' else if k == 2 then '<' else if k == 3 then '>' else if k == 4 then '"' else '\''
  }

  /** The XML escape of one character. */
  function EscapeChar(c: char): string {
    if StageOf(c) == 0 then [c] else StagePattern(StageOf(c))
  }

  /** XML escaping, as the caption service writes text, for a text in which
      `&` does not occur. */
  function EscapeXml(s: string): string
    decreases |s|
  {
    if s == [] then [] else EscapeChar(s[0]) + EscapeXml(s[1..])
  }

  /** One character as it stands before stage `k`. */
  function PartlyEscapedChar(c: char, k: nat): string {
    if StageOf(c) >= k then EscapeChar(c) else [c]
  }

  /** The text as it stands before stage `k`: characters restored by earlier
      stages are plain, the others are still escaped. */
  function PartlyEscaped(s: string, k: nat): string
    decreases |s|
  {
    if s == [] then [] else PartlyEscapedChar(s[0], k) + PartlyEscaped(s[1..], k)
  }

  /** Escaping is the state before the first stage. */
  lemma {:induction false} EscapeIsStageOne(s: string)
    ensures PartlyEscaped(s, 1) == EscapeXml(s)
    decreases |s|
  {
    if s != [] {
      EscapeIsStageOne(s[1..]);
    }
  }

  /** After the last stage nothing is escaped. */
  lemma {:induction false} NothingEscapedAfterStages(s: string)
    ensures PartlyEscaped(s, 6) == s
    decreases |s|
  {
    if s != [] {
      NothingEscapedAfterStages(s[1..]);
      assert s == [s[0]] + s[1..];
    }
  }

  /** An escape of a later stage starts like the pattern of stage `k` but
      differs from it at its second character. */
  lemma LaterEscapePasses(c: char, rest: string, k: nat)
    requires 1 <= k < StageOf(c)
    ensures ReplaceAll(EscapeChar(c) + rest, StagePattern(k), [StageChar(k)])
      == EscapeChar(c) + ReplaceAll(rest, StagePattern(k), [StageChar(k)])
  {
    var e := EscapeChar(c);
    var pat := StagePattern(k);
    assert e[1] != pat[1];
    assert (e + rest)[1] == e[1];
    assert !(pat <= e + rest);
    assert '&' !in e[1..];
    ReplaceAllMismatch(e, rest, pat, [StageChar(k)]);
  }

  /** Stage `k` turns one character's form before it into its form after it. */
  lemma StageHead(c: char, rest: string, k: nat)
    requires 1 <= k <= 5 && c != '&'
    ensures ReplaceAll(PartlyEscapedChar(c, k) + rest, StagePattern(k), [StageChar(k)])
      == PartlyEscapedChar(c, k + 1) + ReplaceAll(rest, StagePattern(k), [StageChar(k)])
  {
    var pat := StagePattern(k);
    var rep := [StageChar(k)];
    if StageOf(c) == k {
      assert PartlyEscapedChar(c, k) == pat;
      ReplaceAllHit(rest, pat, rep);
      assert PartlyEscapedChar(c, k + 1) == rep;
    } else if StageOf(c) > k {
      LaterEscapePasses(c, rest, k);
    } else {
      assert PartlyEscapedChar(c, k) == [c];
      ReplaceAllPlain([c], rest, pat, rep);
    }
  }

  /** One stage of `DecodeFragment` restores exactly its own character. */
  lemma {:induction false} StageStep(s: string, k: nat)
    requires 1 <= k <= 5 && '&' !in s
    ensures ReplaceAll(PartlyEscaped(s, k), StagePattern(k), [StageChar(k)]) == PartlyEscaped(s, k + 1)
    decreases |s|
  {
    if s != [] {
      assert s[0] in s;
      assert forall x :: x in s[1..] ==> x in s;
      StageStep(s[1..], k);
      StageHead(s[0], PartlyEscaped(s[1..], k), k);
    }
  }

  /** Decoding undoes XML escaping of a single-line text without `&`. */
  lemma DecodeEscaped(s: string)
    requires '&' !in s && '\n' !in s
    ensures DecodeFragment(EscapeXml(s)) == s
  {
    EscapeIsStageOne(s);
    StageStep(s, 1);
    StageStep(s, 2);
    StageStep(s, 3);
    StageStep(s, 4);
    StageStep(s, 5);
    NothingEscapedAfterStages(s);
    ReplaceAllAbsentChar(s, '\n', " ");
  }

  /** Because `&amp;` is decoded first, a text that was escaped once and
      holds a literal "&lt;" comes out as "<": decoding does not invert
      escaping for every text with `&`. */
  lemma DecodeUnescapesTwice()
    ensures DecodeFragment("&amp;lt;") == "<"
  {
    var a := "&amp;lt;";
    assert a == "&amp;" + "lt;";
    ReplaceAllHit("lt;", "&amp;", "&");
    ReplaceAllPlain("lt;", [], "&amp;", "&");
    assert "lt;" + [] == "lt;";
    assert ReplaceAll(a, "&amp;", "&") == "&lt;";
    ReplaceAllHit([], "&lt;", "<");
    assert "&lt;" + [] == "&lt;";
    assert ReplaceAll("&lt;", "&lt;", "<") == "<";
    ReplaceAllPlain("<", [], "&gt;", ">");
    ReplaceAllPlain("<", [], "&quot;", "\"");
    ReplaceAllPlain("<", [], "&#39;", "'");
    ReplaceAllAbsentChar("<", '\n', " ");
    assert "<" + [] == "<";
  }

  // ---------------------------------------------------------------------
  // The chain
  // ---------------------------------------------------------------------

  function TranscriptAttempts(videoId: string, library: Result<LibraryTranscript, string>,
                              fetch: Fetcher, scanPage: PageScanner): seq<Attempt<Transcript>> {
    [Attempt(LibraryName, FromLibrary(library)),
     Attempt(TimedTextName, FromTimedText(videoId, fetch, scanPage))]
  }

  /** `fetchYouTubeTranscript`: never throws; a failed chain is reported in
      the result with a `null` transcript and the two reasons. */
  function FetchTranscript(videoId: string, library: Result<LibraryTranscript, string>,
                           fetch: Fetcher, scanPage: PageScanner): (r: TranscriptData)
    ensures library.Success? ==>
      r == TranscriptData(Some(FromLibrary(library).value.title), Some(FromLibrary(library).value.text),
                          None, LibraryName)
    ensures library.Failure? && FromTimedText(videoId, fetch, scanPage).Success? ==>
      var t := FromTimedText(videoId, fetch, scanPage).value;
      r == TranscriptData(Some(t.title), Some(t.text), None, TimedTextName)
    ensures r.transcript.None? <==> library.Failure? && FromTimedText(videoId, fetch, scanPage).Failure?
    ensures r.transcript.None? ==>
      r == TranscriptData(None, None,
                          Some(LibraryName + ": " + FromLibrary(library).error + "; "
                               + (TimedTextName + ": " + FromTimedText(videoId, fetch, scanPage).error)),
                          "none")
  {
    var attempts := TranscriptAttempts(videoId, library, fetch, scanPage);
    assert attempts[0].outcome == FromLibrary(library);
    assert attempts[1].outcome == FromTimedText(videoId, fetch, scanPage);
    RunFindsAny(attempts);
    match Run(attempts)
    case Found(t, _, _) => TranscriptData(Some(t.title), Some(t.text), None, t.source)
    case Exhausted(errors) =>
      assert errors == [FailureOf(attempts[0]), FailureOf(attempts[1])];
      SummaryOfTwo(errors[0], errors[1]);
      TranscriptData(None, None, Some(Summary(errors)), "none")
  }

  /** When both methods fail, the reported error names each with its
      reason. */
  lemma FetchTranscriptReportsBoth(videoId: string, library: Result<LibraryTranscript, string>,
                                   fetch: Fetcher, scanPage: PageScanner)
    requires library.Failure? && FromTimedText(videoId, fetch, scanPage).Failure?
    ensures var e := FetchTranscript(videoId, library, fetch, scanPage).error;
      e.Some? && Contains(e.value, LibraryName + ": " + FromLibrary(library).error)
      && Contains(e.value, TimedTextName + ": " + FromTimedText(videoId, fetch, scanPage).error)
  {
    var first := LibraryName + ": " + FromLibrary(library).error;
    var second := TimedTextName + ": " + FromTimedText(videoId, fetch, scanPage).error;
    ContainsInfix([], first, "; " + second);
    assert [] + first + ("; " + second) == first + "; " + second;
    ContainsInfix(first + "; ", second, []);
    assert first + "; " + second + [] == first + "; " + second;
  }

  // ---------------------------------------------------------------------
  // Video id
  // ---------------------------------------------------------------------

  /** Length of the alternative of `(youtu.be\/|v\/|u\/\w\/|embed\/|watch\?v=|&v=)`
      that matches at index 0 (the `.` of `youtu.be` is any character but a
      line terminator). */
  function AltLen(s: string): (r: Option<nat>)
    ensures r.Some? ==> r.value <= |s|
  {
    if |s| >= 9 && s[..5] == "youtu" && !IsLineTerminator(s[5]) && s[6..9] == "be/" then Some(9)
    else if "v/" <= s then Some(2)
    else if |s| >= 4 && s[..2] == "u/" && IsWordChar(s[2]) && s[3] == '/' then Some(4)
    else if "embed/" <= s then Some(6)
    else if "watch?v=" <= s then Some(8)
    else if "&v=" <= s then Some(3)
    else None
  }

  /** The last index at or before `p` where an alternative matches: the
      greedy `^.*` gives back characters one at a time. */
  function LastAltStart(s: string, p: nat): (r: Option<nat>)
    requires p <= |s|
    ensures r.Some? ==> r.value <= p && AltLen(s[r.value..]).Some?
    ensures r.Some? ==> forall q :: r.value < q <= p ==> AltLen(s[q..]).None?
    ensures r.None? ==> forall q :: 0 <= q <= p ==> AltLen(s[q..]).None?
    decreases p
  {
    if AltLen(s[p..]).Some? then Some(p)
    else if p == 0 then None
    else LastAltStart(s, p - 1)
  }

  /** Length of the longest run without `#`, `&` or `?`. */
  function IdRun(s: string): (k: nat)
    ensures k <= |s| && forall j :: 0 <= j < k ==> s[j] !in "#&?"
    ensures k == |s| || s[k] in "#&?"
    decreases |s|
  {
    if s != [] && s[0] !in "#&?" then 1 + IdRun(s[1..]) else 0
  }

  /** Index of the first line terminator, which `.` cannot cross. */
  function LineEnd(s: string): (k: nat)
    ensures k <= |s| && forall j :: 0 <= j < k ==> !IsLineTerminator(s[j])
    ensures k == |s| || IsLineTerminator(s[k])
    decreases |s|
  {
    if s != [] && !IsLineTerminator(s[0]) then 1 + LineEnd(s[1..]) else 0
  }

  /** `getYoutubeId`: the group after the last alternative on the first line,
      kept only when it is 11 characters long. */
  function GetYoutubeId(url: string): (r: Option<string>)
    ensures r.Some? ==> |r.value| == 11 && forall j :: 0 <= j < 11 ==> r.value[j] !in "#&?"
  {
    match LastAltStart(url, LineEnd(url))
    case None => None
    case Some(p) =>
      var rest := url[p + AltLen(url[p..]).value..];
      var id := rest[..IdRun(rest)];
      if |id| == 11 then Some(id) else None
  }

  /** The characters of a video id. */
  predicate IdChar(c: char) {
    IsWordChar(c) || c == '-'
  }

  /** No alternative matches where neither `/` nor `=` follows. */
  lemma NoAltWithoutSlash(s: string)
    requires '/' !in s && '=' !in s
    ensures AltLen(s).None?
  {
    if |s| >= 2 { assert s[1] in s; }
    if |s| >= 3 { assert s[2] in s; }
    if |s| >= 6 { assert s[5] in s; }
    if |s| >= 8 { assert s[7] in s; }
    if |s| >= 9 { assert s[8] in s; }
  }

  /** Every alternative starts with one of its own first letters, and the
      one that starts with `v` continues with `/`. */
  lemma AltStart(s: string)
    requires AltLen(s).Some?
    ensures |s| >= 2
    ensures s[0] == 'y' || (s[0] == 'v' && s[1] == '/') || s[0] == 'u' || s[0] == 'e'
            || s[0] == 'w' || s[0] == '&'
  {
  }

  /** No line terminator occurs in `s`. */
  predicate OneLine(s: string) {
    '\n' !in s && '\r' !in s && '\U{2028}' !in s && '\U{2029}' !in s
  }

  lemma {:induction false} LineEndAll(s: string)
    requires OneLine(s)
    ensures LineEnd(s) == |s|
    decreases |s|
  {
    if s != [] {
      assert s[0] in s;
      assert forall c :: c in s[1..] ==> c in s;
      LineEndAll(s[1..]);
    }
  }

  lemma {:induction false} IdRunAll(s: string)
    requires forall j :: 0 <= j < |s| ==> IdChar(s[j])
    ensures IdRun(s) == |s|
    decreases |s|
  {
    if s != [] {
      assert IdChar(s[0]);
      IdRunAll(s[1..]);
    }
  }

  /** No alternative starts inside "atch?v=". */
  lemma NoAltInWatchMarker(prefix: string, id: string)
    ensures forall q :: |prefix| < q < |prefix| + 8 ==> AltLen((prefix + ("watch?v=" + id))[q..]).None?
  {
    var tail := "watch?v=" + id;
    var url := prefix + tail;
    var p0 := |prefix|;
    var k := 1;
    while k < 8
      invariant 1 <= k <= 8
      invariant forall q :: p0 < q < p0 + k ==> AltLen(url[q..]).None?
    {
      assert url[p0 + k] == "watch?v="[k];
      if k == 6 {
        assert url[p0 + 7] == tail[7] == '=';
      }
      if AltLen(url[p0 + k..]).Some? {
        AltStart(url[p0 + k..]);
      }
      k := k + 1;
    }
  }

  /** No alternative starts inside an id, which holds neither `/` nor `=`. */
  lemma NoAltInId(prefix: string, id: string)
    requires forall j :: 0 <= j < |id| ==> IdChar(id[j])
    ensures forall q :: |prefix| + 8 <= q <= |prefix| + 8 + |id| ==> AltLen((prefix + ("watch?v=" + id))[q..]).None?
  {
    var url := prefix + ("watch?v=" + id);
    var p0 := |prefix|;
    forall q | p0 + 8 <= q <= |url|
      ensures AltLen(url[q..]).None?
    {
      var t := url[q..];
      assert t == id[q - p0 - 8..];
      forall j | 0 <= j < |t|
        ensures t[j] != '/' && t[j] != '='
      {
        assert t[j] == id[q - p0 - 8 + j];
      }
      NoAltWithoutSlash(t);
    }
  }

  lemma MarkerOneLine()
    ensures OneLine("watch?v=")
  {
    assert forall j :: 0 <= j < 8 ==> !IsLineTerminator("watch?v="[j]);
  }

  /** A watch link whose prefix is one line is one line. */
  lemma WatchLinkOneLine(prefix: string, id: string, url: string)
    requires OneLine(prefix)
    requires forall j :: 0 <= j < |id| ==> IdChar(id[j])
    requires url == prefix + ("watch?v=" + id)
    ensures LineEnd(url) == |url|
  {
    assert OneLine(id) by {
      forall j | 0 <= j < |id| ensures !IsLineTerminator(id[j]) {
        assert IdChar(id[j]);
      }
    }
    MarkerOneLine();
    LineEndAll(url);
  }

  /** The search from `p` stops at `p0` when an alternative matches there and
      none matches after it. */
  lemma LastAltIs(s: string, p: nat, p0: nat)
    requires p0 <= p <= |s| && AltLen(s[p0..]).Some?
    requires forall q :: p0 < q <= p ==> AltLen(s[q..]).None?
    ensures LastAltStart(s, p) == Some(p0)
  {
  }

  lemma AltLenWatch(id: string)
    ensures AltLen("watch?v=" + id) == Some(8)
  {
    var t := "watch?v=" + id;
    assert t[0] == 'w' && t[..5][0] == 'w' && t[..2][0] == 'w';
    assert "watch?v=" <= t;
  }

  /** The last alternative of a watch link is its own "watch?v=". */
  lemma WatchLinkLastAlt(prefix: string, id: string, url: string)
    requires forall j :: 0 <= j < |id| ==> IdChar(id[j])
    requires url == prefix + ("watch?v=" + id)
    ensures LastAltStart(url, |url|) == Some(|prefix|)
    ensures AltLen(url[|prefix|..]) == Some(8)
  {
    assert url[|prefix|..] == "watch?v=" + id;
    AltLenWatch(id);
    NoAltInWatchMarker(prefix, id);
    NoAltInId(prefix, id);
    LastAltIs(url, |url|, |prefix|);
  }

  /** The id of a watch link whose id is the last thing on it. */
  lemma GetYoutubeIdOfWatchLink(prefix: string, id: string)
    requires OneLine(prefix)
    requires |id| == 11 && forall j :: 0 <= j < |id| ==> IdChar(id[j])
    ensures GetYoutubeId(prefix + ("watch?v=" + id)) == Some(id)
  {
    var url := prefix + ("watch?v=" + id);
    WatchLinkOneLine(prefix, id, url);
    WatchLinkLastAlt(prefix, id, url);
    assert url[|prefix| + 8..] == id;
    IdRunAll(id);
    assert id[..11] == id;
  }

  // ---------------------------------------------------------------------
  // Text for the model
  // ---------------------------------------------------------------------

  /** `formatYouTubeContent`: the text block for the model, or `None` (the
      source's `null`) when there is no transcript. The header keeps the
      source's mis-encoded "TRANSCRIPCIÃ“N" verbatim. */
  function FormatYouTubeContent(data: TranscriptData, videoId: string): (r: Option<string>)
    ensures r.Some? <==> data.transcript.Some? && data.transcript.value != []
    ensures r.Some? ==> "TIPO: VIDEO DE YOUTUBE\nID: " + videoId <= r.value
    ensures r.Some? ==>
      (|data.transcript.value| <= |r.value|
       && r.value[|r.value| - |data.transcript.value|..] == data.transcript.value)
  {
    if data.transcript.Some? && data.transcript.value != [] then
      var head := "TIPO: VIDEO DE YOUTUBE\nID: " + videoId;
      var r := head + "\nTITULO: " + NullableText(data.title) + "\nCONTENIDO (TRANSCRIPCIÃ“N):\n\n"
        + data.transcript.value;
      assert r == head + ("\nTITULO: " + NullableText(data.title) + "\nCONTENIDO (TRANSCRIPCIÃ“N):\n\n"
        + data.transcript.value);
      Some(r)
    else None
  }

  /** A failed chain yields no text: the server falls back to its "no
      transcript" reply. */
  lemma NoTextWithoutTranscript(videoId: string, library: Result<LibraryTranscript, string>,
                                fetch: Fetcher, scanPage: PageScanner)
    requires library.Failure? && FromTimedText(videoId, fetch, scanPage).Failure?
    ensures FormatYouTubeContent(FetchTranscript(videoId, library, fetch, scanPage), videoId).None?
  {
  }
}
